=== FILE: README.md ===
# blui template compiler, modelled in Dafny

This project models the compiler at the centre of vue-cli-plugin-blui. The
compiler reads a BLUI element tree (a `<template>` whose elements are
`Window`, `Menu`, `MenuItem`, `Toolbar`, `ToolbarItem`, `Button` and
`SegmentedControl`). It turns the tree into two outputs:

- the text of a Vue template;
- the fragments of a Vue script: an `import` banner, a `data()` block and a
  `created()` block.

Both generators are written as pairs of handlers, `handler` and
`afterHandler`, passed to one depth-first traversal. The handlers close over
a few variables:

- `rtId`, the counter for anonymous instance names `rt<N>`;
- `space`, the indentation;
- `skip`, the flag that silences the descendants of a `Menu`;
- the text or records built so far.

The model keeps that structure. Its parts are:

- A traversal is the list of `Enter`/`Leave` visits it makes (`Blui.Walk`).
- Each generator is a fold of one step function over that list
  (`Blui.Handle`). The fold threads an explicit state record.
- An exception the JavaScript throws is a `Failure` of a `Result`. Such
  exceptions come from an undefined registry entry, the null parent of the
  root, a missing host element, `' '.repeat` of a negative count,
  `toCamelCase(undefined)` and a missing root. The fold stops at the first
  one, as the uncaught exception does. One exception is printed instead (see
  `Script.ArgValue` under "Left out").
- Next to each fold stands an independent, structural reference definition:
  - `Template.RenderNode` renders the template;
  - `Script.RecordsNode` collects the script records;
  - `MenuBuilder.BlocksFrom` lists the menu blocks.

  Lemmas prove that the fold equals its reference on the trees the compiler
  is meant for.

Modules, one per file:

| module | file | what it holds |
|---|---|---|
| `Wrappers` | wrappers.dfy | `Option`, `Result` and the `Fault`s |
| `Nesting` | nesting.dfy | a stack machine for proper bracket nesting |
| `Utils` | utils.dfy | `toCamelCase`, `indent`, `Instance` (utils.js) |
| `Registry` | registry.dfy | `instanceMap` (map.js) |
| `Blui` | blui.dfy | `Element`, `Node`, `_parse`/`_parseChild`, `traverse`, `toString` (blui.js) |
| `Shape` | shape.dfy | instance naming, and the tree shapes the generators are meant for |
| `Template` | template.dfy | `bluiToVueTemplate` |
| `MenuBuilder` | menu.dfy | `menuStructureBuilder` |
| `Script` | script.dfy | `instanceInitializer`, `extractFromBlui` |
| `Agreement` | agreement.dfy | how the names the two generators choose relate |

Both generators share some vocabulary:

- A tree is *shaped* (`Shape.Shaped`) when:
  - every kind is registered;
  - only a kind with a host element is marked `extends`;
  - a Menu or MenuItem has only Menus and MenuItems below it;
  - a MenuItem sits only below a Menu or MenuItem.
- A tree is *well formed* (`Shape.WellFormed`) when it is shaped and its root
  has no slot and is not a MenuItem.
- A menu is *ready* (`MenuBuilder.MenuReady`) when its builder cannot throw:
  the menu has an `instance` attribute, or no direct child is a MenuItem with
  children.
- Hosts are *named* (`Shape.HostsNamed`) when every node marked `extends`
  carries an `instance` attribute.

The two generators number anonymous instances differently:

- The template generator takes an `rt<N>` name only for a node it binds,
  that is, one not marked `extends`.
- The script generator takes a name before it tests `extends`.

`Agreement.NamesAgree` proves that their names coincide when hosts are
named. `Agreement.AnonymousHostDiverges` exhibits a mismatch for one anonymous
host: a Window host without `instance` around one anonymous Button. For that
tree the template binds `:instance="rt0"` while `data()` declares `rt1`. Named
hosts are not necessary for agreement: `Agreement.AnonymousHostAgrees` shows
the same anonymous host around a named Button, where both generators name only
the Button.

## Model

| member | source | states |
|---|---|---|
| Utils.CamelCaseIsPointwise | utils.js:4-8 | The left-to-right global replacement equals a position-wise definition. An `_` followed by a lower-case ASCII letter disappears, that letter becomes upper case, and every other character is kept. |
| Utils.CamelCaseLength | utils.js:4-8 | The output is shorter than the input by exactly the number of `_[a-z]` matches. |
| Utils.CamelHead | utils.js:5-7 | A string that does not start with a lower-case letter converts to a non-empty string that does not either. |
| Utils.CamelCaseNoMatch | utils.js:5-7 | The output contains no `_` followed by a lower-case letter. |
| Utils.CamelCaseIdentity | utils.js:5-7 | A string without a match is returned unchanged. This covers `_` before a digit, before an upper-case letter and at the end. |
| Utils.CamelCaseIdempotent | utils.js:4-8 | Converting twice gives the same string as converting once. |
| Utils.Indent | utils.js:10-12 | `indent(n)` is exactly `n` space characters. |
| Utils.JoinLength | utils.js:20-22 | A join is as long as its parts plus one separator between each two of them. |
| Utils.NatToString | vue-blui-loader.js:53 | The counter prints as a non-empty run of decimal digits, with a leading `0` only for zero. |
| Utils.NatToStringValue | vue-blui-loader.js:53 | The digits of `rt<N>` denote `N`: read back as a decimal number, the printed counter is the counter. |
| Utils.NewAndLetNewShareBody | utils.js:20-26 | `new` starts with `this.` and `letNew` with `let `. The rest of the two texts is identical. |
| Utils.NewWithoutArguments | utils.js:20-22 | Without arguments the constructor line is `this.<name> = new <Class>();\n`. |
| Registry.RegistryKinds | map.js:1-61 | The registry has exactly the seven element kinds. |
| Registry.NeedKinds | map.js:2-60 | `need` holds exactly for Window, Menu, Button and SegmentedControl. |
| Registry.NeedHasClass | map.js:2-60 | Every kind with `need` names a runtime class. |
| Registry.ConstArgsHaveNamespace | map.js:2-55 | Every `const` argument has its key in the entry's `const` namespace table. |
| Registry.OnlyWindowHasHost | map.js:10-13 | Only Window has a host element: `div` with class `windowClass`. |
| Registry.OnlyMenuAndToolbarHaveSlots | map.js:16-38 | Only Menu (`menuBar`) and Toolbar (`toolbar`) have slots. |
| Registry.ComponentlessKinds | map.js:29-38 | Exactly Toolbar and MenuItem have no component. |
| Registry.OnlyToolbarItemHasProps | map.js:39-43 | ToolbarItem alone has props, namely `['label']`, and it has no runtime class. |
| Registry.MenuKindsFacts | map.js:16-33 | Menu and MenuItem have neither host element nor props; Menu has `need` and MenuItem does not. |
| Blui.AttribLastWins | blui.js:9-16 | The attribute map holds exactly the attribute names. Each maps to the value of its last occurrence in the list. |
| Blui.ElementChildren | blui.js:18-29 | `getChildren` keeps exactly the element children, and no more of them than there are child nodes. A lone element is kept and a lone other node (text, comment) is dropped. |
| Blui.ElementChildrenAppend | blui.js:18-29 | The element children of a joined list are those of the first part followed by those of the second. With the single-node cases, this fixes the result as the element children in document order. |
| Blui.BuildShape | blui.js:73-93 | A built node has the tag as kind, the element's attribute map, no `extends`, and one child per element child in document order, built the same way. |
| Blui.BuildHasNoExtends | blui.js:73-93 | The parser never sets `extends`, at any depth. |
| Blui.ParseOverwrites | blui.js:63-94 | The root `_parse` leaves equals the result of the loop over the outermost element's child nodes in which each element child overwrites `_blui` with the node built from it. |
| Blui.HandleAppend | blui.js:96-103 | Handling two runs of calls in a row equals handling the first, then, unless it threw, the second from the state where the first ended. |
| Blui.HandleFails | blui.js:96-103 | An exception in the first part of a traversal is the result of the whole traversal. |
| Blui.HandleReachesFault | blui.js:96-103 | If the handler throws on some node of the walk whatever the state, the traversal throws: an earlier call did, or that one does. |
| Blui.WalkVisitsSubtree | blui.js:96-103 | The handler is called on exactly the nodes of the subtree, in pre-order, and the after-handler exactly once per node. |
| Blui.WalkIsNested | blui.js:96-103 | Handler and after-handler calls nest like brackets: a node's handler comes before its descendants', and its after-handler closes the most recent open node. |
| Blui.DumpNested | blui.js:105-117 | Every `<K>` line of the dump is closed by the matching `</K>` line, properly nested, and a subtree makes two lines per node. |
| Blui.DumpLineTok | blui.js:105-117 | Dump line i is `<K>` for a handler call and `</K>` for an after-handler call on a node of kind K, and token i opens or closes that same K, so the nesting of the tokens is the nesting of the lines. |
| Blui.ToStringShape | blui.js:105-117 | `toString` never throws on a tree. It has 2 + 2·(number of nodes) lines, starts with `<template>` and ends with `</template>`, and its node lines are balanced. |
| Shape.DeclaredNameIsCamelCase | vue-blui-loader.js:51-53 | A present `instance` attribute names the instance in camelCase and leaves the counter alone. |
| Shape.AnonymousNamesDiffer | vue-blui-loader.js:51-53 | Anonymous names drawn at different counter values differ. |
| Shape.NatToStringInjective | vue-blui-loader.js:53 | Different counter values print differently. |
| Template.BluiToVueTemplate | vue-blui-loader.js:27-105 | A document without a root fails with `NoRoot`. Any output starts with the `<template>` and `Loaded by vue-blui-loader` header and ends with `</template>\n`. |
| Template.EnterSlotOutside | vue-blui-loader.js:37-41 | Outside menus, a kind with a slot, whose parent is not a host, opens `<template slot="...">` two columns deeper. |
| Template.EnterTagOutside | vue-blui-loader.js:42-48 | A kind with a component opens its tag two columns deeper: the component, or the host element for an `extends` node. |
| Template.EnterInstanceOutside | vue-blui-loader.js:49-63 | A kind with `need` that is not `extends` binds `:instance` to its name, advancing the counter for an anonymous name. A Menu also ends its tag and raises `skip`. |
| Template.PropPiecesInOrder | vue-blui-loader.js:64-69 | One `prop="<attribute>"` per prop of the entry, in the entry's order, with `undefined` for a missing attribute. |
| Template.EnterOutside | vue-blui-loader.js:35-77 | Outside menus, the open handler appends exactly the opening pieces and the head of the reference rendering, and sets indentation, counter and flag as the reference does. |
| Template.LeaveOutside | vue-blui-loader.js:78-102 | The close handler lowers the flag, closes the tag and then the slot wrapper, and restores the indentation from before the node. |
| Template.TemplateInside | vue-blui-loader.js:35-101 | While `skip` is raised, the subtree of a Menu or MenuItem under a Menu or MenuItem adds nothing and changes no variable. |
| Template.TemplateOutside | vue-blui-loader.js:33-102 | Outside menus, the handlers over a subtree append exactly the reference rendering of it, advance the counter as the reference does, and restore indentation and flag. |
| Template.RenderNodeBalanced | vue-blui-loader.js:38-101 | Every slot wrapper and tag the rendering opens is closed, innermost first, by the closing piece with the same element and indentation. |
| Template.TemplateOfWellFormed | vue-blui-loader.js:27-105 | For a well-formed tree the generator does not throw. It ends with indentation 0 and `skip` down, and its text is header, reference rendering and footer, with every opened element closed in order. |
| Template.TemplateRootFails | vue-blui-loader.js:36-38 | A root of unknown kind throws `UnknownKind`. A root whose kind has a slot throws `NullParent`, because the slot test reads the null parent. |
| Template.TemplateFaultyFails | vue-blui-loader.js:36-72 | A node anywhere in the tree whose kind is unregistered, or that is marked `extends` though its kind has no host element, makes the generator throw. |
| Template.StrayMenuItemUnbalanced | vue-blui-loader.js:81-95 | On a Window holding a MenuItem that holds a Button, the generator does not throw, but `</bl-button>` is never written and `</bl-window>` is written at indentation 4: the tags do not nest. |
| Template.GuardedTemplateBalanced | vue-blui-loader.js:27-105 | The generator corrected to reject misplaced menu elements yields, whenever it does not throw, a well-formed tree's header, reference rendering and footer, with every tag closed in order. |
| Template.GuardedRejectsStray | vue-blui-loader.js:81-95 | The corrected generator rejects the Window > MenuItem > Button tree with `MenuOutOfPlace`. |
| Template.GuardedAgrees | vue-blui-loader.js:27-105 | On a well-formed tree the corrected generator returns what the source's generator returns. |
| Template.HeadBindings | vue-blui-loader.js:50-54 | A node's head binds exactly one name, its instance name, when the kind has `need` and the node is not `extends`; otherwise none. |
| MenuBuilder.CtorArgs | vue-blui-loader.js:155-157 | A Menu gets two constructor arguments and a MenuItem one; the last is always the quoted `title`. |
| MenuBuilder.RootName | vue-blui-loader.js:174 | The menu's name exists exactly when it has an `instance` attribute; otherwise `toCamelCase(undefined)` throws. |
| MenuBuilder.LeaveStmtsAgree | vue-blui-loader.js:161-180 | The leave rules are as follows. A leaf is pushed into `_submenu`. A Menu with children becomes `_menuItem.submenu`. A MenuItem with children is pushed into `_submenu`, or, as a direct child, into `this.<indent><menu name>.items`. |
| MenuBuilder.BlockRun | vue-blui-loader.js:147-181 | The handlers over a descendant's subtree append its reference block (open brace, declaration, children's blocks, leave statements, close brace) and restore the indentation. |
| MenuBuilder.MenuStatementsOfReady | vue-blui-loader.js:144-184 | A ready menu yields the blocks of its children at indentation 0; the menu node itself emits nothing. |
| MenuBuilder.BlocksFail | vue-blui-loader.js:169-176 | An unnamed menu with a direct MenuItem child that has children throws. |
| MenuBuilder.MenuStatementsCases | vue-blui-loader.js:144-184 | The builder succeeds exactly when the menu is ready, and then yields the reference blocks. |
| MenuBuilder.BlockBraces | vue-blui-loader.js:149-180 | Each descendant opens and closes exactly one brace pair at its indentation, with its children's blocks nested inside. |
| MenuBuilder.BlockDecls | vue-blui-loader.js:150-158 | A block declares its node, then all descendants in pre-order: `_submenu` for a Menu, `_menuItem` otherwise, with the kind as class. |
| MenuBuilder.BlockPushes | vue-blui-loader.js:169-176 | Only a direct MenuItem child with children pushes into the menu by name. |
| MenuBuilder.MenuStatementsContents | vue-blui-loader.js:144-184 | A ready menu's code has balanced braces, one declaration per descendant in pre-order, and one push into the menu per direct MenuItem child that has children. |
| Script.AddClass | vue-blui-loader.js:201 | `Set.add` keeps the list free of duplicates. The result holds the old classes plus the new one, and grows by at most one at the end. |
| Script.AddAllFirstSeen | vue-blui-loader.js:231-232 | Starting from the empty set, the import list holds each added class once, exactly the added classes, in the order they were first added. |
| Script.ArgValues | vue-blui-loader.js:119-128 | One argument per entry of `args`, in order: `const` prints `<namespace>.<attribute>` and `string` prints the quoted attribute. |
| Script.StrInitsFilters | vue-blui-loader.js:133-139 | The assigned inits are exactly the `string`-typed entries. |
| Script.StrInitsAppend | vue-blui-loader.js:133-139 | The string-typed inits of a joined list are those of the first part followed by those of the second; with the single-entry case, the filter keeps the registry's order. |
| Script.InitStmtsFor | vue-blui-loader.js:111-131 | The initializer first writes the header with the receiver's name. An `extends` node is renamed `instance` and gets no constructor line; any other node gets one constructor line with its arguments. |
| Script.InitStmtsFields | vue-blui-loader.js:132-139 | After the header and constructor, each `string` init assigns the quoted attribute of the same key, in the entry's order. |
| Script.DataLines | vue-blui-loader.js:244-254 | `data()` has one `    <name>: null,` line per record, in record order. |
| Script.Inits | vue-blui-loader.js:255-263 | `created()` joins, per record, its init code followed by its menu code. |
| Script.ScriptInside | vue-blui-loader.js:197-229 | While `skip` is raised, a Menu or MenuItem subtree under a Menu or MenuItem only adds its classes to the import set. |
| Script.EnterScriptOutside | vue-blui-loader.js:197-221 | Outside menus, the open handler adds the class and takes a name. It records the node unless it is `extends`, and a Menu raises `skip`. |
| Script.LeaveScriptOutside | vue-blui-loader.js:222-229 | Outside menus, the close handler lowers `skip`. |
| Script.ScriptOutside | vue-blui-loader.js:195-229 | Outside menus, the handlers over a subtree append exactly its reference records and advance the counter as the reference does. They add the subtree's classes and leave `skip` down. |
| Script.ScriptOfWellFormed | vue-blui-loader.js:190-264 | For a well-formed tree with ready menus, the generator yields the reference records and the fragments built from them. Its imports hold every class of a `need` node once, in first-seen order, including skipped and `extends` nodes. |
| Script.ScriptRootMenuFails | vue-blui-loader.js:222-229 | A Menu at the root of a shaped tree throws. Leaving it reads its null parent, unless building its record threw first. |
| Script.ScriptRootMenuUnshaped | vue-blui-loader.js:222-229 | Outside the shape a Menu root need not throw: a named Menu holding a Window that holds a Button is not shaped, and the generator succeeds on it. |
| Script.ScriptWithoutRoot | vue-blui-loader.js:195-198 | A document without a root fails with `NoRoot`. |
| Script.ScriptUnknownKindFails | vue-blui-loader.js:197-199 | A node of unregistered kind anywhere in the tree, even inside a skipped menu, makes the generator throw. |
| Script.ScriptRootUnknownFails | vue-blui-loader.js:197-199 | A root of unknown kind throws `UnknownKind` at once. |
| Agreement.NamesAgree | vue-blui-loader.js:49-54 | When every host is named, the template binds the names the script records, in the same order, and both counters end equal. |
| Agreement.DocumentNamesAgree | vue-blui-loader.js:203-215 | For a well-formed document with ready menus and named hosts, the template's `:instance` bindings are exactly the `data()` members. |
| Agreement.AnonymousHostDiverges | vue-blui-loader.js:204-207 | For an anonymous host around an anonymous Button, the template binds `rt0` while the script declares `rt1`. |
| Agreement.AnonymousHostAgrees | vue-blui-loader.js:204-207 | An anonymous host around a named Button breaks `HostsNamed`, yet the template's bindings and the script's data members are both exactly the Button's camelCase name: the script's extra count reaches no anonymous node. |

## Left out

- The default-exported webpack loader (vue-blui-loader.js:267-321) is not modelled. It does file I/O and console output. It also calls `getTemplate`, `isBluiTemplate`, `getScript`, `isExtends`, `getStyle`, `getExportDefault` and `ViewModel`, which utils.js does not define.
- index.js (webpack configuration) and test.js (a scratch driver that copies the generators) are not modelled.
- XML parsing by libxmljs is not modelled. The parsed document is an abstract `XmlNode` with element and non-element children.
- The `optional` flag of an argument is kept in the data but not read, as in the source.
- Exceptions are results, not preconditions. The lemmas characterize these failures: an unregistered kind or a hostless `extends` anywhere (`Template.TemplateFaultyFails`, `Script.ScriptUnknownKindFails`), a slotted or unknown root (`Template.TemplateRootFails`, `Script.ScriptRootUnknownFails`), a Menu root of a shaped tree (`Script.ScriptRootMenuFails`), a missing root, and an unnamed menu (`MenuBuilder.MenuStatementsCases`). A negative indentation (`NegativeIndent`) is modelled at every `indent` call, but no lemma says on which trees it arises; on well-formed trees it never does.
- `extends` is an input field of `Node`: the parser never sets it, and the caller decides it.
- Blui.ParseOverwrites: the built nodes do not hold `parent`, because a node does not store it. Every walk passes the parent it came from instead.
- A kind spelt like a property of `Object.prototype` (`constructor`, `toString`) is treated as unregistered. In JavaScript the lookup would find the inherited function instead of `undefined`.
- Script.ArgValue: a `const` argument whose entry lacks a `const` table prints `undefined.<value>`, while the source would throw. No registry entry has such an argument (`Registry.ConstArgsHaveNamespace`).
- The `extends` branch of `instanceInitializer` is modelled, but `extractFromBlui` never reaches it, because it only initializes nodes that are not `extends`.
- A leaf MenuItem directly under the menu is pushed into `_submenu`, which is unbound at that point. The text is reproduced as written.
- Template.TemplateOfWellFormed: the full output is stated for well-formed trees only. Outside that shape the failure lemmas describe the result for unregistered kinds, hostless `extends` and slotted roots. A misplaced menu element is not a failure in the source: a MenuItem outside every menu gives unbalanced text (`Template.StrayMenuItemUnbalanced`, under "Findings"). No lemma describes the output for other misplaced menu elements, such as a Button inside a Menu, beyond what the corrected generator rejects.
- Script.ScriptRootMenuFails: a Menu root throws only when the tree is shaped. In an unshaped tree such as a named Menu holding a Window that holds a Button, leaving the Button lowers `skip`, so leaving the Menu never reads its null parent, and the generator succeeds (`Script.ScriptRootMenuUnshaped`).
- Script.ScriptOfWellFormed: the full fragments are stated for well-formed trees with ready menus; `Script.ScriptRootMenuFails` and `Script.ScriptRootUnknownFails` cover the root failures.
- The literal text of the imports banner is reproduced, and no property is stated about it beyond the class list inside it.

## Findings

| source | as written | input that shows it | evidently intended | confidence | as-written member | corrected member |
|---|---|---|---|---|---|---|
| vue-blui-loader.js:81-95 | The close handler raises `skip` when the parent of the node it leaves is a Menu or MenuItem, whatever the node is. Only a Menu raises it on the way in. | A Window holding a MenuItem that holds a Button. The Button's tag is opened and never closed, and `</bl-window>` is written at the Button's indentation 4. | A MenuItem belongs inside a Menu or MenuItem, so one outside every menu is rejected. Every tag the template opens is closed. | medium; not executed | Template.StrayMenuItemUnbalanced | Template.GuardedTemplateBalanced |

`Template.GuardedTemplate` checks the menu rules (`Template.MenusNested`) before it
runs the handlers and fails with `MenuOutOfPlace` when they do not hold. On every
well-formed tree it returns what the source's generator returns
(`Template.GuardedAgrees`). Every other template lemma is stated for well-formed trees,
so it holds for the corrected generator as well.

=== FILE: agreement.dfy ===
/** The two generators of vue-blui-loader.js name instances independently:
    bluiToVueTemplate binds `:instance="<name>"` on each tag, and
    extractFromBlui declares a data member of the same name. Both draw
    anonymous names `rt<N>` from counters of their own. They agree when
    every host-substituted node carries an `instance` attribute
    (`NamesAgree`). An anonymous host still moves the script's counter,
    which can make them differ (`AnonymousHostDiverges`); it does not have
    to, when no anonymous node follows it (`AnonymousHostAgrees`). */
module Agreement {
  import opened Wrappers
  import opened Utils
  import opened Registry
  import opened Blui
  import opened Shape
  import opened Template
  import opened Script

  /** The data member names, in order. */
  function Names(rs: seq<Record>): (r: seq<string>)
    ensures |r| == |rs|
    ensures forall i :: 0 <= i < |rs| ==> r[i] == rs[i].name
  {
    if |rs| == 0 then [] else [rs[0].name] + Names(rs[1..])
  }

  lemma NamesAppend(a: seq<Record>, b: seq<Record>)
    ensures Names(a + b) == Names(a) + Names(b)
  {
  }

  /** The bindings of a node's template are its head's, then its children's. */
  lemma NodeBindings(pext: bool, n: Node, d: nat, k: nat)
    requires Shaped(n)
    ensures var g := RenderGeometry(pext, n, d);
      var k1 := CounterAfterHead(n, k);
      var inner := if n.kind == "Menu" then ([], k1) else RenderFrom(n, 0, g.d2, k1);
      && Bindings(RenderNode(pext, n, d, k).0) == Bindings(HeadPieces(n, g.d2, k)) + Bindings(inner.0)
      && RenderNode(pext, n, d, k).1 == inner.1
  {
    var g := RenderGeometry(pext, n, d);
    var k1 := CounterAfterHead(n, k);
    var inner := if n.kind == "Menu" then ([], k1) else RenderFrom(n, 0, g.d2, k1);
    var o := OpenPieces(pext, n, d);
    var h := HeadPieces(n, g.d2, k);
    var c := ClosePieces(pext, n, d);
    RenderNodeSplit(pext, n, d, k);
    assert Bindings(o + h + inner.0 + c) == Bindings(h) + Bindings(inner.0) by {
      FrameBindings(pext, n, d);
      BindingsAppend(o + h + inner.0, c);
      BindingsAppend(o + h, inner.0);
      BindingsAppend(o, h);
      assert [] + Bindings(h) == Bindings(h);
      assert Bindings(h) + Bindings(inner.0) + [] == Bindings(h) + Bindings(inner.0);
    }
  }

  /** Outside the menus, when every host is named, the template binds the
      names the script declares, in the same order, and both counters end
      equal. */
  lemma {:induction false} NamesAgree(pext: bool, n: Node, d: nat, k: nat)
    requires Shaped(n) && HostsNamed(n)
    ensures var t := RenderNode(pext, n, d, k);
      var s := RecordsNode(n, k);
      Bindings(t.0) == Names(s.0) && t.1 == s.1
    decreases n, 1
  {
    MenuKindsFacts();
    OnlyWindowHasHost();
    var e := InstanceMap[n.kind];
    var g := RenderGeometry(pext, n, d);
    var k1 := CounterAfterHead(n, k);
    var inner := if n.kind == "Menu" then ([], k1) else RenderFrom(n, 0, g.d2, k1);
    var name := InstanceName(n.attributes, k);
    var own := if e.need && !n.extendsHost
      then [Record(name, InitCode(n, name), if n.kind == "Menu" then MenuCode(n) else "")] else [];
    var rinner := if n.kind == "Menu" then ([], k1) else RecordsFrom(n, 0, k1);
    assert RecordsNode(n, k) == (own + rinner.0, rinner.1) by {
      if e.need && n.extendsHost {
        assert NextRtId(n.attributes, k) == k;
        assert [] + rinner.0 == rinner.0;
      } else if !e.need {
        assert [] + rinner.0 == rinner.0;
      } else if n.kind == "Menu" {
        assert own + [] == own;
      }
    }
    assert Bindings(inner.0) == Names(rinner.0) && inner.1 == rinner.1 by {
      if n.kind != "Menu" {
        NamesAgreeFrom(n, 0, g.d2, k1);
      }
    }
    NodeBindings(pext, n, d, k);
    HeadBindings(n, g.d2, k);
    NamesAppend(own, rinner.0);
  }

  lemma {:induction false} NamesAgreeFrom(n: Node, i: nat, d: nat, k: nat)
    requires Shaped(n) && HostsNamed(n) && i <= |n.children|
    ensures var t := RenderFrom(n, i, d, k);
      var s := RecordsFrom(n, i, k);
      Bindings(t.0) == Names(s.0) && t.1 == s.1
    decreases n, 0, |n.children| - i
  {
    if i < |n.children| {
      var c := n.children[i];
      NamesAgree(n.extendsHost, c, d, k);
      var first := RenderNode(n.extendsHost, c, d, k);
      NamesAgreeFrom(n, i + 1, d, first.1);
      var rest := RenderFrom(n, i + 1, d, first.1);
      BindingsAppend(first.0, rest.0);
      NamesAppend(RecordsNode(c, k).0, RecordsFrom(n, i + 1, first.1).0);
    }
  }

  /** For a whole well-formed document whose menus are ready and whose hosts
      are named, the template's `:instance` bindings are exactly the data
      members the script declares. */
  lemma {:induction false} DocumentNamesAgree(root: Node)
    requires WellFormed(root) && ReadyMenus(root) && HostsNamed(root)
    ensures var d := Document(Some(root));
      && BluiToVueTemplate(d).Success?
      && ScriptRun(d).Success?
      && Bindings(TemplateRun(d).value.pieces) == Names(ScriptRun(d).value.records)
  {
    TemplateOfWellFormed(root);
    ScriptOfWellFormed(root);
    NamesAgree(false, root, 0, 0);
  }

  /** A Window marked as the host, with no `instance`, around a single
      anonymous Button. */
  predicate AnonymousHostAroundButton(window: Node, button: Node) {
    && window.kind == "Window" && window.extendsHost && window.children == [button]
    && button.kind == "Button" && !button.extendsHost && button.children == []
    && !HasInstanceName(window.attributes) && !HasInstanceName(button.attributes)
  }

  lemma {:induction false} DivergingTemplate(window: Node, button: Node)
    requires AnonymousHostAroundButton(window, button)
    ensures Shaped(window)
    ensures Bindings(RenderNode(false, window, 0, 0).0) == ["rt0"]
  {
    assert Shaped(button);
    assert Shaped(window);
    assert NatToString(0) == "0";
    var rt0 := InstanceName(button.attributes, 0);
    assert rt0 == "rt0";
    var tb := RenderNode(true, button, 2, 0);
    assert Bindings(tb.0) == [rt0] by {
      NodeBindings(true, button, 2, 0);
      HeadBindings(button, 4, 0);
      assert RenderFrom(button, 0, 4, 1) == ([], 1);
    }
    NodeBindings(false, window, 0, 0);
    assert RenderGeometry(false, window, 0).d2 == 2;
    assert CounterAfterHead(window, 0) == 0;
    HeadBindings(window, 2, 0);
    assert Bindings(HeadPieces(window, 2, 0)) == [];
    assert RenderFrom(window, 1, 2, tb.1) == ([], tb.1);
    assert RenderFrom(window, 0, 2, 0).0 == tb.0 + [];
    assert tb.0 + [] == tb.0;
    assert [] + [rt0] == [rt0];
  }

  lemma {:induction false} DivergingScript(window: Node, button: Node)
    requires AnonymousHostAroundButton(window, button)
    ensures Shaped(window)
    ensures Names(RecordsNode(window, 0).0) == ["rt1"]
  {
    assert Shaped(button);
    assert Shaped(window);
    assert NatToString(1) == "1";
    var rt1 := InstanceName(button.attributes, 1);
    assert rt1 == "rt1";
    var rb := RecordsNode(button, 1);
    assert RecordsFrom(button, 0, 2) == ([], 2);
    assert rb == ([Record(rt1, InitCode(button, rt1), "")] + [], 2);
    assert Names(rb.0) == [rt1];
    assert RecordsFrom(window, 1, 2) == ([], 2);
    assert RecordsFrom(window, 0, 1).0 == rb.0 + [];
    assert rb.0 + [] == rb.0;
    assert RecordsNode(window, 0).0 == [] + RecordsFrom(window, 0, 1).0;
    assert [] + rb.0 == rb.0;
  }

  /** An anonymous host shifts the counters apart: the template names the
      Button `rt0`; the script, having counted the Window, names it `rt1`. */
  lemma {:induction false} AnonymousHostDiverges(window: Node, button: Node)
    requires AnonymousHostAroundButton(window, button)
    ensures var d := Document(Some(window));
      && TemplateRun(d).Success? && ScriptRun(d).Success?
      && Bindings(TemplateRun(d).value.pieces) == ["rt0"]
      && Names(ScriptRun(d).value.records) == ["rt1"]
  {
    DivergingTemplate(window, button);
    DivergingScript(window, button);
    assert ReadyMenus(window) by {
      assert ReadyMenus(window.children[0]);
    }
    TemplateOfWellFormed(window);
    ScriptOfWellFormed(window);
  }

  /** A Window marked as the host, with no `instance`, around a single
      Button that is named. */
  predicate AnonymousHostAroundNamedButton(window: Node, button: Node) {
    && window.kind == "Window" && window.extendsHost && window.children == [button]
    && button.kind == "Button" && !button.extendsHost && button.children == []
    && !HasInstanceName(window.attributes) && HasInstanceName(button.attributes)
  }

  lemma {:induction false} AgreeingTemplate(window: Node, button: Node)
    requires AnonymousHostAroundNamedButton(window, button)
    ensures Shaped(window)
    ensures Bindings(RenderNode(false, window, 0, 0).0) == [ToCamelCase(button.attributes["instance"])]
  {
    assert Shaped(button);
    assert Shaped(window);
    var name := ToCamelCase(button.attributes["instance"]);
    DeclaredNameIsCamelCase(button.attributes, 0);
    var tb := RenderNode(true, button, 2, 0);
    assert Bindings(tb.0) == [name] by {
      NodeBindings(true, button, 2, 0);
      HeadBindings(button, 4, 0);
      assert RenderFrom(button, 0, 4, 0) == ([], 0);
    }
    NodeBindings(false, window, 0, 0);
    assert RenderGeometry(false, window, 0).d2 == 2;
    assert CounterAfterHead(window, 0) == 0;
    HeadBindings(window, 2, 0);
    assert Bindings(HeadPieces(window, 2, 0)) == [];
    assert RenderFrom(window, 1, 2, tb.1) == ([], tb.1);
    assert RenderFrom(window, 0, 2, 0).0 == tb.0 + [];
    assert tb.0 + [] == tb.0;
    assert [] + [name] == [name];
  }

  lemma {:induction false} AgreeingScript(window: Node, button: Node)
    requires AnonymousHostAroundNamedButton(window, button)
    ensures Shaped(window)
    ensures Names(RecordsNode(window, 0).0) == [ToCamelCase(button.attributes["instance"])]
  {
    assert Shaped(button);
    assert Shaped(window);
    var name := ToCamelCase(button.attributes["instance"]);
    DeclaredNameIsCamelCase(button.attributes, 1);
    var rb := RecordsNode(button, 1);
    assert RecordsFrom(button, 0, 1) == ([], 1);
    assert rb == ([Record(name, InitCode(button, name), "")] + [], 1);
    assert Names(rb.0) == [name];
    assert RecordsFrom(window, 1, 1) == ([], 1);
    assert RecordsFrom(window, 0, 1).0 == rb.0 + [];
    assert rb.0 + [] == rb.0;
    assert RecordsNode(window, 0).0 == [] + RecordsFrom(window, 0, 1).0;
    assert [] + rb.0 == rb.0;
  }

  /** Named hosts are sufficient for agreement but not necessary: an
      anonymous host around a named Button moves the script's counter, yet
      no anonymous name is drawn after it, so both generators name the
      Button alone. */
  lemma {:induction false} AnonymousHostAgrees(window: Node, button: Node)
    requires AnonymousHostAroundNamedButton(window, button)
    ensures !HostsNamed(window)
    ensures var d := Document(Some(window));
      && TemplateRun(d).Success? && ScriptRun(d).Success?
      && Bindings(TemplateRun(d).value.pieces) == Names(ScriptRun(d).value.records)
      && Names(ScriptRun(d).value.records) == [ToCamelCase(button.attributes["instance"])]
  {
    AgreeingTemplate(window, button);
    AgreeingScript(window, button);
    assert ReadyMenus(window) by {
      assert ReadyMenus(window.children[0]);
    }
    TemplateOfWellFormed(window);
    ScriptOfWellFormed(window);
  }
}

=== FILE: blui.dfy ===
/** blui.js: the markup adapter (`Element`), the intermediate tree (`Node`)
    built from it, the generic depth-first traversal, and the debug dump. */
module Blui {
  import opened Wrappers
  import opened Nesting
  import opened Utils

  // ---------------------------------------------------------------------
  // Parsed markup, as the XML library exposes it
  // ---------------------------------------------------------------------

  datatype Attr = Attr(name: string, value: string)

  /** A child of a parsed element: another element, or a node of some other
      type (text, comment, ...) that the compiler ignores. */
  datatype XmlNode =
    | XElement(name: string, attrs: seq<Attr>, childNodes: seq<XmlNode>)
    | XOther(nodeType: string)

  /** `Element.attrib`: the attribute list as a map; a later attribute of the
      same name overwrites an earlier one. */
  function Attrib(attrs: seq<Attr>): map<string, string> {
    if |attrs| == 0 then map[]
    else Attrib(attrs[..|attrs| - 1])[attrs[|attrs| - 1].name := attrs[|attrs| - 1].value]
  }

  /** The map holds exactly the attribute names, each with the value of its
      last occurrence in the list. */
  lemma {:induction false} AttribLastWins(attrs: seq<Attr>)
    ensures forall k :: k in Attrib(attrs) <==> exists i :: 0 <= i < |attrs| && attrs[i].name == k
    ensures forall i :: 0 <= i < |attrs| && LastOfName(attrs, i) ==>
      Attrib(attrs)[attrs[i].name] == attrs[i].value
  {
    if |attrs| > 0 {
      var init := attrs[..|attrs| - 1];
      var last := attrs[|attrs| - 1];
      AttribLastWins(init);
      var m := Attrib(attrs);
      assert m == Attrib(init)[last.name := last.value];
      forall k
        ensures k in m <==> exists i :: 0 <= i < |attrs| && attrs[i].name == k
      {
        if k in Attrib(init) {
          var i :| 0 <= i < |init| && init[i].name == k;
          assert attrs[i] == init[i];
        }
        if exists i :: 0 <= i < |attrs| && attrs[i].name == k {
          var i :| 0 <= i < |attrs| && attrs[i].name == k;
          if i < |init| {
            assert init[i] == attrs[i];
          }
        }
      }
      forall i | 0 <= i < |attrs| && LastOfName(attrs, i)
        ensures m[attrs[i].name] == attrs[i].value
      {
        if i < |attrs| - 1 {
          assert attrs[i] == init[i];
          assert last.name != attrs[i].name;
          assert LastOfName(init, i) by {
            forall j | i < j < |init| ensures init[j].name != init[i].name {
              assert init[j] == attrs[j];
            }
          }
        }
      }
    }
  }

  /** No later attribute has the same name as attribute i. */
  predicate LastOfName(attrs: seq<Attr>, i: int)
    requires 0 <= i < |attrs|
  {
    forall j :: i < j < |attrs| ==> attrs[j].name != attrs[i].name
  }

  /** `Element.getChildren`: the element children, in document order. */
  function ElementChildren(nodes: seq<XmlNode>): (r: seq<XmlNode>)
    ensures forall i :: 0 <= i < |r| ==> r[i].XElement?
    ensures forall x :: x in r <==> x in nodes && x.XElement?
    ensures |r| <= |nodes|
    ensures |nodes| == 1 ==> r == (if nodes[0].XElement? then nodes else [])
  {
    if |nodes| == 0 then []
    else if nodes[0].XElement? then [nodes[0]] + ElementChildren(nodes[1..])
    else ElementChildren(nodes[1..])
  }

  /** The children of a joined list are the children of each part, in
      order; with the single-node cases above this fixes the result. */
  lemma {:induction false} ElementChildrenAppend(a: seq<XmlNode>, b: seq<XmlNode>)
    ensures ElementChildren(a + b) == ElementChildren(a) + ElementChildren(b)
    decreases |a|
  {
    if |a| == 0 {
      assert a + b == b;
    } else {
      assert (a + b)[0] == a[0];
      assert (a + b)[1..] == a[1..] + b;
      ElementChildrenAppend(a[1..], b);
      if a[0].XElement? {
        SeqAssoc([a[0]], ElementChildren(a[1..]), ElementChildren(b));
      }
    }
  }

  // ---------------------------------------------------------------------
  // The intermediate tree
  // ---------------------------------------------------------------------

  /** A `Node`: `className` is the kind. `parent` is not stored: every walk
      below passes the parent it came from. `extends` is not set by the
      parser; the caller decides it. */
  datatype Node = Node(kind: string, attributes: map<string, string>, extendsHost: bool, children: seq<Node>)

  /** `node.attributes[key]` inside a template literal: a missing attribute
      prints as `undefined`. */
  function AttrText(attrs: map<string, string>, key: string): string {
    if key in attrs then attrs[key] else "undefined"
  }

  /** The parsed document; `root` is null when the template has no element. */
  datatype Document = Document(root: Option<Node>)

  /** `_parseChild` for one element: kind from the tag, attributes from
      `attrib`, then the element children in order. */
  function Build(x: XmlNode): Node
    requires x.XElement?
    decreases x, 1
  {
    Node(x.name, Attrib(x.attrs), false, BuildFrom(x, 0))
  }

  /** The nodes built from the children of `x` at positions i.., skipping
      what is not an element. */
  function BuildFrom(x: XmlNode, i: nat): seq<Node>
    requires x.XElement? && i <= |x.childNodes|
    decreases x, 0, |x.childNodes| - i
  {
    if i == |x.childNodes| then []
    else if x.childNodes[i].XElement? then [Build(x.childNodes[i])] + BuildFrom(x, i + 1)
    else BuildFrom(x, i + 1)
  }

  /** `Build` applied to each of a sequence of elements. */
  function BuildAll(els: seq<XmlNode>): (r: seq<Node>)
    requires forall k :: 0 <= k < |els| ==> els[k].XElement?
    ensures |r| == |els|
    ensures forall k :: 0 <= k < |els| ==> r[k] == Build(els[k])
  {
    if |els| == 0 then [] else [Build(els[0])] + BuildAll(els[1..])
  }

  lemma {:induction false} BuildFromIsMap(x: XmlNode, i: nat)
    requires x.XElement? && i <= |x.childNodes|
    ensures BuildFrom(x, i) == BuildAll(ElementChildren(x.childNodes[i..]))
    decreases |x.childNodes| - i
  {
    var rest := x.childNodes[i..];
    if i == |x.childNodes| {
      assert rest == [];
    } else {
      assert rest[0] == x.childNodes[i];
      assert rest[1..] == x.childNodes[i + 1..];
      BuildFromIsMap(x, i + 1);
      var later := ElementChildren(x.childNodes[i + 1..]);
      if x.childNodes[i].XElement? {
        var els := [rest[0]] + later;
        assert ElementChildren(rest) == els;
        assert els[1..] == later;
        assert BuildAll(els) == [Build(rest[0])] + BuildAll(later);
      } else {
        assert ElementChildren(rest) == later;
      }
    }
  }

  /** A built node has the element's tag as kind and its attributes, no
      `extends`, and one child per element child, in document order: text,
      comments and other non-element children make no node. */
  lemma BuildShape(x: XmlNode)
    requires x.XElement?
    ensures Build(x).kind == x.name
    ensures Build(x).attributes == Attrib(x.attrs)
    ensures !Build(x).extendsHost
    ensures var els := ElementChildren(x.childNodes);
      |Build(x).children| == |els| &&
      forall j :: 0 <= j < |els| ==> Build(x).children[j] == Build(els[j])
  {
    BuildFromIsMap(x, 0);
    assert x.childNodes[0..] == x.childNodes;
  }

  /** No node of the tree has `extends` set. */
  predicate NoExtends(n: Node)
    decreases n
  {
    !n.extendsHost && forall i :: 0 <= i < |n.children| ==> NoExtends(n.children[i])
  }

  /** The parser never sets `extends`, at any depth. */
  lemma {:induction false} BuildHasNoExtends(x: XmlNode)
    requires x.XElement?
    ensures NoExtends(Build(x))
    decreases x, 1
  {
    BuildFromHasNoExtends(x, 0);
  }

  lemma {:induction false} BuildFromHasNoExtends(x: XmlNode, i: nat)
    requires x.XElement? && i <= |x.childNodes|
    ensures forall j :: 0 <= j < |BuildFrom(x, i)| ==> NoExtends(BuildFrom(x, i)[j])
    decreases x, 0, |x.childNodes| - i
  {
    if i < |x.childNodes| {
      if x.childNodes[i].XElement? {
        BuildHasNoExtends(x.childNodes[i]);
      }
      BuildFromHasNoExtends(x, i + 1);
    }
  }

  /** `Blui._parse`: the outermost element makes no node; each of its element
      children is built as a parentless node and overwrites the root, so the
      document's root is built from the last one. */
  function Parse(doc: XmlNode): (d: Document)
    requires doc.XElement?
    ensures var els := ElementChildren(doc.childNodes);
      (d.root.None? <==> |els| == 0) &&
      (|els| > 0 ==> d.root == Some(Build(els[|els| - 1])))
  {
    var els := ElementChildren(doc.childNodes);
    if |els| == 0 then Document(None) else Document(Some(Build(els[|els| - 1])))
  }

  /** The loop of `_parseChild(el, null)` over the child nodes: `cur` is the
      root so far, and each element child replaces it with the node built
      from it. */
  function OverwriteRoot(cur: Option<Node>, nodes: seq<XmlNode>): Option<Node>
    decreases |nodes|
  {
    if |nodes| == 0 then cur
    else OverwriteRoot(if nodes[0].XElement? then Some(Build(nodes[0])) else cur, nodes[1..])
  }

  lemma {:induction false} OverwriteRootLast(cur: Option<Node>, nodes: seq<XmlNode>)
    ensures var els := ElementChildren(nodes);
      OverwriteRoot(cur, nodes) == if |els| == 0 then cur else Some(Build(els[|els| - 1]))
    decreases |nodes|
  {
    if |nodes| > 0 {
      var next := if nodes[0].XElement? then Some(Build(nodes[0])) else cur;
      OverwriteRootLast(next, nodes[1..]);
    }
  }

  /** The root `_parse` leaves is the one the overwriting loop ends with:
      none without an element child, otherwise the last one built. */
  lemma ParseOverwrites(doc: XmlNode)
    requires doc.XElement?
    ensures Parse(doc).root == OverwriteRoot(None, doc.childNodes)
  {
    OverwriteRootLast(None, doc.childNodes);
  }

  // ---------------------------------------------------------------------
  // Traversal
  // ---------------------------------------------------------------------

  /** One call of a traversal handler: `handler` on Enter and
      `afterHandler` on Leave, each with the node and its parent. */
  datatype Visit = Enter(parent: Option<Node>, node: Node) | Leave(parent: Option<Node>, node: Node)

  /** `Blui.traverse`: the handler on the node, the whole walk of each child
      in order, then the after-handler on the node. */
  function Walk(parent: Option<Node>, n: Node): seq<Visit>
    decreases n, 1
  {
    [Enter(parent, n)] + WalkFrom(n, 0) + [Leave(parent, n)]
  }

  /** The walks of the children of `n` at positions i.. */
  function WalkFrom(n: Node, i: nat): seq<Visit>
    requires i <= |n.children|
    decreases n, 0, |n.children| - i
  {
    if i == |n.children| then [] else Walk(Some(n), n.children[i]) + WalkFrom(n, i + 1)
  }

  /** `traverse(null, ...)`: starts at the document's root; a missing root
      makes the first handler call fail. */
  function Traverse(d: Document): (r: Result<seq<Visit>>)
    ensures d.root.None? ==> r == Failure(NoRoot)
    ensures d.root.Some? ==> r == Success(Walk(None, d.root.value))
  {
    match d.root
    case None => Failure(NoRoot)
    case Some(root) => Success(Walk(None, root))
  }

  /** A pair of traversal handlers as one step function over visits, run in
      call order; the first exception ends the traversal. */
  function Handle<S>(step: (S, Visit) -> Result<S>, st: S, vs: seq<Visit>): Result<S>
    decreases |vs|
  {
    if |vs| == 0 then Success(st)
    else
      var st' :- step(st, vs[0]);
      Handle(step, st', vs[1..])
  }

  /** Handling a joined sequence is handling the first part, then, unless it
      failed, the second part from where the first one ended. */
  lemma {:induction false} HandleAppend<S>(step: (S, Visit) -> Result<S>, st: S, a: seq<Visit>, b: seq<Visit>)
    ensures Handle(step, st, a + b) ==
      (match Handle(step, st, a) case Failure(f) => Failure(f) case Success(s) => Handle(step, s, b))
    decreases |a|
  {
    if |a| == 0 {
      assert a + b == b;
    } else {
      assert (a + b)[0] == a[0];
      assert (a + b)[1..] == a[1..] + b;
      match step(st, a[0])
      case Failure(f) =>
        assert Handle(step, st, a + b) == Failure(f);
        assert Handle(step, st, a) == Failure(f);
      case Success(s) =>
        HandleAppend(step, s, a[1..], b);
        assert Handle(step, st, a + b) == Handle(step, s, a[1..] + b);
        assert Handle(step, st, a) == Handle(step, s, a[1..]);
    }
  }

  lemma HandleOne<S>(step: (S, Visit) -> Result<S>, st: S, v: Visit)
    ensures Handle(step, st, [v]) == step(st, v)
  {
    assert [v][1..] == [];
  }

  lemma HandleSeq<S>(step: (S, Visit) -> Result<S>, st: S, a: seq<Visit>, b: seq<Visit>, s1: S, s2: S)
    requires Handle(step, st, a) == Success(s1) && Handle(step, s1, b) == Success(s2)
    ensures Handle(step, st, a + b) == Success(s2)
  {
    HandleAppend(step, st, a, b);
  }

  /** An exception in the first part ends the whole traversal with it. */
  lemma HandleFails<S>(step: (S, Visit) -> Result<S>, st: S, a: seq<Visit>, b: seq<Visit>)
    requires Handle(step, st, a).Failure?
    ensures Handle(step, st, a + b) == Handle(step, st, a)
  {
    HandleAppend(step, st, a, b);
  }

  /** A handler call that throws whatever the state, on a node the
      traversal reaches, ends the whole traversal with an exception: either
      an earlier call threw, or that one does. */
  lemma {:induction false} HandleReachesFault<S>(step: (S, Visit) -> Result<S>, st: S, vs: seq<Visit>, m: Node)
    requires m in EnteredNodes(vs)
    requires forall s: S, p: Option<Node> :: step(s, Enter(p, m)).Failure?
    ensures Handle(step, st, vs).Failure?
    decreases |vs|
  {
    if vs[0].Enter? && vs[0].node == m {
      assert step(st, Enter(vs[0].parent, m)).Failure?;
    } else {
      assert m in EnteredNodes(vs[1..]);
      match step(st, vs[0])
      case Failure(_) =>
      case Success(s) =>
        HandleReachesFault(step, s, vs[1..], m);
    }
  }

  /** The children from i are the walk of child i, then the rest. */
  lemma HandleCons<S>(step: (S, Visit) -> Result<S>, n: Node, i: nat, st: S, s1: S, s2: S)
    requires i < |n.children|
    requires Handle(step, st, Walk(Some(n), n.children[i])) == Success(s1)
    requires Handle(step, s1, WalkFrom(n, i + 1)) == Success(s2)
    ensures Handle(step, st, WalkFrom(n, i)) == Success(s2)
  {
    HandleSeq(step, st, Walk(Some(n), n.children[i]), WalkFrom(n, i + 1), s1, s2);
  }

  /** The nodes of the subtree of `n`, each before its descendants. */
  function PreOrder(n: Node): seq<Node>
    decreases n, 1
  {
    [n] + PreOrderFrom(n, 0)
  }

  function PreOrderFrom(n: Node, i: nat): seq<Node>
    requires i <= |n.children|
    decreases n, 0, |n.children| - i
  {
    if i == |n.children| then [] else PreOrder(n.children[i]) + PreOrderFrom(n, i + 1)
  }

  function Size(n: Node): nat {
    |PreOrder(n)|
  }

  /** A child's subtree is strictly smaller than its parent's, so no node
      equals one of its descendants. */
  lemma ChildSmaller(n: Node, i: nat)
    requires i < |n.children|
    ensures Size(n.children[i]) < Size(n)
  {
    PreOrderFromCovers(n, 0, i);
  }

  lemma {:induction false} PreOrderFromCovers(n: Node, k: nat, i: nat)
    requires k <= i < |n.children|
    ensures |PreOrderFrom(n, k)| >= Size(n.children[i])
    decreases i - k
  {
    if k < i {
      PreOrderFromCovers(n, k + 1, i);
    }
  }

  /** A node of a child's subtree is a node of the parent's subtree. */
  lemma ChildSubtree(n: Node, i: nat, m: Node)
    requires i < |n.children| && m in PreOrder(n.children[i])
    ensures m in PreOrder(n)
  {
    PreOrderFromHas(n, 0, i, m);
  }

  lemma {:induction false} PreOrderFromHas(n: Node, k: nat, i: nat, m: Node)
    requires k <= i < |n.children| && m in PreOrder(n.children[i])
    ensures m in PreOrderFrom(n, k)
    decreases i - k
  {
    if k < i {
      PreOrderFromHas(n, k + 1, i, m);
    }
  }

  /** The nodes the handler is called on, in call order. */
  function EnteredNodes(vs: seq<Visit>): seq<Node> {
    if |vs| == 0 then []
    else (if vs[0].Enter? then [vs[0].node] else []) + EnteredNodes(vs[1..])
  }

  function LeftCount(vs: seq<Visit>): nat {
    if |vs| == 0 then 0 else (if vs[0].Leave? then 1 else 0) + LeftCount(vs[1..])
  }

  lemma {:induction false} EnteredAppend(a: seq<Visit>, b: seq<Visit>)
    ensures EnteredNodes(a + b) == EnteredNodes(a) + EnteredNodes(b)
  {
    if |a| == 0 {
      assert a + b == b;
    } else {
      assert (a + b)[0] == a[0];
      assert (a + b)[1..] == a[1..] + b;
      EnteredAppend(a[1..], b);
      SeqAssoc(if a[0].Enter? then [a[0].node] else [], EnteredNodes(a[1..]), EnteredNodes(b));
    }
  }

  lemma {:induction false} LeftAppend(a: seq<Visit>, b: seq<Visit>)
    ensures LeftCount(a + b) == LeftCount(a) + LeftCount(b)
  {
    if |a| == 0 {
      assert a + b == b;
    } else {
      assert (a + b)[1..] == a[1..] + b;
      LeftAppend(a[1..], b);
    }
  }

  /** The handler is called on exactly the nodes of the subtree, in
      pre-order, and the after-handler once per node. */
  lemma {:induction false} WalkVisitsSubtree(parent: Option<Node>, n: Node)
    ensures EnteredNodes(Walk(parent, n)) == PreOrder(n)
    ensures LeftCount(Walk(parent, n)) == Size(n)
    decreases n, 1
  {
    WalkFromVisitsSubtree(n, 0);
    EnteredAppend([Enter(parent, n)], WalkFrom(n, 0));
    EnteredAppend([Enter(parent, n)] + WalkFrom(n, 0), [Leave(parent, n)]);
    LeftAppend([Enter(parent, n)], WalkFrom(n, 0));
    LeftAppend([Enter(parent, n)] + WalkFrom(n, 0), [Leave(parent, n)]);
    assert [Enter(parent, n)][1..] == [];
    assert [Leave(parent, n)][1..] == [];
  }

  lemma {:induction false} WalkFromVisitsSubtree(n: Node, i: nat)
    requires i <= |n.children|
    ensures EnteredNodes(WalkFrom(n, i)) == PreOrderFrom(n, i)
    ensures LeftCount(WalkFrom(n, i)) == |PreOrderFrom(n, i)|
    decreases n, 0, |n.children| - i
  {
    if i < |n.children| {
      WalkVisitsSubtree(Some(n), n.children[i]);
      WalkFromVisitsSubtree(n, i + 1);
      EnteredAppend(Walk(Some(n), n.children[i]), WalkFrom(n, i + 1));
      LeftAppend(Walk(Some(n), n.children[i]), WalkFrom(n, i + 1));
    }
  }

  /** Enter opens and Leave closes the visited node. */
  function VisitToks(vs: seq<Visit>): seq<Tok<Node>> {
    if |vs| == 0 then []
    else [if vs[0].Enter? then Open(vs[0].node) else Close(vs[0].node)] + VisitToks(vs[1..])
  }

  lemma {:induction false} VisitToksAppend(a: seq<Visit>, b: seq<Visit>)
    ensures VisitToks(a + b) == VisitToks(a) + VisitToks(b)
  {
    if |a| == 0 {
      assert a + b == b;
    } else {
      assert (a + b)[1..] == a[1..] + b;
      VisitToksAppend(a[1..], b);
    }
  }

  /** The handler reaches a node before any of its descendants and the
      after-handler reaches it after all of theirs: enter and leave calls
      nest like brackets, each leave closing the most recent open enter. */
  lemma {:induction false} WalkIsNested(parent: Option<Node>, n: Node)
    ensures Balanced(VisitToks(Walk(parent, n)))
    decreases n, 1
  {
    WalkFromIsNested(n, 0);
    VisitToksAppend([Enter(parent, n)], WalkFrom(n, 0));
    VisitToksAppend([Enter(parent, n)] + WalkFrom(n, 0), [Leave(parent, n)]);
    assert VisitToks([Enter(parent, n)]) == [Open(n)];
    assert VisitToks([Leave(parent, n)]) == [Close(n)];
    BalancedWrap(n, VisitToks(WalkFrom(n, 0)));
  }

  lemma {:induction false} WalkFromIsNested(n: Node, i: nat)
    requires i <= |n.children|
    ensures Balanced(VisitToks(WalkFrom(n, i)))
    decreases n, 0, |n.children| - i
  {
    if i < |n.children| {
      WalkIsNested(Some(n), n.children[i]);
      WalkFromIsNested(n, i + 1);
      VisitToksAppend(Walk(Some(n), n.children[i]), WalkFrom(n, i + 1));
      BalancedConcat(VisitToks(Walk(Some(n), n.children[i])), VisitToks(WalkFrom(n, i + 1)));
    }
  }

  // ---------------------------------------------------------------------
  // Blui.toString
  // ---------------------------------------------------------------------

  function DumpLine(v: Visit): string {
    match v
    case Enter(_, n) => "<" + n.kind + ">\n"
    case Leave(_, n) => "</" + n.kind + ">\n"
  }

  function DumpLinesOf(vs: seq<Visit>): seq<string> {
    if |vs| == 0 then [] else [DumpLine(vs[0])] + DumpLinesOf(vs[1..])
  }

  /** The lines `toString` appends, in order. */
  function DumpLines(d: Document): Result<seq<string>> {
    var vs :- Traverse(d);
    Success(["<template>\n"] + DumpLinesOf(vs) + ["</template>\n"])
  }

  /** `Blui.toString`. */
  function ToString(d: Document): Result<string> {
    var lines :- DumpLines(d);
    Success(Concat(lines))
  }

  /** The kind each dump line opens or closes. */
  function DumpToks(vs: seq<Visit>): seq<Tok<string>> {
    if |vs| == 0 then []
    else [if vs[0].Enter? then Open(vs[0].node.kind) else Close(vs[0].node.kind)] + DumpToks(vs[1..])
  }

  /** Dump line i is `<K>\n` or `</K>\n` for the kind K of visit i, and
      token i opens or closes that same kind: the nesting stated on the
      tokens is the nesting of the lines. */
  lemma {:induction false} DumpLineTok(vs: seq<Visit>, i: nat)
    requires i < |vs|
    ensures |DumpLinesOf(vs)| == |vs| && |DumpToks(vs)| == |vs|
    ensures DumpLinesOf(vs)[i] == (if vs[i].Enter? then "<" else "</") + vs[i].node.kind + ">\n"
    ensures DumpToks(vs)[i] == if vs[i].Enter? then Open(vs[i].node.kind) else Close(vs[i].node.kind)
    decreases |vs|
  {
    if |vs| > 1 {
      DumpLineTok(vs[1..], if i > 0 then i - 1 else 0);
    }
  }

  lemma {:induction false} DumpToksAppend(a: seq<Visit>, b: seq<Visit>)
    ensures DumpToks(a + b) == DumpToks(a) + DumpToks(b)
  {
    if |a| == 0 {
      assert a + b == b;
    } else {
      assert (a + b)[1..] == a[1..] + b;
      DumpToksAppend(a[1..], b);
    }
  }

  lemma {:induction false} DumpLinesAppend(a: seq<Visit>, b: seq<Visit>)
    ensures DumpLinesOf(a + b) == DumpLinesOf(a) + DumpLinesOf(b)
  {
    if |a| == 0 {
      assert a + b == b;
    } else {
      assert (a + b)[1..] == a[1..] + b;
      DumpLinesAppend(a[1..], b);
    }
  }

  lemma {:induction false} DumpNested(parent: Option<Node>, n: Node)
    ensures Balanced(DumpToks(Walk(parent, n)))
    ensures |DumpLinesOf(Walk(parent, n))| == 2 * Size(n)
    decreases n, 1
  {
    DumpFromNested(n, 0);
    DumpToksAppend([Enter(parent, n)], WalkFrom(n, 0));
    DumpToksAppend([Enter(parent, n)] + WalkFrom(n, 0), [Leave(parent, n)]);
    DumpLinesAppend([Enter(parent, n)], WalkFrom(n, 0));
    DumpLinesAppend([Enter(parent, n)] + WalkFrom(n, 0), [Leave(parent, n)]);
    assert DumpToks([Enter(parent, n)]) == [Open(n.kind)];
    assert DumpToks([Leave(parent, n)]) == [Close(n.kind)];
    assert |DumpLinesOf([Enter(parent, n)])| == 1;
    assert |DumpLinesOf([Leave(parent, n)])| == 1;
    BalancedWrap(n.kind, DumpToks(WalkFrom(n, 0)));
  }

  lemma {:induction false} DumpFromNested(n: Node, i: nat)
    requires i <= |n.children|
    ensures Balanced(DumpToks(WalkFrom(n, i)))
    ensures |DumpLinesOf(WalkFrom(n, i))| == 2 * |PreOrderFrom(n, i)|
    decreases n, 0, |n.children| - i
  {
    if i < |n.children| {
      DumpNested(Some(n), n.children[i]);
      DumpFromNested(n, i + 1);
      DumpToksAppend(Walk(Some(n), n.children[i]), WalkFrom(n, i + 1));
      DumpLinesAppend(Walk(Some(n), n.children[i]), WalkFrom(n, i + 1));
      BalancedConcat(DumpToks(Walk(Some(n), n.children[i])), DumpToks(WalkFrom(n, i + 1)));
    }
  }

  /** The dump has 2 + 2·|nodes| lines: the template wrapper, and `<K>` and
      `</K>` for every node, nesting like the tree. */
  lemma {:induction false} ToStringShape(root: Node)
    ensures var lines := DumpLines(Document(Some(root)));
      lines.Success? &&
      |lines.value| == 2 + 2 * Size(root) &&
      lines.value[0] == "<template>\n" &&
      lines.value[|lines.value| - 1] == "</template>\n" &&
      ToString(Document(Some(root))) == Success(Concat(lines.value))
    ensures Balanced(DumpToks(Walk(None, root)))
  {
    DumpNested(None, root);
  }
}

=== FILE: menu.dfy ===
/** menuStructureBuilder of vue-blui-loader.js: the statements that build a
    menu's runtime structure, one `{ ... }` block per descendant of the
    menu, produced by a traversal that starts at the menu itself. */
module MenuBuilder {
  import opened Wrappers
  import opened Nesting
  import opened Utils
  import opened Blui

  /** One emitted statement; `RenderStmt` gives its exact characters. */
  datatype MenuStmt =
    | BlockOpen(space: nat)
    | Declare(space: nat, name: string, cls: string, args: seq<string>)
    | PushItem(space: nat)
    | AttachSubmenu(space: nat)
    | PushRoot(space: nat, menuName: string)
    | BlockClose(space: nat)

  function RenderStmt(m: MenuStmt): string {
    match m
    case BlockOpen(s) => Indent(s) + "{\n"
    case Declare(s, name, cls, args) => Indent(s) + Instance(name, cls).LetNew(args)
    case PushItem(s) => Indent(s) + "_submenu.items.push(_menuItem);\n"
    case AttachSubmenu(s) => Indent(s) + "_menuItem.submenu = _submenu;\n"
    // The source puts the indentation after `this.`.
    case PushRoot(s, name) => "this." + Indent(s) + name + ".items.push(_menuItem);\n"
    case BlockClose(s) => Indent(s) + "}\n"
  }

  function RenderStmts(ms: seq<MenuStmt>): string {
    if |ms| == 0 then "" else RenderStmt(ms[0]) + RenderStmts(ms[1..])
  }

  /** The local a descendant is declared in: `_submenu` for a Menu, else
      `_menuItem`. */
  function VarName(kind: string): string {
    if kind == "Menu" then "_submenu" else "_menuItem"
  }

  /** The constructor arguments: the quoted title, after the submenu type
      for a Menu. */
  function CtorArgs(n: Node): (r: seq<string>)
    ensures |r| == if n.kind == "Menu" then 2 else 1
    ensures r[|r| - 1] == "'" + AttrText(n.attributes, "title") + "'"
    ensures n.kind == "Menu" ==> r[0] == "Menu.MenuType.Submenu"
  {
    var title := "'" + AttrText(n.attributes, "title") + "'";
    if n.kind == "Menu" then ["Menu.MenuType.Submenu", title] else [title]
  }

  /** `toCamelCase(menuNode.attributes['instance'])`, which throws when the
      menu has no `instance` attribute. */
  function RootName(menu: Node): (r: Result<string>)
    ensures r.Success? <==> "instance" in menu.attributes
    ensures r.Failure? ==> r.fault == UndefinedInstance(menu.kind)
  {
    if "instance" in menu.attributes then Success(ToCamelCase(menu.attributes["instance"]))
    else Failure(UndefinedInstance(menu.kind))
  }

  // ---------------------------------------------------------------------
  // The handlers
  // ---------------------------------------------------------------------

  /** The builder's variables: indentation and the statements so far. */
  datatype MState = MState(space: int, stmts: seq<MenuStmt>)

  /** The open handler: nothing for the menu itself; otherwise open a block
      and declare the entry one level deeper. */
  function EnterEntry(menu: Node, st: MState, n: Node): Result<MState> {
    if n == menu then Success(st)
    else
      var s :- At(st.space);
      Success(MState(s + 2, st.stmts + [BlockOpen(s), Declare(s + 2, VarName(n.kind), n.kind, CtorArgs(n))]))
  }

  /** The statements after an entry's children: a leaf is pushed into the
      enclosing submenu; a Menu with children becomes the submenu of the
      enclosing item; a MenuItem with children is pushed into the enclosing
      submenu, or into the menu itself when it is a direct child of it. */
  function LeaveStmts(menu: Node, p: Option<Node>, n: Node, s: nat): Result<seq<MenuStmt>> {
    var leaf := if |n.children| == 0 then [PushItem(s)] else [];
    if |n.children| > 0 && n.kind == "Menu" then Success(leaf + [AttachSubmenu(s)])
    else if |n.children| > 0 && n.kind == "MenuItem" then
      if p != Some(menu) then Success(leaf + [PushItem(s)])
      else
        var name :- RootName(menu);
        Success(leaf + [PushRoot(s, name)])
    else Success(leaf)
  }

  /** The close handler: nothing for the menu itself; otherwise the closing
      statements, then close the block one level up. */
  function LeaveEntry(menu: Node, st: MState, p: Option<Node>, n: Node): Result<MState> {
    if n == menu then Success(st)
    else
      var s :- At(st.space);
      var tail :- LeaveStmts(menu, p, n, s);
      var s2 :- At(st.space - 2);
      Success(MState(s2, st.stmts + tail + [BlockClose(s2)]))
  }

  function MenuVisit(menu: Node, st: MState, v: Visit): Result<MState> {
    match v
    case Enter(_, n) => EnterEntry(menu, st, n)
    case Leave(p, n) => LeaveEntry(menu, st, p, n)
  }

  /** Both handlers, closed over the menu being built. */
  function Stepper(menu: Node): (MState, Visit) -> Result<MState> {
    (st: MState, v: Visit) => MenuVisit(menu, st, v)
  }

  /** The statements for `menu`, whose parent is `p`, traversed from the menu. */
  function MenuStatements(p: Option<Node>, menu: Node): Result<seq<MenuStmt>> {
    var st :- Handle(Stepper(menu), MState(0, []), Walk(p, menu));
    Success(st.stmts)
  }

  /** `menuStructureBuilder(blui, menuNode)`. */
  function MenuStructureBuilder(p: Option<Node>, menu: Node): Result<string> {
    var ms :- MenuStatements(p, menu);
    Success(RenderStmts(ms))
  }

  // ---------------------------------------------------------------------
  // Reference: one block per descendant
  // ---------------------------------------------------------------------

  /** A direct child that is a MenuItem with children of its own: its block
      pushes into the menu by name. */
  predicate RootPushed(c: Node) {
    c.kind == "MenuItem" && |c.children| > 0
  }

  /** The builder does not throw: the menu is named, or no direct child needs
      its name. */
  predicate MenuReady(menu: Node) {
    "instance" in menu.attributes || forall i :: 0 <= i < |menu.children| ==> !RootPushed(menu.children[i])
  }

  /** The name the blocks push into; irrelevant when the menu has no name. */
  function RootLabel(menu: Node): string {
    if "instance" in menu.attributes then ToCamelCase(menu.attributes["instance"]) else ""
  }

  /** What the close handler adds for `c` at indentation `s`; `top` says
      whether `c` is a direct child of the menu. */
  function Closing(c: Node, s: nat, top: bool, name: string): seq<MenuStmt> {
    if |c.children| == 0 then [PushItem(s)]
    else if c.kind == "Menu" then [AttachSubmenu(s)]
    else if c.kind == "MenuItem" then [if top then PushRoot(s, name) else PushItem(s)]
    else []
  }

  /** The block of one descendant `c` opened at indentation `s`. */
  function Block(c: Node, s: nat, top: bool, name: string): seq<MenuStmt>
    decreases c, 1
  {
    [BlockOpen(s), Declare(s + 2, VarName(c.kind), c.kind, CtorArgs(c))]
      + BlocksFrom(c, 0, s + 2, false, name)
      + Closing(c, s + 2, top, name)
      + [BlockClose(s)]
  }

  /** The blocks of the children of `n` from position i. */
  function BlocksFrom(n: Node, i: nat, s: nat, top: bool, name: string): seq<MenuStmt>
    requires i <= |n.children|
    decreases n, 0, |n.children| - i
  {
    if i == |n.children| then []
    else Block(n.children[i], s, top, name) + BlocksFrom(n, i + 1, s, top, name)
  }

  // ---------------------------------------------------------------------
  // The traversal computes the reference
  // ---------------------------------------------------------------------

  lemma LeaveStmtsAgree(menu: Node, p: Option<Node>, n: Node, s: nat, top: bool)
    requires top <==> p == Some(menu)
    requires top && RootPushed(n) ==> "instance" in menu.attributes
    ensures LeaveStmts(menu, p, n, s) == Success(Closing(n, s, top, RootLabel(menu)))
  {
    if |n.children| > 0 {
      var leaf: seq<MenuStmt> := [];
      assert leaf + [AttachSubmenu(s)] == [AttachSubmenu(s)];
      assert leaf + [PushItem(s)] == [PushItem(s)];
      assert leaf + [PushRoot(s, RootLabel(menu))] == [PushRoot(s, RootLabel(menu))];
      if n.kind == "MenuItem" && top {
        assert RootName(menu) == Success(RootLabel(menu));
      }
    }
  }

  lemma {:induction false} BlockRun(menu: Node, p: Option<Node>, n: Node, st: MState, top: bool)
    requires Size(n) < Size(menu) && st.space >= 0
    requires top <==> p == Some(menu)
    requires top && RootPushed(n) ==> "instance" in menu.attributes
    ensures Handle(Stepper(menu), st, Walk(p, n)) ==
      Success(MState(st.space, st.stmts + Block(n, st.space, top, RootLabel(menu))))
    decreases n, 1
  {
    var step := Stepper(menu);
    var s: nat := st.space;
    var name := RootLabel(menu);
    var head := [BlockOpen(s), Declare(s + 2, VarName(n.kind), n.kind, CtorArgs(n))];
    var st1 := MState(s + 2, st.stmts + head);
    assert step(st, Enter(p, n)) == Success(st1) by {
      assert n != menu;
      assert At(st.space) == Success(s);
    }
    HandleOne(step, st, Enter(p, n));
    var inner := BlocksFrom(n, 0, s + 2, false, name);
    var st2 := MState(s + 2, st1.stmts + inner);
    assert Handle(step, st1, WalkFrom(n, 0)) == Success(st2) by {
      BlocksRun(menu, n, 0, st1);
    }
    HandleSeq(step, st, [Enter(p, n)], WalkFrom(n, 0), st1, st2);
    var close := Closing(n, s + 2, top, name);
    var st3 := MState(s, st2.stmts + close + [BlockClose(s)]);
    assert step(st2, Leave(p, n)) == Success(st3) by {
      assert n != menu;
      assert At(st2.space) == Success(s + 2);
      LeaveStmtsAgree(menu, p, n, s + 2, top);
      assert At(st2.space - 2) == Success(s);
    }
    HandleOne(step, st2, Leave(p, n));
    HandleSeq(step, st, [Enter(p, n)] + WalkFrom(n, 0), [Leave(p, n)], st2, st3);
    assert st3.stmts == st.stmts + (head + inner + close + [BlockClose(s)]);
  }

  lemma {:induction false} BlocksRun(menu: Node, n: Node, i: nat, st: MState)
    requires n == menu || Size(n) < Size(menu)
    requires i <= |n.children| && st.space >= 0
    requires n == menu ==> MenuReady(menu)
    ensures Handle(Stepper(menu), st, WalkFrom(n, i)) ==
      Success(MState(st.space, st.stmts + BlocksFrom(n, i, st.space, n == menu, RootLabel(menu))))
    decreases n, 0, |n.children| - i
  {
    var step := Stepper(menu);
    var name := RootLabel(menu);
    var top := n == menu;
    if i == |n.children| {
      assert st.stmts + [] == st.stmts;
    } else {
      var c := n.children[i];
      ChildSmaller(n, i);
      var first := Block(c, st.space, top, name);
      var st1 := MState(st.space, st.stmts + first);
      var rest := BlocksFrom(n, i + 1, st.space, top, name);
      var st2 := MState(st.space, st1.stmts + rest);
      assert Handle(step, st, Walk(Some(n), c)) == Success(st1) by {
        BlockRun(menu, Some(n), c, st, top);
      }
      assert Handle(step, st1, WalkFrom(n, i + 1)) == Success(st2) by {
        BlocksRun(menu, n, i + 1, st1);
      }
      HandleCons(step, n, i, st, st1, st2);
      assert st2.stmts == st.stmts + (first + rest);
    }
  }

  /** A ready menu yields the blocks of its children at indentation 0, and
      the menu's own handlers add nothing. */
  lemma {:induction false} MenuStatementsOfReady(p: Option<Node>, menu: Node)
    requires MenuReady(menu)
    ensures MenuStatements(p, menu) == Success(BlocksFrom(menu, 0, 0, true, RootLabel(menu)))
  {
    var step := Stepper(menu);
    var st0 := MState(0, []);
    var st1 := MState(0, BlocksFrom(menu, 0, 0, true, RootLabel(menu)));
    assert step(st0, Enter(p, menu)) == Success(st0);
    HandleOne(step, st0, Enter(p, menu));
    BlocksRun(menu, menu, 0, st0);
    assert [] + BlocksFrom(menu, 0, 0, true, RootLabel(menu)) == st1.stmts;
    HandleSeq(step, st0, [Enter(p, menu)], WalkFrom(menu, 0), st0, st1);
    assert step(st1, Leave(p, menu)) == Success(st1);
    HandleOne(step, st1, Leave(p, menu));
    HandleSeq(step, st0, [Enter(p, menu)] + WalkFrom(menu, 0), [Leave(p, menu)], st1, st1);
  }

  /** An unnamed menu with a direct MenuItem child that has children throws
      when that child's block closes. */
  lemma {:induction false} BlocksFail(menu: Node, i: nat, j: nat, st: MState)
    requires "instance" !in menu.attributes
    requires i <= j < |menu.children| && RootPushed(menu.children[j])
    ensures Handle(Stepper(menu), st, WalkFrom(menu, i)).Failure?
    decreases j - i
  {
    var step := Stepper(menu);
    var c := menu.children[i];
    assert WalkFrom(menu, i) == Walk(Some(menu), c) + WalkFrom(menu, i + 1);
    HandleAppend(step, st, Walk(Some(menu), c), WalkFrom(menu, i + 1));
    if i < j {
      match Handle(step, st, Walk(Some(menu), c))
      case Failure(_) =>
      case Success(s1) =>
        BlocksFail(menu, i + 1, j, s1);
    } else {
      ChildFails(menu, j, st);
    }
  }

  lemma ChildFails(menu: Node, j: nat, st: MState)
    requires "instance" !in menu.attributes
    requires j < |menu.children| && RootPushed(menu.children[j])
    ensures Handle(Stepper(menu), st, Walk(Some(menu), menu.children[j])).Failure?
  {
    var step := Stepper(menu);
    var c := menu.children[j];
    ChildSmaller(menu, j);
    assert c != menu;
    var pre := [Enter(Some(menu), c)] + WalkFrom(c, 0);
    HandleAppend(step, st, pre, [Leave(Some(menu), c)]);
    match Handle(step, st, pre)
    case Failure(_) =>
    case Success(s) =>
      HandleOne(step, s, Leave(Some(menu), c));
      if s.space >= 0 {
        assert LeaveStmts(menu, Some(menu), c, s.space).Failure?;
      }
  }

  /** The builder throws exactly when the menu is not ready; otherwise it
      yields the reference blocks. */
  lemma {:induction false} MenuStatementsCases(p: Option<Node>, menu: Node)
    ensures MenuStatements(p, menu).Success? <==> MenuReady(menu)
    ensures MenuReady(menu) ==>
      MenuStatements(p, menu) == Success(BlocksFrom(menu, 0, 0, true, RootLabel(menu)))
  {
    if MenuReady(menu) {
      MenuStatementsOfReady(p, menu);
    } else {
      var j :| 0 <= j < |menu.children| && RootPushed(menu.children[j]);
      var step := Stepper(menu);
      var st0 := MState(0, []);
      assert step(st0, Enter(p, menu)) == Success(st0);
      HandleOne(step, st0, Enter(p, menu));
      BlocksFail(menu, 0, j, st0);
      HandleAppend(step, st0, [Enter(p, menu)], WalkFrom(menu, 0));
      HandleFails(step, st0, [Enter(p, menu)] + WalkFrom(menu, 0), [Leave(p, menu)]);
    }
  }

  // ---------------------------------------------------------------------
  // What the blocks contain
  // ---------------------------------------------------------------------

  function BraceTok(m: MenuStmt): Tok<nat> {
    match m
    case BlockOpen(s) => Open(s)
    case BlockClose(s) => Close(s)
    case _ => Neutral
  }

  function BraceToks(ms: seq<MenuStmt>): seq<Tok<nat>> {
    if |ms| == 0 then [] else [BraceTok(ms[0])] + BraceToks(ms[1..])
  }

  /** What a declaration says: variable, class and constructor arguments. */
  datatype Decl = Decl(name: string, cls: string, args: seq<string>)

  function Declared(ms: seq<MenuStmt>): seq<Decl> {
    if |ms| == 0 then []
    else (if ms[0].Declare? then [Decl(ms[0].name, ms[0].cls, ms[0].args)] else []) + Declared(ms[1..])
  }

  /** The declaration the builder writes for one descendant. */
  function DeclOf(n: Node): Decl {
    Decl(VarName(n.kind), n.kind, CtorArgs(n))
  }

  function DeclsOf(ns: seq<Node>): (r: seq<Decl>)
    ensures |r| == |ns|
  {
    if |ns| == 0 then [] else [DeclOf(ns[0])] + DeclsOf(ns[1..])
  }

  function RootPushes(ms: seq<MenuStmt>): nat {
    if |ms| == 0 then 0 else (if ms[0].PushRoot? then 1 else 0) + RootPushes(ms[1..])
  }

  /** The direct children from position i that push into the menu by name. */
  function RootPushedFrom(menu: Node, i: nat): nat
    requires i <= |menu.children|
    decreases |menu.children| - i
  {
    if i == |menu.children| then 0
    else (if RootPushed(menu.children[i]) then 1 else 0) + RootPushedFrom(menu, i + 1)
  }

  lemma {:induction false} BraceToksAppend(a: seq<MenuStmt>, b: seq<MenuStmt>)
    ensures BraceToks(a + b) == BraceToks(a) + BraceToks(b)
    decreases |a|
  {
    if |a| == 0 {
      assert a + b == b;
    } else {
      assert (a + b)[0] == a[0];
      assert (a + b)[1..] == a[1..] + b;
      BraceToksAppend(a[1..], b);
    }
  }

  lemma {:induction false} DeclaredAppend(a: seq<MenuStmt>, b: seq<MenuStmt>)
    ensures Declared(a + b) == Declared(a) + Declared(b)
    decreases |a|
  {
    if |a| == 0 {
      assert a + b == b;
    } else {
      assert (a + b)[0] == a[0];
      assert (a + b)[1..] == a[1..] + b;
      DeclaredAppend(a[1..], b);
    }
  }

  lemma {:induction false} RootPushesAppend(a: seq<MenuStmt>, b: seq<MenuStmt>)
    ensures RootPushes(a + b) == RootPushes(a) + RootPushes(b)
    decreases |a|
  {
    if |a| == 0 {
      assert a + b == b;
    } else {
      assert (a + b)[0] == a[0];
      assert (a + b)[1..] == a[1..] + b;
      RootPushesAppend(a[1..], b);
    }
  }

  lemma {:induction false} DeclsOfAppend(a: seq<Node>, b: seq<Node>)
    ensures DeclsOf(a + b) == DeclsOf(a) + DeclsOf(b)
    decreases |a|
  {
    if |a| == 0 {
      assert a + b == b;
    } else {
      assert (a + b)[0] == a[0];
      assert (a + b)[1..] == a[1..] + b;
      DeclsOfAppend(a[1..], b);
    }
  }

  lemma ClosingFacts(c: Node, s: nat, top: bool, name: string)
    ensures BraceToks(Closing(c, s, top, name)) == if Closing(c, s, top, name) == [] then [] else [Neutral]
    ensures Declared(Closing(c, s, top, name)) == []
    ensures RootPushes(Closing(c, s, top, name)) == if top && RootPushed(c) then 1 else 0
  {
  }

  /** The summaries of a single statement. */
  lemma StmtOne(m: MenuStmt)
    ensures BraceToks([m]) == [BraceTok(m)]
    ensures Declared([m]) == if m.Declare? then [Decl(m.name, m.cls, m.args)] else []
    ensures RootPushes([m]) == if m.PushRoot? then 1 else 0
  {
    assert [m][1..] == [];
  }

  /** A block is its opening and declaration, its children's blocks, its
      closing statements and its closing brace. */
  lemma BlockParts(c: Node, s: nat, top: bool, name: string)
    ensures var head := [BlockOpen(s), Declare(s + 2, VarName(c.kind), c.kind, CtorArgs(c))];
      Block(c, s, top, name) ==
        head + BlocksFrom(c, 0, s + 2, false, name) + Closing(c, s + 2, top, name) + [BlockClose(s)]
  {
  }

  lemma BlockBraceSplit(c: Node, s: nat, top: bool, name: string)
    ensures BraceToks(Block(c, s, top, name)) ==
      [Open(s), Neutral] + BraceToks(BlocksFrom(c, 0, s + 2, false, name))
        + BraceToks(Closing(c, s + 2, top, name)) + [Close(s)]
  {
    var decl := Declare(s + 2, VarName(c.kind), c.kind, CtorArgs(c));
    var head := [BlockOpen(s), decl];
    var inner := BlocksFrom(c, 0, s + 2, false, name);
    var close := Closing(c, s + 2, top, name);
    BlockParts(c, s, top, name);
    assert BraceToks(head) == [Open(s), Neutral] by {
      assert head[1..] == [decl];
      StmtOne(decl);
    }
    assert BraceToks([BlockClose(s)]) == [Close(s)] by {
      StmtOne(BlockClose(s));
    }
    BraceToksAppend(head, inner);
    BraceToksAppend(head + inner, close);
    BraceToksAppend(head + inner + close, [BlockClose(s)]);
  }

  lemma BlockDeclSplit(c: Node, s: nat, top: bool, name: string)
    ensures Declared(Block(c, s, top, name)) ==
      [DeclOf(c)] + Declared(BlocksFrom(c, 0, s + 2, false, name)) + Declared(Closing(c, s + 2, top, name))
  {
    var decl := Declare(s + 2, VarName(c.kind), c.kind, CtorArgs(c));
    var head := [BlockOpen(s), decl];
    var inner := BlocksFrom(c, 0, s + 2, false, name);
    var close := Closing(c, s + 2, top, name);
    BlockParts(c, s, top, name);
    assert Declared(head) == [DeclOf(c)] by {
      assert head[1..] == [decl];
      StmtOne(decl);
    }
    assert Declared([BlockClose(s)]) == [] by {
      StmtOne(BlockClose(s));
    }
    DeclaredAppend(head, inner);
    DeclaredAppend(head + inner, close);
    DeclaredAppend(head + inner + close, [BlockClose(s)]);
    assert [DeclOf(c)] + Declared(inner) + Declared(close) + [] == [DeclOf(c)] + Declared(inner) + Declared(close);
  }

  lemma BlockPushSplit(c: Node, s: nat, top: bool, name: string)
    ensures RootPushes(Block(c, s, top, name)) ==
      RootPushes(BlocksFrom(c, 0, s + 2, false, name)) + RootPushes(Closing(c, s + 2, top, name))
  {
    var decl := Declare(s + 2, VarName(c.kind), c.kind, CtorArgs(c));
    var head := [BlockOpen(s), decl];
    var inner := BlocksFrom(c, 0, s + 2, false, name);
    var close := Closing(c, s + 2, top, name);
    BlockParts(c, s, top, name);
    assert RootPushes(head) == 0 by {
      assert head[1..] == [decl];
      StmtOne(decl);
    }
    assert RootPushes([BlockClose(s)]) == 0 by {
      StmtOne(BlockClose(s));
    }
    RootPushesAppend(head, inner);
    RootPushesAppend(head + inner, close);
    RootPushesAppend(head + inner + close, [BlockClose(s)]);
  }

  /** A block opens and closes one brace pair at its indentation, with the
      blocks of the children nested inside. */
  lemma {:induction false} BlockBraces(c: Node, s: nat, top: bool, name: string)
    ensures Balanced(BraceToks(Block(c, s, top, name)))
    decreases c, 1
  {
    var inner := BlocksFrom(c, 0, s + 2, false, name);
    var close := Closing(c, s + 2, top, name);
    BlockBraceSplit(c, s, top, name);
    var mid := [Neutral] + BraceToks(inner) + BraceToks(close);
    assert Balanced(mid) by {
      BlocksBraces(c, 0, s + 2, false, name);
      ClosingFacts(c, s + 2, top, name);
      BalancedNeutralPrefix(BraceToks(inner));
      if close == [] {
        assert mid == [Neutral] + BraceToks(inner);
      } else {
        var none: seq<Tok<nat>> := [];
        assert Match([], none) == Some([]);
        BalancedNeutralPrefix(none);
        assert [Neutral] + none == BraceToks(close);
        BalancedConcat([Neutral] + BraceToks(inner), BraceToks(close));
      }
    }
    assert BraceToks(Block(c, s, top, name)) == [Open(s)] + mid + [Close(s)];
    BalancedWrap(s, mid);
  }

  lemma {:induction false} BlocksBraces(n: Node, i: nat, s: nat, top: bool, name: string)
    requires i <= |n.children|
    ensures Balanced(BraceToks(BlocksFrom(n, i, s, top, name)))
    decreases n, 0, |n.children| - i
  {
    if i == |n.children| {
      assert Match([], BraceToks([])) == Some([]);
    } else {
      var first := Block(n.children[i], s, top, name);
      var rest := BlocksFrom(n, i + 1, s, top, name);
      BlockBraces(n.children[i], s, top, name);
      BlocksBraces(n, i + 1, s, top, name);
      BraceToksAppend(first, rest);
      BalancedConcat(BraceToks(first), BraceToks(rest));
    }
  }

  /** A block declares its node, then its descendants in pre-order. */
  lemma {:induction false} BlockDecls(c: Node, s: nat, top: bool, name: string)
    ensures Declared(Block(c, s, top, name)) == DeclsOf(PreOrder(c))
    decreases c, 1
  {
    BlockDeclSplit(c, s, top, name);
    BlocksDecls(c, 0, s + 2, false, name);
    ClosingFacts(c, s + 2, top, name);
    DeclsOfAppend([c], PreOrderFrom(c, 0));
    assert DeclsOf([c]) == [DeclOf(c)] by {
      assert [c][1..] == [];
    }
    var inner := BlocksFrom(c, 0, s + 2, false, name);
    assert Declared(inner) + [] == Declared(inner);
  }

  lemma {:induction false} BlocksDecls(n: Node, i: nat, s: nat, top: bool, name: string)
    requires i <= |n.children|
    ensures Declared(BlocksFrom(n, i, s, top, name)) == DeclsOf(PreOrderFrom(n, i))
    decreases n, 0, |n.children| - i
  {
    if i < |n.children| {
      var first := Block(n.children[i], s, top, name);
      var rest := BlocksFrom(n, i + 1, s, top, name);
      BlockDecls(n.children[i], s, top, name);
      BlocksDecls(n, i + 1, s, top, name);
      DeclaredAppend(first, rest);
      DeclsOfAppend(PreOrder(n.children[i]), PreOrderFrom(n, i + 1));
    }
  }

  /** Only a direct child of the menu that is a MenuItem with children pushes
      into the menu by name. */
  lemma {:induction false} BlockPushes(c: Node, s: nat, top: bool, name: string)
    ensures RootPushes(Block(c, s, top, name)) == if top && RootPushed(c) then 1 else 0
    decreases c, 1
  {
    BlockPushSplit(c, s, top, name);
    BlocksPushes(c, 0, s + 2, false, name);
    ClosingFacts(c, s + 2, top, name);
  }

  lemma {:induction false} BlocksPushes(n: Node, i: nat, s: nat, top: bool, name: string)
    requires i <= |n.children|
    ensures RootPushes(BlocksFrom(n, i, s, top, name)) == if top then RootPushedFrom(n, i) else 0
    decreases n, 0, |n.children| - i
  {
    if i < |n.children| {
      var first := Block(n.children[i], s, top, name);
      var rest := BlocksFrom(n, i + 1, s, top, name);
      BlockPushes(n.children[i], s, top, name);
      BlocksPushes(n, i + 1, s, top, name);
      RootPushesAppend(first, rest);
    }
  }

  /** The builder's output for a ready menu: balanced braces, one declaration
      per descendant of the menu in pre-order, and one push into the menu per
      direct MenuItem child that has children. */
  lemma {:induction false} MenuStatementsContents(p: Option<Node>, menu: Node)
    requires MenuReady(menu)
    ensures MenuStatements(p, menu).Success?
    ensures var ms := MenuStatements(p, menu).value;
      && Balanced(BraceToks(ms))
      && Declared(ms) == DeclsOf(PreOrderFrom(menu, 0))
      && RootPushes(ms) == RootPushedFrom(menu, 0)
  {
    MenuStatementsOfReady(p, menu);
    BlocksBraces(menu, 0, 0, true, RootLabel(menu));
    BlocksDecls(menu, 0, 0, true, RootLabel(menu));
    BlocksPushes(menu, 0, 0, true, RootLabel(menu));
  }
}

=== FILE: nesting.dfy ===
/** Proper nesting of open and close events, checked with a stack: every
    close must match the most recent open that is still unmatched. Used for
    the traversal's enter/leave calls, the emitted template tags and the
    blocks of the generated menu code. */
module Nesting {
  import opened Wrappers

  datatype Tok<T> = Open(v: T) | Close(v: T) | Neutral

  /** Runs the stack machine from `stack`; None when a close does not match. */
  function Match<T(==)>(stack: seq<T>, ts: seq<Tok<T>>): Option<seq<T>>
    decreases |ts|
  {
    if |ts| == 0 then Some(stack)
    else match ts[0]
      case Open(v) => Match(stack + [v], ts[1..])
      case Close(v) =>
        if |stack| > 0 && stack[|stack| - 1] == v then Match(stack[..|stack| - 1], ts[1..])
        else None
      case Neutral => Match(stack, ts[1..])
  }

  /** Every open has a matching close and nothing else is closed. */
  predicate Balanced<T(==)>(ts: seq<Tok<T>>) {
    Match([], ts) == Some([])
  }

  function Then<T(==)>(r: Option<seq<T>>, ts: seq<Tok<T>>): Option<seq<T>> {
    match r
    case None => None
    case Some(s) => Match(s, ts)
  }

  lemma {:induction false} MatchAppend<T>(s: seq<T>, a: seq<Tok<T>>, b: seq<Tok<T>>)
    ensures Match(s, a + b) == Then(Match(s, a), b)
    decreases |a|
  {
    if |a| == 0 {
      assert a + b == b;
    } else {
      assert (a + b)[0] == a[0];
      assert (a + b)[1..] == a[1..] + b;
      match a[0]
      case Open(v) => MatchAppend(s + [v], a[1..], b);
      case Close(v) =>
        if |s| > 0 && s[|s| - 1] == v {
          MatchAppend(s[..|s| - 1], a[1..], b);
        }
      case Neutral => MatchAppend(s, a[1..], b);
    }
  }

  /** Whatever lies below the stack is left untouched. */
  lemma {:induction false} MatchFrame<T>(x: seq<T>, s: seq<T>, ts: seq<Tok<T>>, t: seq<T>)
    requires Match(s, ts) == Some(t)
    ensures Match(x + s, ts) == Some(x + t)
    decreases |ts|
  {
    if |ts| == 0 {
    } else {
      match ts[0]
      case Open(v) =>
        assert (x + s) + [v] == x + (s + [v]);
        MatchFrame(x, s + [v], ts[1..], t);
      case Close(v) =>
        assert (x + s)[..|x + s| - 1] == x + s[..|s| - 1];
        MatchFrame(x, s[..|s| - 1], ts[1..], t);
      case Neutral =>
        MatchFrame(x, s, ts[1..], t);
    }
  }

  lemma BalancedFromAny<T>(s: seq<T>, ts: seq<Tok<T>>)
    requires Balanced(ts)
    ensures Match(s, ts) == Some(s)
  {
    MatchFrame(s, [], ts, []);
    assert s + [] == s;
  }

  lemma BalancedConcat<T>(a: seq<Tok<T>>, b: seq<Tok<T>>)
    requires Balanced(a) && Balanced(b)
    ensures Balanced(a + b)
  {
    MatchAppend([], a, b);
  }

  /** One open pushes its value; one matching close pops it. */
  lemma MatchOpenClose<T>(s: seq<T>, v: T)
    ensures Match(s, [Open(v)]) == Some(s + [v])
    ensures Match(s + [v], [Close(v)]) == Some(s)
  {
    assert [Open(v)][1..] == [];
    assert [Close(v)][1..] == [];
    assert (s + [v])[..|s + [v]| - 1] == s;
  }

  /** An open, a balanced inside and the matching close make a balanced whole. */
  lemma BalancedWrap<T>(v: T, inner: seq<Tok<T>>)
    requires Balanced(inner)
    ensures Balanced([Open(v)] + inner + [Close(v)])
  {
    var none: seq<T> := [];
    MatchAppend(none, [Open(v)] + inner, [Close(v)]);
    MatchAppend(none, [Open(v)], inner);
    MatchOpenClose(none, v);
    assert none + [v] == [v];
    BalancedFromAny([v], inner);
  }

  /** Neutral tokens in front change nothing. */
  lemma BalancedNeutralPrefix<T>(ts: seq<Tok<T>>)
    requires Balanced(ts)
    ensures Balanced([Neutral] + ts)
  {
    assert ([Neutral] + ts)[1..] == ts;
  }
}

=== FILE: registry.dfy ===
/** The element mapping registry of map.js: one constant entry per element
    kind, which decides every emission of both generators. */
module Registry {
  import opened Wrappers

  datatype ArgType = Const | Str

  /** `{ key, type, optional }`; `optional` is declared but read by nobody. */
  datatype Arg = Arg(key: string, argType: ArgType, optional: bool)

  /** The `extends` field: the host element used in place of the component. */
  datatype HostElement = HostElement(el: string, cssClass: string)

  /** One registry entry. A field the source leaves out is `None` or empty:
      the generators test `map.args`, `map.inits` and `map.props` only for
      presence, so an absent list behaves as an empty one. */
  datatype MappingEntry = MappingEntry(
    need: bool,
    cls: Option<string>,
    args: seq<Arg>,
    inits: seq<Arg>,
    consts: map<string, string>,
    host: Option<HostElement>,
    component: Option<string>,
    slot: Option<string>,
    props: seq<string>)

  const InstanceMap: map<string, MappingEntry> := map[
    "Window" := MappingEntry(
      true, Some("ApplicationWindow"),
      [Arg("type", Const, false)],
      [Arg("title", Str, false)],
      map["type" := "ApplicationWindow.WindowType"],
      Some(HostElement("div", "windowClass")),
      Some("bl-window"), None, []),
    "Menu" := MappingEntry(
      true, Some("Menu"),
      [Arg("type", Const, false), Arg("title", Str, true)],
      [],
      map["type" := "Menu.MenuType"],
      None,
      Some("bl-menu"), Some("menuBar"), []),
    "MenuItem" := MappingEntry(
      false, Some("MenuItem"),
      [Arg("title", Str, false)],
      [], map[], None, None, None, []),
    "Toolbar" := MappingEntry(
      false, Some("Toolbar"),
      [], [], map[], None, None, Some("toolbar"), []),
    "ToolbarItem" := MappingEntry(
      false, None,
      [], [], map[], None, Some("bl-toolbar-item"), None, ["label"]),
    "Button" := MappingEntry(
      true, Some("Button"),
      [Arg("type", Const, false), Arg("title", Str, false)],
      [],
      map["type" := "Button.ButtonType"],
      None,
      Some("bl-button"), None, []),
    "SegmentedControl" := MappingEntry(
      true, Some("SegmentedControl"),
      [], [], map[], None, Some("bl-segmented-control"), None, [])
  ]

  /** `instanceMap[kind]`; reading a field of an unknown kind throws. */
  function Entry(kind: string): (r: Result<MappingEntry>)
    ensures r.Success? <==> kind in InstanceMap
    ensures r.Success? ==> r.value == InstanceMap[kind]
    ensures r.Failure? ==> r.fault == UnknownKind(kind)
  {
    if kind in InstanceMap then Success(InstanceMap[kind]) else Failure(UnknownKind(kind))
  }

  /** The runtime class of an entry, as a template literal prints it. */
  function ClassName(e: MappingEntry): string {
    if e.cls.Some? then e.cls.value else "undefined"
  }

  /** Menu and MenuItem are the kinds whose subtrees become menu data. */
  predicate MenuIsh(kind: string) {
    kind == "Menu" || kind == "MenuItem"
  }

  lemma RegistryKinds()
    ensures InstanceMap.Keys ==
      {"Window", "Menu", "MenuItem", "Toolbar", "ToolbarItem", "Button", "SegmentedControl"}
  {
  }

  /** Exactly Window, Menu, Button and SegmentedControl get a runtime instance. */
  lemma NeedKinds()
    ensures forall k :: k in InstanceMap ==>
      (InstanceMap[k].need <==> k in {"Window", "Menu", "Button", "SegmentedControl"})
  {
  }

  /** Every kind with an instance names its runtime class. */
  lemma NeedHasClass()
    ensures forall k :: k in InstanceMap && InstanceMap[k].need ==> InstanceMap[k].cls.Some?
  {
  }

  /** Every constant argument has its namespace in the entry's `const` table. */
  lemma ConstArgsHaveNamespace()
    ensures forall k, i ::
      (k in InstanceMap && 0 <= i < |InstanceMap[k].args| && InstanceMap[k].args[i].argType == Const) ==>
        InstanceMap[k].args[i].key in InstanceMap[k].consts
  {
  }

  /** Only Window declares a host element: `div` with class `windowClass`. */
  lemma OnlyWindowHasHost()
    ensures forall k :: k in InstanceMap ==> (InstanceMap[k].host.Some? <==> k == "Window")
    ensures InstanceMap["Window"].host == Some(HostElement("div", "windowClass"))
  {
  }

  /** Only Menu (`menuBar`) and Toolbar (`toolbar`) declare slots. */
  lemma OnlyMenuAndToolbarHaveSlots()
    ensures forall k :: k in InstanceMap ==> (InstanceMap[k].slot.Some? <==> k in {"Menu", "Toolbar"})
    ensures InstanceMap["Menu"].slot == Some("menuBar")
    ensures InstanceMap["Toolbar"].slot == Some("toolbar")
  {
  }

  /** Toolbar and MenuItem emit no component; MenuItem has no slot either. */
  lemma ComponentlessKinds()
    ensures forall k :: k in InstanceMap ==>
      (InstanceMap[k].component.None? <==> k in {"Toolbar", "MenuItem"})
  {
  }

  /** ToolbarItem alone passes props through (`label`) and has no class. */
  lemma OnlyToolbarItemHasProps()
    ensures forall k :: k in InstanceMap ==> (|InstanceMap[k].props| > 0 <==> k == "ToolbarItem")
    ensures InstanceMap["ToolbarItem"].props == ["label"]
    ensures InstanceMap["ToolbarItem"].cls.None?
  {
  }

  /** Facts about the two menu kinds that the generators rely on. */
  lemma MenuKindsFacts()
    ensures forall k :: k in InstanceMap && MenuIsh(k) ==>
      InstanceMap[k].host.None? && InstanceMap[k].props == []
    ensures InstanceMap["Menu"].need && !InstanceMap["MenuItem"].need
  {
  }
}

=== FILE: script.dfy ===
/** instanceInitializer and extractFromBlui of vue-blui-loader.js: the
    script fragments, collected by a fold over the traversal that threads
    the import set, the instance records, the anonymous counter and the
    menu flag. */
module Script {
  import opened Wrappers
  import opened Utils
  import opened Registry
  import opened Blui
  import opened Shape
  import opened MenuBuilder

  // ---------------------------------------------------------------------
  // The import set: insertion-ordered, without duplicates
  // ---------------------------------------------------------------------

  predicate NoDup(xs: seq<string>) {
    forall i, j :: 0 <= i < j < |xs| ==> xs[i] != xs[j]
  }

  /** `importSet.add(c)`: a class already present is not added again. */
  function AddClass(seen: seq<string>, c: string): (r: seq<string>)
    ensures NoDup(seen) ==> NoDup(r)
    ensures forall x :: x in r <==> x in seen || x == c
    ensures seen <= r && |r| <= |seen| + 1
  {
    if c in seen then seen else seen + [c]
  }

  /** The set after adding the classes `cs` in order. */
  function AddAll(seen: seq<string>, cs: seq<string>): seq<string>
    decreases |cs|
  {
    if |cs| == 0 then seen else AddClass(AddAll(seen, cs[..|cs| - 1]), cs[|cs| - 1])
  }

  /** The position of the first occurrence of `x`. */
  function FirstIndex(cs: seq<string>, x: string): (r: nat)
    requires x in cs
    ensures r < |cs| && cs[r] == x
    ensures forall j :: 0 <= j < r ==> cs[j] != x
  {
    if cs[0] == x then 0 else 1 + FirstIndex(cs[1..], x)
  }

  lemma {:induction false} AddAllJoin(seen: seq<string>, a: seq<string>, b: seq<string>)
    ensures AddAll(AddAll(seen, a), b) == AddAll(seen, a + b)
    decreases |b|
  {
    if |b| == 0 {
      assert a + b == a;
    } else {
      AddAllJoin(seen, a, b[..|b| - 1]);
      assert (a + b)[..|a + b| - 1] == a + b[..|b| - 1];
      assert (a + b)[|a + b| - 1] == b[|b| - 1];
    }
  }

  lemma FirstIndexPrefix(cs: seq<string>, k: nat, x: string)
    requires k <= |cs| && x in cs[..k]
    ensures x in cs && FirstIndex(cs, x) == FirstIndex(cs[..k], x)
  {
    var f := FirstIndex(cs[..k], x);
    assert cs[f] == x;
    var g := FirstIndex(cs, x);
    assert g <= f;
    assert cs[..k][g] == cs[g];
  }

  /** Starting from an empty set, the imports hold each class once, exactly
      the classes added, in the order of their first addition. */
  lemma {:induction false} AddAllFirstSeen(cs: seq<string>)
    ensures var r := AddAll([], cs);
      && NoDup(r)
      && (forall x :: x in r <==> x in cs)
      && (forall i, j :: 0 <= i < j < |r| ==> FirstIndex(cs, r[i]) < FirstIndex(cs, r[j]))
    decreases |cs|
  {
    if |cs| > 0 {
      var init := cs[..|cs| - 1];
      var c := cs[|cs| - 1];
      AddAllFirstSeen(init);
      var r0 := AddAll([], init);
      var r := AddAll([], cs);
      assert r == AddClass(r0, c);
      forall x | x in cs
        ensures x in r
      {
        var k :| 0 <= k < |cs| && cs[k] == x;
        if k < |cs| - 1 {
          assert init[k] == x;
        }
      }
      forall x | x in r
        ensures x in cs
      {
        if x in r0 {
          var k :| 0 <= k < |init| && init[k] == x;
          assert cs[k] == x;
        }
      }
      forall i, j | 0 <= i < j < |r|
        ensures FirstIndex(cs, r[i]) < FirstIndex(cs, r[j])
      {
        FirstIndexPrefix(cs, |cs| - 1, r[i]);
        if j < |r0| {
          FirstIndexPrefix(cs, |cs| - 1, r[j]);
        } else {
          // r[j] is the new class c, absent from the prefix.
          assert r[j] == c && c !in r0 && c !in init;
          assert FirstIndex(cs, c) == |cs| - 1 by {
            assert forall t :: 0 <= t < |init| ==> cs[t] == init[t];
          }
        }
      }
    }
  }

  /** The banner above and below the imported class list. */
  const ImportsHead: string :=
    "\n  //================================\n  // Imported by vue-blui-loader\n  //================================\n  import {\n    "
  const ImportsTail: string := "\n  } from '@hardboiled65/vuetk'\n  //\n  //================================"

  /** `imports`: the class list joined by `,\n    ` inside the banner. */
  function ImportsCode(classes: seq<string>): string {
    ImportsHead + Join(classes, ",\n    ") + ImportsTail
  }

  // ---------------------------------------------------------------------
  // instanceInitializer
  // ---------------------------------------------------------------------

  /** One constructor argument: a constant as `<namespace>.<value>`, a string
      as `'<value>'`; a missing value prints `undefined`. */
  function ArgValue(e: MappingEntry, attrs: map<string, string>, a: Arg): string {
    match a.argType
    case Const => (if a.key in e.consts then e.consts[a.key] else "undefined") + "." + AttrText(attrs, a.key)
    case Str => "'" + AttrText(attrs, a.key) + "'"
  }

  /** The arguments in the order the entry lists them. */
  function ArgValues(e: MappingEntry, attrs: map<string, string>, args: seq<Arg>): (r: seq<string>)
    ensures |r| == |args|
    ensures forall i :: 0 <= i < |args| ==> r[i] == ArgValue(e, attrs, args[i])
  {
    if |args| == 0 then [] else [ArgValue(e, attrs, args[0])] + ArgValues(e, attrs, args[1..])
  }

  /** One statement of the initializer. */
  datatype InitStmt =
    | InitHeader(name: string, cls: string)
    | Construct(inst: Instance, args: seq<string>)
    | SetField(inst: Instance, key: string, value: string)

  function RenderInit(s: InitStmt): string {
    match s
    case InitHeader(name, cls) => "// Init " + name + ": " + cls + ".\n"
    case Construct(inst, args) => inst.New(args)
    case SetField(inst, key, value) => inst.Assign(key, value)
  }

  function RenderInits(ss: seq<InitStmt>): string {
    if |ss| == 0 then "" else RenderInit(ss[0]) + RenderInits(ss[1..])
  }

  /** The string-typed `inits` entries, in order; other types are ignored. */
  function StrInits(inits: seq<Arg>): (r: seq<Arg>)
    ensures |r| <= |inits|
    ensures |inits| == 1 ==> r == (if inits[0].argType == Str then inits else [])
  {
    if |inits| == 0 then []
    else (if inits[0].argType == Str then [inits[0]] else []) + StrInits(inits[1..])
  }

  /** The filter of a joined list is the filter of each part, in order;
      with the single-entry case above this fixes the result. */
  lemma {:induction false} StrInitsAppend(a: seq<Arg>, b: seq<Arg>)
    ensures StrInits(a + b) == StrInits(a) + StrInits(b)
    decreases |a|
  {
    if |a| == 0 {
      assert a + b == b;
    } else {
      assert (a + b)[0] == a[0];
      assert (a + b)[1..] == a[1..] + b;
      StrInitsAppend(a[1..], b);
      SeqAssoc(if a[0].argType == Str then [a[0]] else [], StrInits(a[1..]), StrInits(b));
    }
  }

  /** The filter keeps exactly the string-typed entries. */
  lemma {:induction false} StrInitsFilters(inits: seq<Arg>)
    ensures forall a :: a in StrInits(inits) <==> a in inits && a.argType == Str
  {
    if |inits| > 0 {
      StrInitsFilters(inits[1..]);
      assert inits == [inits[0]] + inits[1..];
    }
  }

  /** `inst.assign(key, "'" + attribute + "'")` for one string-typed init. */
  function FieldInit(inst: Instance, attrs: map<string, string>, a: Arg): InitStmt {
    SetField(inst, a.key, "'" + AttrText(attrs, a.key) + "'")
  }

  function SetFields(inst: Instance, attrs: map<string, string>, inits: seq<Arg>): (r: seq<InitStmt>)
    ensures |r| == |inits|
    ensures forall i :: 0 <= i < |inits| ==> r[i] == FieldInit(inst, attrs, inits[i])
  {
    if |inits| == 0 then [] else [FieldInit(inst, attrs, inits[0])] + SetFields(inst, attrs, inits[1..])
  }

  /** The variable the initializer fills: a host node is initialized as
      `instance`, every other node under its own name. */
  function Receiver(n: Node, name: string): string {
    if n.extendsHost then "instance" else name
  }

  /** The statements of `instanceInitializer(node, name)` for a node whose
      registry entry is `e`: the header, the constructor call unless the node
      is a host (which is not constructed), then one assignment per
      string-typed `inits` entry (see `InitStmtsFields`). */
  function InitStmtsFor(e: MappingEntry, n: Node, name: string): (r: seq<InitStmt>)
    ensures |r| == (if n.extendsHost then 1 else 2) + |StrInits(e.inits)|
    ensures r[0] == InitHeader(Receiver(n, name), ClassName(e))
    ensures !n.extendsHost ==> r[1] == Construct(Instance(name, ClassName(e)), ArgValues(e, n.attributes, e.args))
  {
    var inst := Instance(Receiver(n, name), ClassName(e));
    var sets := SetFields(inst, n.attributes, StrInits(e.inits));
    if n.extendsHost then [InitHeader(inst.name, inst.cls)] + sets
    else [InitHeader(inst.name, inst.cls), Construct(inst, ArgValues(e, n.attributes, e.args))] + sets
  }

  /** After the header (and the constructor call), the initializer assigns
      every string-typed `inits` entry, in the registry's order, from the
      node's attribute of the same name. */
  lemma InitStmtsFields(e: MappingEntry, n: Node, name: string, i: nat)
    requires i < |StrInits(e.inits)|
    ensures InitStmtsFor(e, n, name)[|InitStmtsFor(e, n, name)| - |StrInits(e.inits)| + i]
         == FieldInit(Instance(Receiver(n, name), ClassName(e)), n.attributes, StrInits(e.inits)[i])
  {
    var inst := Instance(Receiver(n, name), ClassName(e));
    var sets := SetFields(inst, n.attributes, StrInits(e.inits));
    var r := InitStmtsFor(e, n, name);
    if n.extendsHost {
      assert r == [InitHeader(inst.name, inst.cls)] + sets;
      assert r[1 + i] == sets[i];
    } else {
      assert r == [InitHeader(inst.name, inst.cls), Construct(inst, ArgValues(e, n.attributes, e.args))] + sets;
      assert r[2 + i] == sets[i];
    }
  }

  function InitStmts(n: Node, name: string): seq<InitStmt>
    requires n.kind in InstanceMap
  {
    InitStmtsFor(InstanceMap[n.kind], n, name)
  }

  /** `instanceInitializer(node, name)`; an unknown kind throws. */
  function InstanceInitializer(n: Node, name: string): (r: Result<string>)
    ensures r.Success? <==> n.kind in InstanceMap
    ensures r.Failure? ==> r.fault == UnknownKind(n.kind)
    ensures r.Success? ==> r.value == RenderInits(InitStmts(n, name))
  {
    var _ :- Entry(n.kind);
    Success(RenderInits(InitStmts(n, name)))
  }

  // ---------------------------------------------------------------------
  // The handlers of extractFromBlui
  // ---------------------------------------------------------------------

  /** `{ name, init, menu }` of one instance. */
  datatype Record = Record(name: string, init: string, menu: string)

  /** The variables the handlers close over. */
  datatype SState = SState(imports: seq<string>, records: seq<Record>, rtId: nat, skip: bool)

  const Start: SState := SState([], [], 0, false)

  /** The record of a named, non-host node; a Menu carries its structure code. */
  function RecordOf(p: Option<Node>, n: Node, name: string): Result<Record> {
    var init :- InstanceInitializer(n, name);
    var menu :- if n.kind == "Menu" then MenuStructureBuilder(p, n) else Success("");
    Success(Record(name, init, menu))
  }

  /** The open handler: a kind with an instance adds its class to the import
      set; unless skipping, it takes a name, records itself unless it is a
      host, and a Menu starts skipping. */
  function EnterScript(st: SState, p: Option<Node>, n: Node): Result<SState> {
    var e :- Entry(n.kind);
    if !e.need then Success(st)
    else
      var imports := AddClass(st.imports, ClassName(e));
      if st.skip then Success(st.(imports := imports))
      else
        var name := InstanceName(n.attributes, st.rtId);
        var rtId := NextRtId(n.attributes, st.rtId);
        var records :-
          if n.extendsHost then Success(st.records)
          else
            var rec :- RecordOf(p, n, name);
            Success(st.records + [rec]);
        Success(SState(imports, records, rtId, n.kind == "Menu"))
  }

  /** The close handler: leaving a skipped kind with an instance whose parent
      is neither Menu nor MenuItem stops skipping; at the root it throws. */
  function LeaveScript(st: SState, p: Option<Node>, n: Node): Result<SState> {
    var e :- Entry(n.kind);
    if e.need && st.skip then
      if p.None? then Failure(NullParent(n.kind))
      else if !MenuIsh(p.value.kind) then Success(st.(skip := false))
      else Success(st)
    else Success(st)
  }

  function ScriptStep(st: SState, v: Visit): Result<SState> {
    match v
    case Enter(p, n) => EnterScript(st, p, n)
    case Leave(p, n) => LeaveScript(st, p, n)
  }

  function ScriptRun(d: Document): Result<SState> {
    var vs :- Traverse(d);
    Handle(ScriptStep, Start, vs)
  }

  /** The three fragments `extractFromBlui` returns. */
  datatype ScriptParts = ScriptParts(imports: string, data: string, created: string)

  const DataHead: string := "data() {\n  return {\n"
  const DataTail: string := "  };\n},\n"

  /** One `    <name>: null,\n` line per record. */
  function DataLines(rs: seq<Record>): (r: seq<string>)
    ensures |r| == |rs|
    ensures forall i :: 0 <= i < |rs| ==> r[i] == "    " + rs[i].name + ": null,\n"
  {
    if |rs| == 0 then [] else ["    " + rs[0].name + ": null,\n"] + DataLines(rs[1..])
  }

  function DataCode(rs: seq<Record>): string {
    DataHead + Concat(DataLines(rs)) + DataTail
  }

  /** Each record's init code followed by its menu code. */
  function Inits(rs: seq<Record>): (r: seq<string>)
    ensures |r| == |rs|
    ensures forall i :: 0 <= i < |rs| ==> r[i] == rs[i].init + rs[i].menu
  {
    if |rs| == 0 then [] else [rs[0].init + rs[0].menu] + Inits(rs[1..])
  }

  function CreatedCode(rs: seq<Record>): string {
    "created() {" + Join(Inits(rs), "\n") + "},\n"
  }

  /** `extractFromBlui`. */
  function ExtractFromBlui(d: Document): Result<ScriptParts> {
    var st :- ScriptRun(d);
    Success(ScriptParts(ImportsCode(st.imports), DataCode(st.records), CreatedCode(st.records)))
  }

  // ---------------------------------------------------------------------
  // Reference: the records of a well-formed tree
  // ---------------------------------------------------------------------

  /** The init code of a registered kind. */
  function InitCode(n: Node, name: string): string
    requires n.kind in InstanceMap
  {
    RenderInits(InitStmts(n, name))
  }

  /** The structure code of a ready menu. */
  function MenuCode(menu: Node): string {
    RenderStmts(BlocksFrom(menu, 0, 0, true, RootLabel(menu)))
  }

  /** Every Menu the script generator builds is ready; the descendants of a
      Menu are never built on their own. */
  predicate ReadyMenus(n: Node)
    decreases n
  {
    if n.kind == "Menu" then MenuReady(n)
    else forall i :: 0 <= i < |n.children| ==> ReadyMenus(n.children[i])
  }

  /** The classes of the kinds with an instance among `ns`, in order. */
  function NeedClasses(ns: seq<Node>): seq<string> {
    if |ns| == 0 then [] else NeedClass(ns[0]) + NeedClasses(ns[1..])
  }

  /** The class a node asks to import: its registry class when it needs an
      instance, nothing otherwise. */
  function NeedClass(n: Node): seq<string> {
    if n.kind in InstanceMap && InstanceMap[n.kind].need then [ClassName(InstanceMap[n.kind])] else []
  }

  /** The records of the subtree of a node outside the menus, in document
      order, and the counter after it: a node with an instance takes a name,
      and is recorded unless it is a host; a Menu hides its descendants. */
  function RecordsNode(n: Node, k: nat): (seq<Record>, nat)
    requires Shaped(n)
    decreases n, 1
  {
    var e := InstanceMap[n.kind];
    if !e.need then RecordsFrom(n, 0, k)
    else
      var name := InstanceName(n.attributes, k);
      var k1 := NextRtId(n.attributes, k);
      var own := if n.extendsHost then [] else [Record(name, InitCode(n, name), if n.kind == "Menu" then MenuCode(n) else "")];
      if n.kind == "Menu" then (own, k1)
      else
        var inner := RecordsFrom(n, 0, k1);
        (own + inner.0, inner.1)
  }

  function RecordsFrom(n: Node, i: nat, k: nat): (seq<Record>, nat)
    requires Shaped(n) && i <= |n.children|
    decreases n, 0, |n.children| - i
  {
    if i == |n.children| then ([], k)
    else
      var first := RecordsNode(n.children[i], k);
      var rest := RecordsFrom(n, i + 1, first.1);
      (first.0 + rest.0, rest.1)
  }

  // ---------------------------------------------------------------------
  // The fold computes the reference
  // ---------------------------------------------------------------------

  lemma {:induction false} NeedClassesAppend(a: seq<Node>, b: seq<Node>)
    ensures NeedClasses(a + b) == NeedClasses(a) + NeedClasses(b)
    decreases |a|
  {
    if |a| == 0 {
      assert a + b == b;
    } else {
      assert (a + b)[0] == a[0];
      assert (a + b)[1..] == a[1..] + b;
      NeedClassesAppend(a[1..], b);
      SeqAssoc(NeedClass(a[0]), NeedClasses(a[1..]), NeedClasses(b));
    }
  }

  /** The imports after the subtree of `n`. */
  function ImportsAfter(imports: seq<string>, n: Node): seq<string> {
    AddAll(imports, NeedClasses(PreOrder(n)))
  }

  function ImportsAfterFrom(imports: seq<string>, n: Node, i: nat): seq<string>
    requires i <= |n.children|
  {
    AddAll(imports, NeedClasses(PreOrderFrom(n, i)))
  }

  lemma ImportsOfNode(imports: seq<string>, n: Node)
    requires n.kind in InstanceMap
    ensures var e := InstanceMap[n.kind];
      ImportsAfter(imports, n) ==
        ImportsAfterFrom(if e.need then AddClass(imports, ClassName(e)) else imports, n, 0)
  {
    var e := InstanceMap[n.kind];
    NeedClassesAppend([n], PreOrderFrom(n, 0));
    AddAllJoin(imports, NeedClasses([n]), NeedClasses(PreOrderFrom(n, 0)));
    if e.need {
      assert NeedClasses([n]) == [ClassName(e)];
      assert [ClassName(e)][..0] == [];
    } else {
      assert NeedClasses([n]) == [];
    }
  }

  lemma ImportsOfChildren(imports: seq<string>, n: Node, i: nat)
    requires i < |n.children|
    ensures ImportsAfterFrom(imports, n, i) ==
      ImportsAfterFrom(ImportsAfter(imports, n.children[i]), n, i + 1)
  {
    NeedClassesAppend(PreOrder(n.children[i]), PreOrderFrom(n, i + 1));
    AddAllJoin(imports, NeedClasses(PreOrder(n.children[i])), NeedClasses(PreOrderFrom(n, i + 1)));
  }

  /** Inside a menu, with the flag set, a subtree only adds its classes. */
  lemma {:induction false} ScriptInside(p: Node, n: Node, st: SState)
    requires Shaped(n) && MenuIsh(n.kind) && MenuIsh(p.kind) && st.skip
    ensures Handle(ScriptStep, st, Walk(Some(p), n)) == Success(st.(imports := ImportsAfter(st.imports, n)))
    decreases n, 1
  {
    MenuKindsFacts();
    var e := InstanceMap[n.kind];
    var st1 := st.(imports := if e.need then AddClass(st.imports, ClassName(e)) else st.imports);
    assert ScriptStep(st, Enter(Some(p), n)) == Success(st1);
    HandleOne(ScriptStep, st, Enter(Some(p), n));
    var st2 := st.(imports := ImportsAfterFrom(st1.imports, n, 0));
    assert Handle(ScriptStep, st1, WalkFrom(n, 0)) == Success(st2) by {
      ScriptInsideFrom(n, 0, st1);
    }
    HandleSeq(ScriptStep, st, [Enter(Some(p), n)], WalkFrom(n, 0), st1, st2);
    assert ScriptStep(st2, Leave(Some(p), n)) == Success(st2);
    HandleOne(ScriptStep, st2, Leave(Some(p), n));
    HandleSeq(ScriptStep, st, [Enter(Some(p), n)] + WalkFrom(n, 0), [Leave(Some(p), n)], st2, st2);
    ImportsOfNode(st.imports, n);
  }

  lemma {:induction false} ScriptInsideFrom(n: Node, i: nat, st: SState)
    requires Shaped(n) && MenuIsh(n.kind) && i <= |n.children| && st.skip
    ensures Handle(ScriptStep, st, WalkFrom(n, i)) == Success(st.(imports := ImportsAfterFrom(st.imports, n, i)))
    decreases n, 0, |n.children| - i
  {
    if i == |n.children| {
      assert NeedClasses(PreOrderFrom(n, i)) == [];
      assert st.(imports := st.imports) == st;
    } else {
      var c := n.children[i];
      var st1 := st.(imports := ImportsAfter(st.imports, c));
      var st2 := st.(imports := ImportsAfterFrom(st1.imports, n, i + 1));
      assert Handle(ScriptStep, st, Walk(Some(n), c)) == Success(st1) by {
        ScriptInside(n, c, st);
      }
      assert Handle(ScriptStep, st1, WalkFrom(n, i + 1)) == Success(st2) by {
        ScriptInsideFrom(n, i + 1, st1);
      }
      HandleCons(ScriptStep, n, i, st, st1, st2);
      ImportsOfChildren(st.imports, n, i);
    }
  }

  /** The state after the open handler of a node outside the menus. */
  function EnteredOutside(st: SState, n: Node): SState
    requires Shaped(n)
  {
    var e := InstanceMap[n.kind];
    if !e.need then st
    else
      var name := InstanceName(n.attributes, st.rtId);
      var own := if n.extendsHost then [] else [Record(name, InitCode(n, name), if n.kind == "Menu" then MenuCode(n) else "")];
      SState(AddClass(st.imports, ClassName(e)), st.records + own, NextRtId(n.attributes, st.rtId), n.kind == "Menu")
  }

  lemma EnterScriptOutside(st: SState, p: Option<Node>, n: Node)
    requires OutsideMenus(p, n) && !st.skip
    requires n.kind == "Menu" ==> MenuReady(n)
    ensures EnterScript(st, p, n) == Success(EnteredOutside(st, n))
  {
    MenuKindsFacts();
    var e := InstanceMap[n.kind];
    if e.need {
      var name := InstanceName(n.attributes, st.rtId);
      if !n.extendsHost {
        var menu := if n.kind == "Menu" then MenuCode(n) else "";
        assert InstanceInitializer(n, name) == Success(InitCode(n, name));
        if n.kind == "Menu" {
          MenuStatementsCases(p, n);
          assert MenuStructureBuilder(p, n) == Success(MenuCode(n));
        }
        assert RecordOf(p, n, name) == Success(Record(name, InitCode(n, name), menu));
      } else {
        assert st.records + [] == st.records;
      }
    }
  }

  lemma LeaveScriptOutside(st: SState, p: Option<Node>, n: Node)
    requires OutsideMenus(p, n) && st.skip == (n.kind == "Menu")
    ensures LeaveScript(st, p, n) == Success(st.(skip := false))
  {
    OnlyMenuAndToolbarHaveSlots();
    MenuKindsFacts();
  }

  /** Outside the menus the fold appends exactly the reference records,
      advances the counter as it does, adds the subtree's classes and leaves
      the flag down. */
  lemma {:induction false} ScriptOutside(p: Option<Node>, n: Node, st: SState)
    requires OutsideMenus(p, n) && ReadyMenus(n) && !st.skip
    ensures var r := RecordsNode(n, st.rtId);
      Handle(ScriptStep, st, Walk(p, n)) ==
        Success(SState(ImportsAfter(st.imports, n), st.records + r.0, r.1, false))
    decreases n, 1
  {
    var e := InstanceMap[n.kind];
    var r := RecordsNode(n, st.rtId);
    var st1 := EnteredOutside(st, n);
    EnterScriptOutside(st, p, n);
    HandleOne(ScriptStep, st, Enter(p, n));
    var k1 := st1.rtId;
    var name := InstanceName(n.attributes, st.rtId);
    var own := if e.need && !n.extendsHost
      then [Record(name, InitCode(n, name), if n.kind == "Menu" then MenuCode(n) else "")] else [];
    var inner := if n.kind == "Menu" then ([], k1) else RecordsFrom(n, 0, k1);
    assert st1.records == st.records + own by {
      if !(e.need && !n.extendsHost) {
        assert st.records + [] == st.records;
      }
    }
    assert r == (own + inner.0, inner.1) by {
      MenuKindsFacts();
      if n.kind == "Menu" {
        assert own + [] == own;
      } else if !e.need {
        assert [] + inner.0 == inner.0;
      }
    }
    var st2 := SState(ImportsAfterFrom(st1.imports, n, 0), st1.records + inner.0, inner.1, st1.skip);
    assert Handle(ScriptStep, st1, WalkFrom(n, 0)) == Success(st2) by {
      if n.kind == "Menu" {
        MenuKindsFacts();
        ScriptInsideFrom(n, 0, st1);
        assert st1.records + [] == st1.records;
      } else {
        ScriptOutsideFrom(n, 0, st1);
      }
    }
    HandleSeq(ScriptStep, st, [Enter(p, n)], WalkFrom(n, 0), st1, st2);
    LeaveScriptOutside(st2, p, n);
    HandleOne(ScriptStep, st2, Leave(p, n));
    HandleSeq(ScriptStep, st, [Enter(p, n)] + WalkFrom(n, 0), [Leave(p, n)], st2, st2.(skip := false));
    ImportsOfNode(st.imports, n);
    SeqAssoc(st.records, own, inner.0);
  }

  lemma {:induction false} ScriptOutsideFrom(n: Node, i: nat, st: SState)
    requires Shaped(n) && !MenuIsh(n.kind) && ReadyMenus(n) && i <= |n.children| && !st.skip
    ensures var r := RecordsFrom(n, i, st.rtId);
      Handle(ScriptStep, st, WalkFrom(n, i)) ==
        Success(SState(ImportsAfterFrom(st.imports, n, i), st.records + r.0, r.1, false))
    decreases n, 0, |n.children| - i
  {
    if i == |n.children| {
      assert NeedClasses(PreOrderFrom(n, i)) == [];
      assert st.records + [] == st.records;
    } else {
      var c := n.children[i];
      var first := RecordsNode(c, st.rtId);
      var st1 := SState(ImportsAfter(st.imports, c), st.records + first.0, first.1, false);
      var rest := RecordsFrom(n, i + 1, first.1);
      var st2 := SState(ImportsAfterFrom(st1.imports, n, i + 1), st1.records + rest.0, rest.1, false);
      assert Handle(ScriptStep, st, Walk(Some(n), c)) == Success(st1) by {
        ChildOutside(n, i);
        ScriptOutside(Some(n), c, st);
      }
      assert Handle(ScriptStep, st1, WalkFrom(n, i + 1)) == Success(st2) by {
        ScriptOutsideFrom(n, i + 1, st1);
      }
      HandleCons(ScriptStep, n, i, st, st1, st2);
      ImportsOfChildren(st.imports, n, i);
      SeqAssoc(st.records, first.0, rest.0);
    }
  }

  // ---------------------------------------------------------------------
  // The whole document
  // ---------------------------------------------------------------------

  /** A well-formed tree whose menus are ready yields exactly the reference
      records; its import list holds each class of the tree's kinds with an
      instance once, in the order the traversal first meets them. */
  lemma {:induction false} ScriptOfWellFormed(root: Node)
    requires WellFormed(root) && ReadyMenus(root)
    ensures var r := RecordsNode(root, 0);
      var classes := NeedClasses(PreOrder(root));
      var imports := AddAll([], classes);
      && ScriptRun(Document(Some(root))) == Success(SState(imports, r.0, r.1, false))
      && ExtractFromBlui(Document(Some(root))) ==
           Success(ScriptParts(ImportsCode(imports), DataCode(r.0), CreatedCode(r.0)))
      && NoDup(imports)
      && (forall c :: c in imports <==> c in classes)
      && (forall i, j :: 0 <= i < j < |imports| ==> FirstIndex(classes, imports[i]) < FirstIndex(classes, imports[j]))
  {
    ScriptOutside(None, root, Start);
    assert Start.records + RecordsNode(root, 0).0 == RecordsNode(root, 0).0;
    AddAllFirstSeen(NeedClasses(PreOrder(root)));
  }

  /** For a Menu at the root, the open handler and the skipped subtree leave
      the flag up, unless they have already thrown. */
  lemma {:induction false} RootMenuSkips(root: Node)
    requires Shaped(root) && root.kind == "Menu"
    ensures var pre := Handle(ScriptStep, Start, [Enter(None, root)] + WalkFrom(root, 0));
      pre.Success? ==> pre.value.skip
  {
    MenuKindsFacts();
    HandleAppend(ScriptStep, Start, [Enter(None, root)], WalkFrom(root, 0));
    HandleOne(ScriptStep, Start, Enter(None, root));
    var first := EnterScript(Start, None, root);
    if first.Success? {
      ScriptInsideFrom(root, 0, first.value);
    }
  }

  /** The fragments are built from the state the fold ends in; a fault of
      the fold is the fault of the whole call. */
  lemma ExtractFollowsRun(d: Document)
    ensures ScriptRun(d).Failure? ==> ExtractFromBlui(d) == Failure(ScriptRun(d).fault)
    ensures ScriptRun(d).Success? ==>
      var st := ScriptRun(d).value;
      ExtractFromBlui(d) == Success(ScriptParts(ImportsCode(st.imports), DataCode(st.records), CreatedCode(st.records)))
  {
  }

  /** A Menu at the root of a shaped tree throws: leaving it reads its
      missing parent, if building its record has not thrown first. */
  lemma {:induction false} ScriptRootMenuFails(root: Node)
    requires Shaped(root) && root.kind == "Menu"
    ensures ExtractFromBlui(Document(Some(root))).Failure?
  {
    var d := Document(Some(root));
    assert ScriptRun(d).Failure? by {
      var pre := [Enter(None, root)] + WalkFrom(root, 0);
      assert Walk(None, root) == pre + [Leave(None, root)];
      HandleAppend(ScriptStep, Start, pre, [Leave(None, root)]);
      RootMenuSkips(root);
      var r := Handle(ScriptStep, Start, pre);
      if r.Success? {
        HandleOne(ScriptStep, r.value, Leave(None, root));
      }
    }
    ExtractFollowsRun(d);
  }

  const LoneButton: Node := Node("Button", map[], false, [])
  const MenuWindow: Node := Node("Window", map[], false, [LoneButton])
  const WindowMenu: Node := Node("Menu", map["instance" := "m"], false, [MenuWindow])

  lemma WindowMenuWalk()
    ensures Walk(None, WindowMenu) ==
      [Enter(None, WindowMenu), Enter(Some(WindowMenu), MenuWindow), Enter(Some(MenuWindow), LoneButton),
       Leave(Some(MenuWindow), LoneButton), Leave(Some(WindowMenu), MenuWindow), Leave(None, WindowMenu)]
  {
    assert WalkFrom(MenuWindow, 1) == [];
    assert WalkFrom(MenuWindow, 0) == Walk(Some(MenuWindow), LoneButton);
    assert WalkFrom(WindowMenu, 1) == [];
    assert WalkFrom(WindowMenu, 0) == Walk(Some(WindowMenu), MenuWindow);
  }

  lemma WindowMenuOpens()
    ensures EnterScript(Start, None, WindowMenu).Success?
    ensures EnterScript(Start, None, WindowMenu).value.skip
  {
    MenuStatementsCases(None, WindowMenu);
    assert MenuReady(WindowMenu);
    assert MenuStructureBuilder(None, WindowMenu).Success?;
    assert InstanceInitializer(WindowMenu, InstanceName(WindowMenu.attributes, 0)).Success?;
  }

  /** Outside the shape, a Menu root need not throw: in a named Menu holding
      a Window that holds a Button, leaving the Button (whose parent is a
      Window) lowers `skip`, so leaving the Menu never reads its null
      parent. */
  lemma {:induction false} ScriptRootMenuUnshaped()
    ensures !Shaped(WindowMenu)
    ensures ExtractFromBlui(Document(Some(WindowMenu))).Success?
  {
    assert WindowMenu.children[0] == MenuWindow;
    WindowMenuWalk();
    WindowMenuOpens();
    var vs := Walk(None, WindowMenu);
    var s1 := EnterScript(Start, None, WindowMenu).value;
    var s2 := s1.(imports := AddClass(s1.imports, "ApplicationWindow"));
    var s3 := s2.(imports := AddClass(s2.imports, "Button"));
    var s4 := s3.(skip := false);
    assert ScriptStep(s1, vs[1]) == Success(s2);
    assert ScriptStep(s2, vs[2]) == Success(s3);
    assert ScriptStep(s3, vs[3]) == Success(s4);
    assert ScriptStep(s4, vs[4]) == Success(s4);
    assert ScriptStep(s4, vs[5]) == Success(s4);
    assert vs[5..] == [vs[5]];
    HandleOne(ScriptStep, s4, vs[5]);
    assert Handle(ScriptStep, s4, vs[4..]) == Success(s4);
    assert Handle(ScriptStep, s3, vs[3..]) == Success(s4);
    assert Handle(ScriptStep, s2, vs[2..]) == Success(s4);
    assert Handle(ScriptStep, s1, vs[1..]) == Success(s4);
    assert Handle(ScriptStep, Start, vs) == Success(s4);
  }

  /** A node of unregistered kind anywhere in the tree makes the generator
      throw, even inside a skipped menu: the open handler reads its entry
      before anything else. */
  lemma {:induction false} ScriptUnknownKindFails(root: Node, m: Node)
    requires m in PreOrder(root) && m.kind !in InstanceMap
    ensures ExtractFromBlui(Document(Some(root))).Failure?
  {
    WalkVisitsSubtree(None, root);
    forall s: SState, p: Option<Node>
      ensures ScriptStep(s, Enter(p, m)).Failure?
    {
    }
    HandleReachesFault(ScriptStep, Start, Walk(None, root), m);
  }

  /** A document without a root element throws: `traverse` hands the
      handler a null node, and the first handler call throws on it. */
  lemma ScriptWithoutRoot()
    ensures ExtractFromBlui(Document(None)) == Failure(NoRoot)
  {
  }

  /** A root of unknown kind throws at once. */
  lemma {:induction false} ScriptRootUnknownFails(root: Node)
    requires root.kind !in InstanceMap
    ensures ExtractFromBlui(Document(Some(root))) == Failure(UnknownKind(root.kind))
  {
    var d := Document(Some(root));
    assert ScriptRun(d) == Failure(UnknownKind(root.kind)) by {
      var enter := [Enter(None, root)];
      var rest := WalkFrom(root, 0) + [Leave(None, root)];
      assert Walk(None, root) == enter + rest;
      HandleOne(ScriptStep, Start, Enter(None, root));
      HandleFails(ScriptStep, Start, enter, rest);
    }
    ExtractFollowsRun(d);
  }
}

=== FILE: shape.dfy ===
/** What both generators share: how an instance is named, and the shape of
    tree on which their output is well formed. */
module Shape {
  import opened Wrappers
  import opened Utils
  import opened Registry
  import opened Blui

  /** The `instance` attribute is present and not empty (JavaScript truthiness). */
  predicate HasInstanceName(attrs: map<string, string>) {
    "instance" in attrs && attrs["instance"] != ""
  }

  /** The declared name in camelCase, or the next anonymous name `rt<N>`. */
  function InstanceName(attrs: map<string, string>, rtId: nat): string {
    if HasInstanceName(attrs) then ToCamelCase(attrs["instance"]) else "rt" + NatToString(rtId)
  }

  /** The anonymous counter after naming: it moves only for an anonymous name. */
  function NextRtId(attrs: map<string, string>, rtId: nat): nat {
    if HasInstanceName(attrs) then rtId else rtId + 1
  }

  /** Every kind is registered; only a kind with a host element is marked
      `extends`; below a Menu or MenuItem there are only Menus and MenuItems;
      and a MenuItem sits only below a Menu or MenuItem. */
  predicate Shaped(n: Node)
    decreases n
  {
    && n.kind in InstanceMap
    && (n.extendsHost ==> InstanceMap[n.kind].host.Some?)
    && forall i :: 0 <= i < |n.children| ==>
         && (MenuIsh(n.kind) ==> MenuIsh(n.children[i].kind))
         && (n.children[i].kind == "MenuItem" ==> MenuIsh(n.kind))
         && Shaped(n.children[i])
  }

  /** A shaped tree whose root has no slot (the slot test reads the root's
      null parent) and is not a MenuItem (which would leave the skip flag
      set at the wrong time). */
  predicate WellFormed(root: Node) {
    Shaped(root) && InstanceMap[root.kind].slot.None? && root.kind != "MenuItem"
  }

  /** The two menu rules of `Shaped`: below a Menu or MenuItem there are
      only Menus and MenuItems, and a MenuItem sits only below a Menu or
      MenuItem. */
  predicate MenusPlaced(n: Node)
    decreases n
  {
    forall i :: 0 <= i < |n.children| ==>
      && (MenuIsh(n.kind) ==> MenuIsh(n.children[i].kind))
      && (n.children[i].kind == "MenuItem" ==> MenuIsh(n.kind))
      && MenusPlaced(n.children[i])
  }

  /** A node the template's open handler throws on whatever the state: its
      kind is unregistered, or it is marked `extends` though its kind has no
      host element. */
  predicate Faulty(n: Node) {
    n.kind !in InstanceMap || (n.extendsHost && InstanceMap[n.kind].host.None?)
  }

  /** A tree whose menus are placed by the rules but that is not shaped
      holds a faulty node. */
  lemma {:induction false} FaultyWitness(n: Node) returns (m: Node)
    requires MenusPlaced(n) && !Shaped(n)
    ensures m in PreOrder(n) && Faulty(m)
    decreases n
  {
    if Faulty(n) {
      m := n;
    } else {
      var i :| 0 <= i < |n.children| && !Shaped(n.children[i]);
      m := FaultyWitness(n.children[i]);
      ChildSubtree(n, i, m);
    }
  }

  /** A node outside every menu: its parent is not a Menu or MenuItem and it
      is not a MenuItem itself; a root has no slot. */
  predicate OutsideMenus(p: Option<Node>, n: Node) {
    && Shaped(n)
    && n.kind != "MenuItem"
    && (p.Some? ==> !MenuIsh(p.value.kind))
    && (p.None? ==> InstanceMap[n.kind].slot.None?)
  }

  /** A child of a node that is not a Menu or MenuItem is outside the menus. */
  lemma ChildOutside(n: Node, i: nat)
    requires Shaped(n) && !MenuIsh(n.kind) && i < |n.children|
    ensures OutsideMenus(Some(n), n.children[i])
  {
  }

  /** Every host-substituted instance declares its name. */
  predicate HostsNamed(n: Node)
    decreases n
  {
    && (n.extendsHost ==> HasInstanceName(n.attributes))
    && forall i :: 0 <= i < |n.children| ==> HostsNamed(n.children[i])
  }

  /** A declared name is the camelCase of the attribute, whatever the counter. */
  lemma DeclaredNameIsCamelCase(attrs: map<string, string>, rtId: nat)
    requires "instance" in attrs && attrs["instance"] != ""
    ensures InstanceName(attrs, rtId) == ToCamelCase(attrs["instance"])
    ensures NextRtId(attrs, rtId) == rtId
  {
  }

  /** Anonymous names of different counter values differ. */
  lemma AnonymousNamesDiffer(attrs: map<string, string>, a: nat, b: nat)
    requires !HasInstanceName(attrs) && a != b
    ensures InstanceName(attrs, a) != InstanceName(attrs, b)
  {
    if InstanceName(attrs, a) == InstanceName(attrs, b) {
      assert InstanceName(attrs, a)[2..] == NatToString(a);
      assert InstanceName(attrs, b)[2..] == NatToString(b);
      NatToStringInjective(a, b);
    }
  }

  lemma SingleDigitLength(n: nat)
    ensures |NatToString(n)| == 1 <==> n < 10
  {
    if n >= 10 {
      assert |NatToString(n / 10)| > 0;
    }
  }

  lemma {:induction false} NatToStringInjective(a: nat, b: nat)
    requires NatToString(a) == NatToString(b)
    ensures a == b
    decreases a
  {
    SingleDigitLength(a);
    SingleDigitLength(b);
    if a >= 10 {
      var s := NatToString(a);
      assert s[..|s| - 1] == NatToString(a / 10);
      assert s[..|s| - 1] == NatToString(b / 10);
      NatToStringInjective(a / 10, b / 10);
      assert DigitChar(a % 10) == s[|s| - 1] == DigitChar(b % 10);
    }
  }
}

=== FILE: template.dfy ===
/** bluiToVueTemplate of vue-blui-loader.js: the template generator, a fold
    of enter/leave handlers over the traversal that threads the anonymous
    counter `rtId`, the indentation `space` and the menu flag `skip`. */
module Template {
  import opened Wrappers
  import opened Nesting
  import opened Utils
  import opened Registry
  import opened Blui
  import opened Shape

  /** One fragment appended to the template text; `RenderPiece` gives its
      exact characters. */
  datatype Piece =
    | SlotOpen(space: nat, slot: string)
    | TagOpen(space: nat, el: string)
    | Binding(space: nat, name: string)
    | Prop(space: nat, key: string, value: string)
    | ClassBinding(space: nat, cssClass: string)
    | TagEnd
    | TagClose(space: nat, el: string)
    | SlotClose(space: nat)

  function RenderPiece(p: Piece): string {
    match p
    case SlotOpen(s, slot) => Indent(s) + "<template slot=\"" + slot + "\">\n"
    case TagOpen(s, el) => Indent(s) + "<" + el
    case Binding(s, name) => "\n" + Indent(s) + "  :instance=\"" + name + "\""
    case Prop(s, key, value) => "\n" + Indent(s) + "  " + key + "=\"" + value + "\""
    case ClassBinding(s, cls) => "\n" + Indent(s) + "  :class=\"" + cls + "\""
    case TagEnd => ">\n"
    case TagClose(s, el) => Indent(s) + "</" + el + ">\n"
    case SlotClose(s) => Indent(s) + "</template>\n"
  }

  function RenderPieces(ps: seq<Piece>): string {
    if |ps| == 0 then "" else RenderPiece(ps[0]) + RenderPieces(ps[1..])
  }

  const Header: string := "<template>\n  <!-- Loaded by vue-blui-loader -->\n"
  const Footer: string := "</template>\n"

  /** The variables the handlers close over. */
  datatype TState = TState(rtId: nat, space: int, skip: bool, pieces: seq<Piece>)

  const Initial: TState := TState(0, 0, false, [])

  // ---------------------------------------------------------------------
  // The handlers
  // ---------------------------------------------------------------------

  /** `node.parent.extends`, which throws at the root. */
  function ParentExtends(p: Option<Node>, n: Node): Result<bool> {
    match p
    case None => Failure(NullParent(n.kind))
    case Some(q) => Success(q.extendsHost)
  }

  /** `node.parent`, for reading its kind; it throws at the root. */
  function ParentNode(p: Option<Node>, n: Node): Result<Node> {
    match p
    case None => Failure(NullParent(n.kind))
    case Some(q) => Success(q)
  }

  /** The tag to open or close: the component, or for a host-substituted node
      `map.extends.el`. */
  function ElementName(n: Node, e: MappingEntry): Result<string>
    requires e.component.Some?
  {
    if !n.extendsHost then Success(e.component.value)
    else if e.host.Some? then Success(e.host.value.el)
    else Failure(NoHostElement(n.kind))
  }

  function PropPieces(s: nat, attrs: map<string, string>, props: seq<string>): seq<Piece> {
    if |props| == 0 then [] else [Prop(s, props[0], AttrText(attrs, props[0]))] + PropPieces(s, attrs, props[1..])
  }

  /** Add slot if needed. */
  function EnterSlot(st: TState, p: Option<Node>, n: Node, e: MappingEntry): Result<TState> {
    if e.slot.None? then Success(st)
    else
      var pext :- ParentExtends(p, n);
      if !pext && !st.skip then
        var s :- At(st.space + 2);
        Success(st.(space := s, pieces := st.pieces + [SlotOpen(s, e.slot.value)]))
      else Success(st)
  }

  /** Add the component or host element. */
  function EnterTag(st: TState, n: Node, e: MappingEntry): Result<TState> {
    if e.component.Some? && !st.skip then
      var s :- At(st.space + 2);
      var el :- ElementName(n, e);
      Success(st.(space := s, pieces := st.pieces + [TagOpen(s, el)]))
    else Success(st)
  }

  /** Add the instance binding; a Menu closes its tag and starts skipping.
      While skipping, an instance kind below a non-menu parent stops it. */
  function EnterInstance(st: TState, p: Option<Node>, n: Node, e: MappingEntry): Result<TState> {
    if e.need && !n.extendsHost && !st.skip then
      var name := InstanceName(n.attributes, st.rtId);
      var s :- At(st.space);
      var named := st.(rtId := NextRtId(n.attributes, st.rtId), pieces := st.pieces + [Binding(s, name)]);
      if n.kind == "Menu" then Success(named.(skip := true, pieces := named.pieces + [TagEnd]))
      else Success(named)
    else if e.need && st.skip then
      var q :- ParentNode(p, n);
      if !MenuIsh(q.kind) then Success(st.(skip := false)) else Success(st)
    else Success(st)
  }

  /** Add props. */
  function EnterProps(st: TState, n: Node, e: MappingEntry): Result<TState> {
    if |e.props| == 0 then Success(st)
    else
      var s :- At(st.space);
      Success(st.(pieces := st.pieces + PropPieces(s, n.attributes, e.props)))
  }

  /** The class binding of a host-substituted node. */
  function EnterClass(st: TState, n: Node, e: MappingEntry): Result<TState> {
    if n.extendsHost then
      var s :- At(st.space);
      if e.host.None? then Failure(NoHostElement(n.kind))
      else Success(st.(pieces := st.pieces + [ClassBinding(s, e.host.value.cssClass)]))
    else Success(st)
  }

  /** Finish the opening tag. */
  function EnterFinish(st: TState, e: MappingEntry): TState {
    if e.component.Some? && !st.skip then st.(pieces := st.pieces + [TagEnd]) else st
  }

  /** The open handler. */
  function EnterStep(st: TState, p: Option<Node>, n: Node): Result<TState> {
    var e :- Entry(n.kind);
    var st1 :- EnterSlot(st, p, n, e);
    var st2 :- EnterTag(st1, n, e);
    var st3 :- EnterInstance(st2, p, n, e);
    var st4 :- EnterProps(st3, n, e);
    var st5 :- EnterClass(st4, n, e);
    Success(EnterFinish(st5, e))
  }

  /** Leaving a child of a Menu or MenuItem starts skipping; leaving a child
      of any other node stops it; the root changes nothing. */
  function LeaveSkip(st: TState, p: Option<Node>): TState {
    if !st.skip && p.Some? && MenuIsh(p.value.kind) then st.(skip := true)
    else if st.skip && p.Some? && !MenuIsh(p.value.kind) then st.(skip := false)
    else st
  }

  /** Close the component or host element. */
  function LeaveTag(st: TState, n: Node, e: MappingEntry): Result<TState> {
    if e.component.Some? && !st.skip then
      var s :- At(st.space);
      var el :- ElementName(n, e);
      Success(st.(space := st.space - 2, pieces := st.pieces + [TagClose(s, el)]))
    else Success(st)
  }

  /** Close the slot if it exists. */
  function LeaveSlot(st: TState, p: Option<Node>, n: Node, e: MappingEntry): Result<TState> {
    if e.slot.None? then Success(st)
    else
      var pext :- ParentExtends(p, n);
      if !pext && !st.skip then
        var s :- At(st.space);
        Success(st.(space := st.space - 2, pieces := st.pieces + [SlotClose(s)]))
      else Success(st)
  }

  /** The close handler. */
  function LeaveStep(st: TState, p: Option<Node>, n: Node): Result<TState> {
    var e :- Entry(n.kind);
    var st1 := LeaveSkip(st, p);
    var st2 :- LeaveTag(st1, n, e);
    LeaveSlot(st2, p, n, e)
  }

  function Step(st: TState, v: Visit): Result<TState> {
    match v
    case Enter(p, n) => EnterStep(st, p, n)
    case Leave(p, n) => LeaveStep(st, p, n)
  }

  /** The handlers applied in traversal order; the first exception ends it. */
  function Run(st: TState, vs: seq<Visit>): Result<TState> {
    Handle(Step, st, vs)
  }

  /** The state after the whole walk. */
  function TemplateRun(d: Document): Result<TState> {
    var vs :- Traverse(d);
    Run(Initial, vs)
  }

  /** `bluiToVueTemplate`. */
  function BluiToVueTemplate(d: Document): (r: Result<string>)
    ensures d.root.None? ==> r == Failure(NoRoot)
    ensures r.Success? ==>
      (|r.value| >= |Header| + |Footer| && r.value[..|Header|] == Header
       && r.value[|r.value| - |Footer|..] == Footer)
  {
    var st :- TemplateRun(d);
    Success(Header + RenderPieces(st.pieces) + Footer)
  }

  // ---------------------------------------------------------------------
  // Reference rendering of a well-formed tree
  // ---------------------------------------------------------------------

  /** `body` between `open` and `close` when `cond` holds. */
  function Wrap(cond: bool, open: Piece, body: seq<Piece>, close: Piece): seq<Piece> {
    if cond then [open] + body + [close] else body
  }

  /** The template of a node outside any menu, rendered structurally: its slot
      wrapper (unless the parent is a host) around its tag, whose body is the
      binding, props, class and children. A Menu shows its binding alone and
      none of its descendants. `pext` says whether the parent is a host, `d`
      is the indentation before the node, `k` the anonymous counter. Returns
      the pieces and the counter after the subtree. */
  function RenderNode(pext: bool, n: Node, d: nat, k: nat): (seq<Piece>, nat)
    requires Shaped(n)
    decreases n, 1
  {
    var e := InstanceMap[n.kind];
    var g := RenderGeometry(pext, n, d);
    var k1 := CounterAfterHead(n, k);
    var inner := if n.kind == "Menu" then ([], k1) else RenderFrom(n, 0, g.d2, k1);
    (Wrap(g.slotted, SlotOpen(g.d1, if g.slotted then e.slot.value else ""),
       Wrap(g.tagged, TagOpen(g.d2, g.el), HeadPieces(n, g.d2, k) + inner.0, TagClose(g.d2, g.el)),
       SlotClose(g.d1)), inner.1)
  }

  function RenderFrom(n: Node, i: nat, d: nat, k: nat): (seq<Piece>, nat)
    requires Shaped(n) && i <= |n.children|
    decreases n, 0, |n.children| - i
  {
    if i == |n.children| then ([], k)
    else
      var first := RenderNode(n.extendsHost, n.children[i], d, k);
      var rest := RenderFrom(n, i + 1, d, first.1);
      (first.0 + rest.0, rest.1)
  }

  // ---------------------------------------------------------------------
  // The fold computes the reference rendering
  // ---------------------------------------------------------------------

  /** Whether the parent passed to the handlers is a host. */
  function PExt(p: Option<Node>): bool {
    p.Some? && p.value.extendsHost
  }

  /** Inside a menu, with the flag set, a subtree changes nothing at all. */
  lemma {:induction false} TemplateInside(p: Node, n: Node, st: TState)
    requires Shaped(n) && MenuIsh(n.kind) && MenuIsh(p.kind) && st.skip
    ensures Run(st, Walk(Some(p), n)) == Success(st)
    decreases n, 1
  {
    MenuKindsFacts();
    var e := InstanceMap[n.kind];
    assert EnterStep(st, Some(p), n) == Success(st);
    assert LeaveStep(st, Some(p), n) == Success(st);
    TemplateInsideFrom(n, 0, st);
    HandleAppend(Step, st, [Enter(Some(p), n)] + WalkFrom(n, 0), [Leave(Some(p), n)]);
    HandleAppend(Step, st, [Enter(Some(p), n)], WalkFrom(n, 0));
    HandleOne(Step, st, Enter(Some(p), n));
    HandleOne(Step, st, Leave(Some(p), n));
  }

  lemma {:induction false} TemplateInsideFrom(n: Node, i: nat, st: TState)
    requires Shaped(n) && MenuIsh(n.kind) && i <= |n.children| && st.skip
    ensures Run(st, WalkFrom(n, i)) == Success(st)
    decreases n, 0, |n.children| - i
  {
    if i < |n.children| {
      TemplateInside(n, n.children[i], st);
      TemplateInsideFrom(n, i + 1, st);
      HandleAppend(Step, st, Walk(Some(n), n.children[i]), WalkFrom(n, i + 1));
    }
  }

  /** The pieces before the body: slot wrapper and tag, as they apply. */
  function OpenPieces(pext: bool, n: Node, d: nat): seq<Piece>
    requires Shaped(n)
  {
    var r := RenderGeometry(pext, n, d);
    (if r.slotted then [SlotOpen(r.d1, InstanceMap[n.kind].slot.value)] else [])
      + (if r.tagged then [TagOpen(r.d2, r.el)] else [])
  }

  /** The pieces after the body, in closing order. */
  function ClosePieces(pext: bool, n: Node, d: nat): seq<Piece>
    requires Shaped(n)
  {
    var r := RenderGeometry(pext, n, d);
    (if r.tagged then [TagClose(r.d2, r.el)] else [])
      + (if r.slotted then [SlotClose(r.d1)] else [])
  }

  datatype Geometry = Geometry(slotted: bool, d1: nat, tagged: bool, d2: nat, el: string)

  /** The same slot, indentation and tag decisions `RenderNode` makes. */
  function RenderGeometry(pext: bool, n: Node, d: nat): Geometry
    requires Shaped(n)
  {
    var e := InstanceMap[n.kind];
    var slotted := e.slot.Some? && !pext;
    var d1: nat := if slotted then d + 2 else d;
    var tagged := e.component.Some?;
    var d2: nat := if tagged then d1 + 2 else d1;
    var el := if !tagged then "" else if n.extendsHost then e.host.value.el else e.component.value;
    Geometry(slotted, d1, tagged, d2, el)
  }

  /** The body of the tag before the children. */
  function HeadPieces(n: Node, d2: nat, k: nat): seq<Piece>
    requires Shaped(n)
  {
    var e := InstanceMap[n.kind];
    var named := e.need && !n.extendsHost;
    var binding := if named then [Binding(d2, InstanceName(n.attributes, k))] else [];
    if n.kind == "Menu" then binding + [TagEnd]
    else
      binding
        + PropPieces(d2, n.attributes, e.props)
        + (if n.extendsHost then [ClassBinding(d2, e.host.value.cssClass)] else [])
        + (if e.component.Some? then [TagEnd] else [])
  }

  function CounterAfterHead(n: Node, k: nat): nat
    requires n.kind in InstanceMap
  {
    if InstanceMap[n.kind].need && !n.extendsHost then NextRtId(n.attributes, k) else k
  }

  lemma RenderNodeSplit(pext: bool, n: Node, d: nat, k: nat)
    requires Shaped(n)
    ensures var g := RenderGeometry(pext, n, d);
      var k1 := CounterAfterHead(n, k);
      var inner := if n.kind == "Menu" then ([], k1) else RenderFrom(n, 0, g.d2, k1);
      RenderNode(pext, n, d, k) ==
        (OpenPieces(pext, n, d) + HeadPieces(n, g.d2, k) + inner.0 + ClosePieces(pext, n, d), inner.1)
  {
    var e := InstanceMap[n.kind];
    var g := RenderGeometry(pext, n, d);
    var k1 := CounterAfterHead(n, k);
    var inner := if n.kind == "Menu" then ([], k1) else RenderFrom(n, 0, g.d2, k1);
    var body := HeadPieces(n, g.d2, k) + inner.0;
    var so := SlotOpen(g.d1, if g.slotted then e.slot.value else "");
    WrapSplit(g.tagged, TagOpen(g.d2, g.el), body, TagClose(g.d2, g.el));
    var tagWrapped := Wrap(g.tagged, TagOpen(g.d2, g.el), body, TagClose(g.d2, g.el));
    WrapSplit(g.slotted, so, tagWrapped, SlotClose(g.d1));
    var os := if g.slotted then [so] else [];
    var ot := if g.tagged then [TagOpen(g.d2, g.el)] else [];
    var ct := if g.tagged then [TagClose(g.d2, g.el)] else [];
    var cs := if g.slotted then [SlotClose(g.d1)] else [];
    assert RenderNode(pext, n, d, k) == (os + (ot + body + ct) + cs, inner.1);
    assert OpenPieces(pext, n, d) == os + ot;
    assert ClosePieces(pext, n, d) == ct + cs;
    SeqRegroup(os, ot, HeadPieces(n, g.d2, k), inner.0, ct, cs);
  }

  lemma SeqRegroup<T>(a: seq<T>, b: seq<T>, c: seq<T>, x: seq<T>, y: seq<T>, z: seq<T>)
    ensures a + (b + (c + x) + y) + z == (a + b) + c + x + (y + z)
  {
  }

  lemma WrapSplit(cond: bool, open: Piece, body: seq<Piece>, close: Piece)
    ensures Wrap(cond, open, body, close) ==
      (if cond then [open] else []) + body + (if cond then [close] else [])
  {
    if !cond {
      assert [] + body + [] == body;
    }
  }

  lemma EnterSlotOutside(st: TState, p: Option<Node>, n: Node)
    requires OutsideMenus(p, n) && st.space >= 0 && !st.skip
    ensures var g := RenderGeometry(PExt(p), n, st.space);
      EnterSlot(st, p, n, InstanceMap[n.kind]) == Success(st.(space := g.d1,
        pieces := st.pieces + (if g.slotted then [SlotOpen(g.d1, InstanceMap[n.kind].slot.value)] else [])))
  {
    var e := InstanceMap[n.kind];
    var g := RenderGeometry(PExt(p), n, st.space);
    if g.slotted {
      assert ParentExtends(p, n) == Success(false);
      assert At(st.space + 2) == Success(st.space + 2);
      assert EnterSlot(st, p, n, e) ==
        Success(st.(space := st.space + 2, pieces := st.pieces + [SlotOpen(st.space + 2, e.slot.value)]));
    } else {
      assert EnterSlot(st, p, n, e) == Success(st);
      assert st.pieces + [] == st.pieces;
    }
  }

  lemma EnterTagOutside(st: TState, n: Node, g: Geometry)
    requires Shaped(n) && st.space >= 0 && !st.skip
    requires g.tagged == InstanceMap[n.kind].component.Some?
    requires g.tagged ==> g.d2 == st.space + 2 && g.el == (if n.extendsHost then InstanceMap[n.kind].host.value.el else InstanceMap[n.kind].component.value)
    requires !g.tagged ==> g.d2 == st.space
    ensures EnterTag(st, n, InstanceMap[n.kind]) == Success(st.(space := g.d2,
      pieces := st.pieces + (if g.tagged then [TagOpen(g.d2, g.el)] else [])))
  {
    var e := InstanceMap[n.kind];
    if g.tagged {
      assert At(st.space + 2) == Success(st.space + 2);
      assert ElementName(n, e) == Success(g.el);
      assert EnterTag(st, n, e) ==
        Success(st.(space := st.space + 2, pieces := st.pieces + [TagOpen(st.space + 2, g.el)]));
    } else {
      assert EnterTag(st, n, e) == Success(st);
      assert st.pieces + [] == st.pieces;
    }
  }

  lemma EnterInstanceOutside(st: TState, p: Option<Node>, n: Node)
    requires OutsideMenus(p, n) && st.space >= 0 && !st.skip
    ensures var e := InstanceMap[n.kind];
      var named := e.need && !n.extendsHost;
      var binding := if named then [Binding(st.space, InstanceName(n.attributes, st.rtId))] else [];
      EnterInstance(st, p, n, e) == Success(st.(rtId := CounterAfterHead(n, st.rtId),
        skip := n.kind == "Menu",
        pieces := st.pieces + binding + (if n.kind == "Menu" then [TagEnd] else [])))
  {
    MenuKindsFacts();
    var e := InstanceMap[n.kind];
    if e.need && !n.extendsHost {
      assert At(st.space) == Success(st.space);
      var named := st.(rtId := NextRtId(n.attributes, st.rtId),
        pieces := st.pieces + [Binding(st.space, InstanceName(n.attributes, st.rtId))]);
      if n.kind == "Menu" {
        assert EnterInstance(st, p, n, e) == Success(named.(skip := true, pieces := named.pieces + [TagEnd]));
      } else {
        assert EnterInstance(st, p, n, e) == Success(named);
        assert named.pieces + [] == named.pieces;
      }
    } else {
      assert n.kind != "Menu";
      assert EnterInstance(st, p, n, e) == Success(st);
      assert st.pieces + [] + [] == st.pieces;
    }
  }

  lemma EnterPropsAt(st: TState, n: Node)
    requires n.kind in InstanceMap && st.space >= 0
    ensures EnterProps(st, n, InstanceMap[n.kind]) ==
      Success(st.(pieces := st.pieces + PropPieces(st.space, n.attributes, InstanceMap[n.kind].props)))
  {
    var e := InstanceMap[n.kind];
    if |e.props| == 0 {
      assert PropPieces(st.space, n.attributes, e.props) == [];
      assert st.pieces + [] == st.pieces;
    } else {
      assert At(st.space) == Success(st.space);
    }
  }

  lemma EnterClassAt(st: TState, n: Node)
    requires Shaped(n) && st.space >= 0
    ensures var e := InstanceMap[n.kind];
      EnterClass(st, n, e) == Success(st.(pieces := st.pieces +
        (if n.extendsHost then [ClassBinding(st.space, e.host.value.cssClass)] else [])))
  {
    var e := InstanceMap[n.kind];
    if n.extendsHost {
      assert At(st.space) == Success(st.space);
    } else {
      assert st.pieces + [] == st.pieces;
    }
  }

  lemma EnterOutside(st: TState, p: Option<Node>, n: Node)
    requires OutsideMenus(p, n) && !st.skip && st.space >= 0
    ensures var g := RenderGeometry(PExt(p), n, st.space);
      EnterStep(st, p, n) == Success(TState(
        CounterAfterHead(n, st.rtId), g.d2, n.kind == "Menu",
        st.pieces + OpenPieces(PExt(p), n, st.space) + HeadPieces(n, g.d2, st.rtId)))
  {
    MenuKindsFacts();
    var e := InstanceMap[n.kind];
    var g := RenderGeometry(PExt(p), n, st.space);
    EnterSlotOutside(st, p, n);
    var st1 := st.(space := g.d1, pieces := st.pieces + (if g.slotted then [SlotOpen(g.d1, e.slot.value)] else []));
    EnterTagOutside(st1, n, g);
    var st2 := st1.(space := g.d2, pieces := st1.pieces + (if g.tagged then [TagOpen(g.d2, g.el)] else []));
    assert st2.pieces == st.pieces + OpenPieces(PExt(p), n, st.space);
    EnterInstanceOutside(st2, p, n);
    var named := e.need && !n.extendsHost;
    var binding := if named then [Binding(g.d2, InstanceName(n.attributes, st.rtId))] else [];
    var st3 := st2.(rtId := CounterAfterHead(n, st.rtId), skip := n.kind == "Menu",
      pieces := st2.pieces + binding + (if n.kind == "Menu" then [TagEnd] else []));
    EnterPropsAt(st3, n);
    var st4 := st3.(pieces := st3.pieces + PropPieces(g.d2, n.attributes, e.props));
    EnterClassAt(st4, n);
    var st5 := st4.(pieces := st4.pieces + (if n.extendsHost then [ClassBinding(g.d2, e.host.value.cssClass)] else []));
    var st6 := EnterFinish(st5, e);
    assert Entry(n.kind) == Success(e);
    EnterChain(st, p, n, e, st1, st2, st3, st4, st5);
    assert st6.pieces == st2.pieces + binding + (if n.kind == "Menu" then [TagEnd] else [])
      + PropPieces(g.d2, n.attributes, e.props)
      + (if n.extendsHost then [ClassBinding(g.d2, e.host.value.cssClass)] else [])
      + (if e.component.Some? && n.kind != "Menu" then [TagEnd] else []);
    HeadAssoc(n, g.d2, st.rtId, st2.pieces);
  }

  /** The five parts of the open handler append the head of the reference. */
  lemma HeadAssoc(n: Node, d2: nat, k: nat, ps: seq<Piece>)
    requires Shaped(n)
    ensures var e := InstanceMap[n.kind];
      var binding := if e.need && !n.extendsHost then [Binding(d2, InstanceName(n.attributes, k))] else [];
      ps + binding + (if n.kind == "Menu" then [TagEnd] else [])
        + PropPieces(d2, n.attributes, e.props)
        + (if n.extendsHost then [ClassBinding(d2, e.host.value.cssClass)] else [])
        + (if e.component.Some? && n.kind != "Menu" then [TagEnd] else [])
      == ps + HeadPieces(n, d2, k)
  {
    MenuKindsFacts();
    var e := InstanceMap[n.kind];
    var binding := if e.need && !n.extendsHost then [Binding(d2, InstanceName(n.attributes, k))] else [];
    if n.kind == "Menu" {
      assert !n.extendsHost && e.props == [];
      assert PropPieces(d2, n.attributes, e.props) == [];
      assert ps + binding + [TagEnd] + [] + [] + [] == ps + (binding + [TagEnd]);
    } else {
      var pr := PropPieces(d2, n.attributes, e.props);
      var cl := if n.extendsHost then [ClassBinding(d2, e.host.value.cssClass)] else [];
      var te := if e.component.Some? then [TagEnd] else [];
      assert ps + binding + [] + pr + cl + te == ps + (binding + pr + cl + te);
    }
  }

  /** The open handler is the composition of its five parts. */
  lemma EnterChain(st: TState, p: Option<Node>, n: Node, e: MappingEntry,
                   st1: TState, st2: TState, st3: TState, st4: TState, st5: TState)
    requires Entry(n.kind) == Success(e)
    requires EnterSlot(st, p, n, e) == Success(st1) && EnterTag(st1, n, e) == Success(st2)
    requires EnterInstance(st2, p, n, e) == Success(st3) && EnterProps(st3, n, e) == Success(st4)
    requires EnterClass(st4, n, e) == Success(st5)
    ensures EnterStep(st, p, n) == Success(EnterFinish(st5, e))
  {
  }

  lemma LeaveOutside(st: TState, p: Option<Node>, n: Node, d: nat)
    requires OutsideMenus(p, n)
    requires st.skip == (n.kind == "Menu")
    requires st.space == RenderGeometry(PExt(p), n, d).d2
    ensures LeaveStep(st, p, n) ==
      Success(st.(space := d, skip := false, pieces := st.pieces + ClosePieces(PExt(p), n, d)))
  {
    var e := InstanceMap[n.kind];
    var g := RenderGeometry(PExt(p), n, d);
    var st1 := st.(skip := false);
    assert LeaveSkip(st, p) == st1;
    var st2 := st1.(space := g.d1, pieces := st.pieces + (if g.tagged then [TagClose(g.d2, g.el)] else []));
    if g.tagged {
      assert At(st1.space) == Success(g.d2);
      assert ElementName(n, e) == Success(g.el);
      assert LeaveTag(st1, n, e) == Success(st1.(space := st1.space - 2, pieces := st1.pieces + [TagClose(g.d2, g.el)]));
    } else {
      assert LeaveTag(st1, n, e) == Success(st1);
      assert st1.pieces + [] == st1.pieces;
    }
    assert LeaveTag(st1, n, e) == Success(st2);
    var st3 := st2.(space := d, pieces := st2.pieces + (if g.slotted then [SlotClose(g.d1)] else []));
    if e.slot.Some? {
      assert ParentExtends(p, n) == Success(PExt(p));
      if g.slotted {
        assert At(st2.space) == Success(g.d1);
        assert LeaveSlot(st2, p, n, e) == Success(st2.(space := st2.space - 2, pieces := st2.pieces + [SlotClose(g.d1)]));
      } else {
        assert LeaveSlot(st2, p, n, e) == Success(st2);
        assert st2.pieces + [] == st2.pieces;
      }
    } else {
      assert LeaveSlot(st2, p, n, e) == Success(st2);
      assert st2.pieces + [] == st2.pieces;
    }
    assert LeaveSlot(st2, p, n, e) == Success(st3);
    assert st3.pieces == st.pieces + ClosePieces(PExt(p), n, d);
  }

  /** Outside the menus the fold appends exactly the reference rendering,
      advances the counter as it does, and restores indentation and flag. */
  lemma {:induction false} TemplateOutside(p: Option<Node>, n: Node, st: TState)
    requires OutsideMenus(p, n) && !st.skip && st.space >= 0
    ensures var r := RenderNode(PExt(p), n, st.space, st.rtId);
      Run(st, Walk(p, n)) == Success(st.(rtId := r.1, pieces := st.pieces + r.0))
    decreases n, 1
  {
    var d: nat := st.space;
    var g := RenderGeometry(PExt(p), n, d);
    var k1 := CounterAfterHead(n, st.rtId);
    var opens := OpenPieces(PExt(p), n, d);
    var head := HeadPieces(n, g.d2, st.rtId);
    var st1 := TState(k1, g.d2, n.kind == "Menu", st.pieces + opens + head);
    EnterOutside(st, p, n);
    HandleOne(Step, st, Enter(p, n));
    var inner := if n.kind == "Menu" then ([], k1) else RenderFrom(n, 0, g.d2, k1);
    var st2 := st1.(rtId := inner.1, pieces := st1.pieces + inner.0);
    if n.kind == "Menu" {
      TemplateInsideFrom(n, 0, st1);
      assert st1.pieces + [] == st1.pieces;
    } else {
      TemplateOutsideFrom(n, 0, st1);
    }
    HandleSeq(Step, st, [Enter(p, n)], WalkFrom(n, 0), st1, st2);
    LeaveOutside(st2, p, n, d);
    var st3 := st2.(space := d, skip := false, pieces := st2.pieces + ClosePieces(PExt(p), n, d));
    HandleOne(Step, st2, Leave(p, n));
    HandleSeq(Step, st, [Enter(p, n)] + WalkFrom(n, 0), [Leave(p, n)], st2, st3);
    RenderNodeSplit(PExt(p), n, d, st.rtId);
    SeqRegroup4(st.pieces, opens, head, inner.0, ClosePieces(PExt(p), n, d));
  }

  lemma SeqRegroup4<T>(a: seq<T>, b: seq<T>, c: seq<T>, x: seq<T>, y: seq<T>)
    ensures a + b + c + x + y == a + (b + c + x + y)
  {
  }

  lemma {:induction false} TemplateOutsideFrom(n: Node, i: nat, st: TState)
    requires Shaped(n) && !MenuIsh(n.kind) && i <= |n.children| && !st.skip && st.space >= 0
    ensures var r := RenderFrom(n, i, st.space, st.rtId);
      Run(st, WalkFrom(n, i)) == Success(st.(rtId := r.1, pieces := st.pieces + r.0))
    decreases n, 0, |n.children| - i
  {
    if i < |n.children| {
      var c := n.children[i];
      var first := RenderNode(n.extendsHost, c, st.space, st.rtId);
      var st1 := st.(rtId := first.1, pieces := st.pieces + first.0);
      var rest := RenderFrom(n, i + 1, st.space, first.1);
      var st2 := st1.(rtId := rest.1, pieces := st1.pieces + rest.0);
      assert Run(st, Walk(Some(n), c)) == Success(st1) by {
        ChildOutside(n, i);
        assert PExt(Some(n)) == n.extendsHost;
        TemplateOutside(Some(n), c, st);
      }
      assert Run(st1, WalkFrom(n, i + 1)) == Success(st2) by {
        TemplateOutsideFrom(n, i + 1, st1);
      }
      HandleCons(Step, n, i, st, st1, st2);
      assert RenderFrom(n, i, st.space, st.rtId) == (first.0 + rest.0, rest.1);
      SeqAssoc(st.pieces, first.0, rest.0);
    } else {
      assert st.pieces + [] == st.pieces;
    }
  }

  // ---------------------------------------------------------------------
  // Nesting of the emitted elements, and the whole template
  // ---------------------------------------------------------------------

  /** An element the template opens: a slot wrapper or a component tag, with
      the indentation it is printed at. */
  datatype Frame = SlotFrame(space: nat) | TagFrame(space: nat, el: string)

  function PieceTok(p: Piece): Tok<Frame> {
    match p
    case SlotOpen(s, _) => Open(SlotFrame(s))
    case TagOpen(s, el) => Open(TagFrame(s, el))
    case TagClose(s, el) => Close(TagFrame(s, el))
    case SlotClose(s) => Close(SlotFrame(s))
    case _ => Neutral
  }

  function PieceToks(ps: seq<Piece>): seq<Tok<Frame>> {
    if |ps| == 0 then [] else [PieceTok(ps[0])] + PieceToks(ps[1..])
  }

  lemma {:induction false} PieceToksAppend(a: seq<Piece>, b: seq<Piece>)
    ensures PieceToks(a + b) == PieceToks(a) + PieceToks(b)
    decreases |a|
  {
    if |a| == 0 {
      assert a + b == b;
    } else {
      assert (a + b)[0] == a[0];
      assert (a + b)[1..] == a[1..] + b;
      PieceToksAppend(a[1..], b);
    }
  }

  /** Pieces that open or close nothing. */
  predicate Flat(ps: seq<Piece>) {
    forall i :: 0 <= i < |ps| ==> PieceTok(ps[i]) == Neutral
  }

  lemma {:induction false} FlatBalanced(ps: seq<Piece>)
    requires Flat(ps)
    ensures Balanced(PieceToks(ps))
    decreases |ps|
  {
    if |ps| == 0 {
      assert Match([], PieceToks(ps)) == Some([]);
    } else {
      FlatBalanced(ps[1..]);
      BalancedNeutralPrefix(PieceToks(ps[1..]));
    }
  }

  /** One `prop="<attribute>"` piece per prop of the entry, in the entry's
      order; a missing attribute prints as `undefined`. */
  lemma {:induction false} PropPiecesInOrder(s: nat, attrs: map<string, string>, props: seq<string>)
    ensures |PropPieces(s, attrs, props)| == |props|
    ensures forall i :: 0 <= i < |props| ==>
      PropPieces(s, attrs, props)[i] == Prop(s, props[i], AttrText(attrs, props[i]))
    decreases |props|
  {
    if |props| > 0 {
      PropPiecesInOrder(s, attrs, props[1..]);
    }
  }

  lemma {:induction false} PropPiecesFlat(s: nat, attrs: map<string, string>, props: seq<string>)
    ensures Flat(PropPieces(s, attrs, props))
    ensures |PropPieces(s, attrs, props)| == |props|
    decreases |props|
  {
    if |props| > 0 {
      PropPiecesFlat(s, attrs, props[1..]);
    }
  }

  lemma HeadFlat(n: Node, d2: nat, k: nat)
    requires Shaped(n)
    ensures Flat(HeadPieces(n, d2, k))
  {
    var e := InstanceMap[n.kind];
    PropPiecesFlat(d2, n.attributes, e.props);
  }

  lemma WrapBalanced(cond: bool, v: Frame, open: Piece, body: seq<Piece>, close: Piece)
    requires PieceTok(open) == Open(v) && PieceTok(close) == Close(v)
    requires Balanced(PieceToks(body))
    ensures Balanced(PieceToks(Wrap(cond, open, body, close)))
  {
    if cond {
      PieceToksAppend([open] + body, [close]);
      PieceToksAppend([open], body);
      assert PieceToks([open]) == [Open(v)];
      assert PieceToks([close]) == [Close(v)];
      BalancedWrap(v, PieceToks(body));
    }
  }

  /** Every slot wrapper and tag the reference opens is closed, innermost
      first, by the closing piece with the same element and indentation. */
  lemma {:induction false} RenderNodeBalanced(pext: bool, n: Node, d: nat, k: nat)
    requires Shaped(n)
    ensures Balanced(PieceToks(RenderNode(pext, n, d, k).0))
    decreases n, 1
  {
    var e := InstanceMap[n.kind];
    var g := RenderGeometry(pext, n, d);
    var k1 := CounterAfterHead(n, k);
    var inner := if n.kind == "Menu" then ([], k1) else RenderFrom(n, 0, g.d2, k1);
    var head := HeadPieces(n, g.d2, k);
    HeadFlat(n, g.d2, k);
    FlatBalanced(head);
    if n.kind == "Menu" {
      assert Balanced(PieceToks(inner.0)) by {
        assert PieceToks(inner.0) == [];
      }
    } else {
      RenderFromBalanced(n, 0, g.d2, k1);
    }
    PieceToksAppend(head, inner.0);
    BalancedConcat(PieceToks(head), PieceToks(inner.0));
    var body := head + inner.0;
    WrapBalanced(g.tagged, TagFrame(g.d2, g.el), TagOpen(g.d2, g.el), body, TagClose(g.d2, g.el));
    var tagged := Wrap(g.tagged, TagOpen(g.d2, g.el), body, TagClose(g.d2, g.el));
    WrapBalanced(g.slotted, SlotFrame(g.d1), SlotOpen(g.d1, if g.slotted then e.slot.value else ""), tagged, SlotClose(g.d1));
  }

  lemma {:induction false} RenderFromBalanced(n: Node, i: nat, d: nat, k: nat)
    requires Shaped(n) && i <= |n.children|
    ensures Balanced(PieceToks(RenderFrom(n, i, d, k).0))
    decreases n, 0, |n.children| - i
  {
    if i == |n.children| {
      assert PieceToks([]) == [];
    } else {
      var first := RenderNode(n.extendsHost, n.children[i], d, k);
      var rest := RenderFrom(n, i + 1, d, first.1);
      RenderNodeBalanced(n.extendsHost, n.children[i], d, k);
      RenderFromBalanced(n, i + 1, d, first.1);
      PieceToksAppend(first.0, rest.0);
      BalancedConcat(PieceToks(first.0), PieceToks(rest.0));
    }
  }

  /** The whole template of a well-formed document: the handlers never fail,
      they leave the indentation at zero and the menu flag down, and the text
      is the header, the reference rendering of the root, and the footer, with
      every element it opens closed in order. */
  lemma {:induction false} TemplateOfWellFormed(root: Node)
    requires WellFormed(root)
    ensures var r := RenderNode(false, root, 0, 0);
      && TemplateRun(Document(Some(root))) == Success(TState(r.1, 0, false, r.0))
      && BluiToVueTemplate(Document(Some(root))) == Success(Header + RenderPieces(r.0) + Footer)
      && Balanced(PieceToks(r.0))
  {
    MenuKindsFacts();
    var r := RenderNode(false, root, 0, 0);
    assert OutsideMenus(None, root);
    assert PExt(None) == false;
    TemplateOutside(None, root, Initial);
    assert Initial.pieces + r.0 == r.0;
    RenderNodeBalanced(false, root, 0, 0);
  }

  /** A root of unknown kind, or one whose kind has a slot (whose test reads
      the missing parent), throws at the first handler call. */
  lemma {:induction false} TemplateRootFails(root: Node)
    requires root.kind !in InstanceMap || InstanceMap[root.kind].slot.Some?
    ensures BluiToVueTemplate(Document(Some(root))) ==
      Failure(if root.kind in InstanceMap then NullParent(root.kind) else UnknownKind(root.kind))
  {
    var vs := Walk(None, root);
    assert vs == [Enter(None, root)] + (WalkFrom(root, 0) + [Leave(None, root)]);
    HandleOne(Step, Initial, Enter(None, root));
    HandleFails(Step, Initial, [Enter(None, root)], WalkFrom(root, 0) + [Leave(None, root)]);
  }

  /** The open handler throws on a faulty node, whatever the state. */
  lemma EnterFaultyFails(st: TState, p: Option<Node>, n: Node)
    requires Faulty(n)
    ensures EnterStep(st, p, n).Failure?
  {
    if n.kind in InstanceMap {
      var e := InstanceMap[n.kind];
      assert n.extendsHost && e.host.None?;
      match EnterSlot(st, p, n, e)
      case Failure(_) =>
      case Success(st1) =>
        match EnterTag(st1, n, e)
        case Failure(_) =>
        case Success(st2) =>
          match EnterInstance(st2, p, n, e)
          case Failure(_) =>
          case Success(st3) =>
            match EnterProps(st3, n, e)
            case Failure(_) =>
            case Success(st4) =>
              assert EnterClass(st4, n, e).Failure?;
    }
  }

  /** A faulty node anywhere in the tree makes the generator throw: an
      unregistered kind, or `extends` on a kind without host element. */
  lemma {:induction false} TemplateFaultyFails(root: Node, m: Node)
    requires m in PreOrder(root) && Faulty(m)
    ensures BluiToVueTemplate(Document(Some(root))).Failure?
  {
    WalkVisitsSubtree(None, root);
    forall s: TState, p: Option<Node>
      ensures Step(s, Enter(p, m)).Failure?
    {
      EnterFaultyFails(s, p, m);
    }
    HandleReachesFault(Step, Initial, Walk(None, root), m);
  }

  // ---------------------------------------------------------------------
  // A MenuItem outside every menu
  // ---------------------------------------------------------------------

  const StrayButton: Node := Node("Button", map[], false, [])
  const StrayItem: Node := Node("MenuItem", map[], false, [StrayButton])
  const StrayWindow: Node := Node("Window", map[], false, [StrayItem])

  /** The states after opening the Window, after opening the Button, after
      leaving the Button, and at the end. */
  const StrayOpened: TState := TState(1, 2, false, [TagOpen(2, "bl-window"), Binding(2, "rt0"), TagEnd])
  const StrayNested: TState :=
    TState(2, 4, false, StrayOpened.pieces + [TagOpen(4, "bl-button"), Binding(4, "rt1"), TagEnd])
  const StraySkipping: TState := StrayNested.(skip := true)
  const StrayEnd: TState := TState(2, 2, false, StrayNested.pieces + [TagClose(4, "bl-window")])

  lemma StrayWalk()
    ensures Walk(None, StrayWindow) ==
      [Enter(None, StrayWindow), Enter(Some(StrayWindow), StrayItem), Enter(Some(StrayItem), StrayButton),
       Leave(Some(StrayItem), StrayButton), Leave(Some(StrayWindow), StrayItem), Leave(None, StrayWindow)]
  {
    assert WalkFrom(StrayItem, 1) == [];
    assert WalkFrom(StrayItem, 0) == Walk(Some(StrayItem), StrayButton);
    assert WalkFrom(StrayWindow, 1) == [];
    assert WalkFrom(StrayWindow, 0) == Walk(Some(StrayWindow), StrayItem);
  }

  lemma StrayWindowOpens()
    ensures Step(Initial, Enter(None, StrayWindow)) == Success(StrayOpened)
  {
    var w, ew := StrayWindow, InstanceMap["Window"];
    assert NatToString(0) == "0";
    assert InstanceName(w.attributes, 0) == "rt0";
    var w1 := TState(0, 2, false, [TagOpen(2, "bl-window")]);
    assert Initial.pieces + [TagOpen(2, "bl-window")] == w1.pieces;
    assert EnterSlot(Initial, None, w, ew) == Success(Initial);
    assert EnterTag(Initial, w, ew) == Success(w1);
    assert EnterInstance(w1, None, w, ew) == Success(w1.(rtId := 1, pieces := w1.pieces + [Binding(2, "rt0")]));
    assert w1.pieces + [Binding(2, "rt0")] + [TagEnd] == StrayOpened.pieces;
  }

  lemma StrayButtonOpens()
    ensures Step(StrayOpened, Enter(Some(StrayItem), StrayButton)) == Success(StrayNested)
  {
    var b, eb, s1 := StrayButton, InstanceMap["Button"], StrayOpened;
    assert NatToString(1) == "1";
    assert InstanceName(b.attributes, 1) == "rt1";
    var b1 := TState(1, 4, false, s1.pieces + [TagOpen(4, "bl-button")]);
    assert EnterSlot(s1, Some(StrayItem), b, eb) == Success(s1);
    assert EnterTag(s1, b, eb) == Success(b1);
    assert EnterInstance(b1, Some(StrayItem), b, eb) == Success(b1.(rtId := 2, pieces := b1.pieces + [Binding(4, "rt1")]));
    assert b1.pieces + [Binding(4, "rt1")] + [TagEnd] == StrayNested.pieces;
  }

  lemma StrayWindowCloses()
    ensures Step(StrayNested, Leave(None, StrayWindow)) == Success(StrayEnd)
  {
    assert LeaveSkip(StrayNested, None) == StrayNested;
    assert LeaveTag(StrayNested, StrayWindow, InstanceMap["Window"]) == Success(StrayEnd);
  }

  lemma StrayRun()
    ensures TemplateRun(Document(Some(StrayWindow))) == Success(StrayEnd)
  {
    var w, i, b := StrayWindow, StrayItem, StrayButton;
    StrayWalk();
    var vs := Walk(None, w);
    StrayWindowOpens();
    StrayButtonOpens();
    StrayWindowCloses();
    assert Step(StrayOpened, vs[1]) == Success(StrayOpened);
    assert Step(StrayNested, vs[3]) == Success(StraySkipping);
    assert Step(StraySkipping, vs[4]) == Success(StrayNested);
    assert vs[5..] == [vs[5]];
    HandleOne(Step, StrayNested, vs[5]);
    assert Run(StraySkipping, vs[4..]) == Success(StrayEnd);
    assert Run(StrayNested, vs[3..]) == Success(StrayEnd);
    assert Run(StrayOpened, vs[2..]) == Success(StrayEnd);
    assert Run(StrayOpened, vs[1..]) == Success(StrayEnd);
  }

  lemma StrayUnbalanced()
    ensures !Balanced(PieceToks(StrayEnd.pieces))
  {
    var opens := [Open(TagFrame(2, "bl-window")), Neutral, Neutral, Open(TagFrame(4, "bl-button")), Neutral, Neutral];
    var close := Close(TagFrame(4, "bl-window"));
    PieceToksAppend(StrayNested.pieces, [TagClose(4, "bl-window")]);
    PieceToksAppend(StrayOpened.pieces, [TagOpen(4, "bl-button"), Binding(4, "rt1"), TagEnd]);
    assert PieceToks(StrayOpened.pieces) == opens[..3];
    assert PieceToks([TagOpen(4, "bl-button"), Binding(4, "rt1"), TagEnd]) == opens[3..];
    assert PieceToks(StrayEnd.pieces) == opens + [close];
    MatchAppend([], opens, [close]);
    var w, b := TagFrame(2, "bl-window"), TagFrame(4, "bl-button");
    assert Match([w, b], opens[4..]) == Some([w, b]) by {
      assert opens[4..][1..] == opens[5..];
      assert opens[5..][1..] == [];
    }
    assert Match([w], opens[3..]) == Some([w, b]) by {
      assert opens[3..][0] == Open(b);
      assert opens[3..][1..] == opens[4..];
      assert [w] + [b] == [w, b];
    }
    assert Match([w], opens[1..]) == Some([w, b]) by {
      assert opens[1..][1..] == opens[2..];
      assert opens[2..][1..] == opens[3..];
    }
    assert [] + [w] == [w];
    assert [w] + [b] == [w, b];
  }

  /** The handlers on a Window holding a MenuItem that holds a Button, as
      written: none throws, but leaving the Button raises `skip` because its
      parent is a MenuItem, so `</bl-button>` is never written; leaving the
      MenuItem lowers it again, and `</bl-window>` is written at the Button's
      indentation. The text is not balanced. */
  lemma StrayMenuItemUnbalanced()
    ensures TemplateRun(Document(Some(StrayWindow))) == Success(TState(2, 2, false,
      [TagOpen(2, "bl-window"), Binding(2, "rt0"), TagEnd,
       TagOpen(4, "bl-button"), Binding(4, "rt1"), TagEnd,
       TagClose(4, "bl-window")]))
    ensures !Balanced(PieceToks(TemplateRun(Document(Some(StrayWindow))).value.pieces))
    ensures BluiToVueTemplate(Document(Some(StrayWindow))).Success?
  {
    StrayRun();
    StrayUnbalanced();
    assert StrayEnd.pieces == [TagOpen(2, "bl-window"), Binding(2, "rt0"), TagEnd,
      TagOpen(4, "bl-button"), Binding(4, "rt1"), TagEnd, TagClose(4, "bl-window")];
  }

  /** The menu rules a tree must follow for its tags to nest: no MenuItem at
      the root, and the rules of `MenusPlaced` everywhere. */
  predicate MenusNested(root: Node) {
    root.kind != "MenuItem" && MenusPlaced(root)
  }

  /** `bluiToVueTemplate` corrected to fail on a misplaced menu element
      instead of emitting text whose tags do not match. */
  function GuardedTemplate(d: Document): Result<string> {
    if d.root.Some? && !MenusNested(d.root.value) then Failure(MenuOutOfPlace)
    else BluiToVueTemplate(d)
  }

  lemma {:induction false} ShapedPlaced(n: Node)
    requires Shaped(n)
    ensures MenusPlaced(n)
    decreases n
  {
    forall i | 0 <= i < |n.children|
      ensures MenusPlaced(n.children[i])
    {
      ShapedPlaced(n.children[i]);
    }
  }

  /** The corrected generator gives balanced text whenever it does not
      throw: it then ran on a well-formed tree, and its text is the header,
      the reference rendering and the footer. */
  lemma {:induction false} GuardedTemplateBalanced(root: Node)
    ensures var r := GuardedTemplate(Document(Some(root)));
      r.Success? ==>
        && WellFormed(root)
        && var ref := RenderNode(false, root, 0, 0).0;
           r.value == Header + RenderPieces(ref) + Footer && Balanced(PieceToks(ref))
  {
    var d := Document(Some(root));
    if GuardedTemplate(d).Success? {
      assert BluiToVueTemplate(d).Success?;
      if !Shaped(root) {
        var m := FaultyWitness(root);
        TemplateFaultyFails(root, m);
        assert false;
      }
      if InstanceMap[root.kind].slot.Some? {
        TemplateRootFails(root);
        assert false;
      }
      TemplateOfWellFormed(root);
    }
  }

  /** The corrected generator rejects the tree of `StrayMenuItemUnbalanced`. */
  lemma GuardedRejectsStray()
    ensures GuardedTemplate(Document(Some(StrayWindow))) == Failure(MenuOutOfPlace)
  {
    assert !MenusPlaced(StrayWindow) by {
      assert StrayWindow.children[0] == StrayItem;
    }
  }

  /** On a well-formed tree the correction changes nothing. */
  lemma GuardedAgrees(root: Node)
    requires WellFormed(root)
    ensures GuardedTemplate(Document(Some(root))) == BluiToVueTemplate(Document(Some(root)))
  {
    ShapedPlaced(root);
  }

  // ---------------------------------------------------------------------
  // The names the template binds
  // ---------------------------------------------------------------------

  /** The `:instance` names, in order. */
  function Bindings(ps: seq<Piece>): seq<string> {
    if |ps| == 0 then []
    else (if ps[0].Binding? then [ps[0].name] else []) + Bindings(ps[1..])
  }

  lemma {:induction false} BindingsAppend(a: seq<Piece>, b: seq<Piece>)
    ensures Bindings(a + b) == Bindings(a) + Bindings(b)
    decreases |a|
  {
    if |a| == 0 {
      assert a + b == b;
    } else {
      assert (a + b)[0] == a[0];
      assert (a + b)[1..] == a[1..] + b;
      BindingsAppend(a[1..], b);
    }
  }

  lemma BindingsOne(x: Piece)
    ensures Bindings([x]) == if x.Binding? then [x.name] else []
  {
    assert [x][1..] == [];
  }

  lemma {:induction false} PropPiecesBindNothing(s: nat, attrs: map<string, string>, props: seq<string>)
    ensures Bindings(PropPieces(s, attrs, props)) == []
    decreases |props|
  {
    if |props| > 0 {
      PropPiecesBindNothing(s, attrs, props[1..]);
    }
  }

  /** The head binds the node's name exactly when it has an instance and is
      not a host. */
  lemma HeadBindings(n: Node, d2: nat, k: nat)
    requires Shaped(n)
    ensures var e := InstanceMap[n.kind];
      Bindings(HeadPieces(n, d2, k)) ==
        if e.need && !n.extendsHost then [InstanceName(n.attributes, k)] else []
  {
    var e := InstanceMap[n.kind];
    var named := e.need && !n.extendsHost;
    var binding := if named then [Binding(d2, InstanceName(n.attributes, k))] else [];
    assert Bindings(binding) == if named then [InstanceName(n.attributes, k)] else [];
    if n.kind == "Menu" {
      BindingsAppend(binding, [TagEnd]);
    } else {
      var pr := PropPieces(d2, n.attributes, e.props);
      var cl := if n.extendsHost then [ClassBinding(d2, e.host.value.cssClass)] else [];
      var te := if e.component.Some? then [TagEnd] else [];
      PropPiecesBindNothing(d2, n.attributes, e.props);
      BindingsAppend(binding, pr);
      BindingsAppend(binding + pr, cl);
      BindingsAppend(binding + pr + cl, te);
    }
  }

  /** The slot and tag pieces around a node bind nothing. */
  lemma FrameBindings(pext: bool, n: Node, d: nat)
    requires Shaped(n)
    ensures Bindings(OpenPieces(pext, n, d)) == [] && Bindings(ClosePieces(pext, n, d)) == []
  {
    var g := RenderGeometry(pext, n, d);
    var os := if g.slotted then [SlotOpen(g.d1, InstanceMap[n.kind].slot.value)] else [];
    var ot := if g.tagged then [TagOpen(g.d2, g.el)] else [];
    var ct := if g.tagged then [TagClose(g.d2, g.el)] else [];
    var cs := if g.slotted then [SlotClose(g.d1)] else [];
    if g.slotted {
      BindingsOne(SlotOpen(g.d1, InstanceMap[n.kind].slot.value));
      BindingsOne(SlotClose(g.d1));
    }
    if g.tagged {
      BindingsOne(TagOpen(g.d2, g.el));
      BindingsOne(TagClose(g.d2, g.el));
    }
    BindingsAppend(os, ot);
    BindingsAppend(ct, cs);
  }
}

=== FILE: utils.dfy ===
/** String helpers of utils.js: snake_case to camelCase conversion,
    indentation, and the three line formats of the `Instance` class. */
module Utils {
  import opened Wrappers

  // ---------------------------------------------------------------------
  // toCamelCase: `text.replace(/_([a-z])/g, c => c.toUpperCase())`
  // ---------------------------------------------------------------------

  predicate IsLower(c: char) {
    'a' <= c <= 'z'
  }

  function Upper(c: char): (u: char)
    requires IsLower(c)
    ensures 'A' <= u <= 'Z'
  {
    (c as int - 32) as char
  }

  /** The global regular expression `_([a-z])` can match at position i. */
  predicate MatchAt(s: string, i: int) {
    0 <= i && i + 1 < |s| && s[i] == '_' && IsLower(s[i + 1])
  }

  /** The replacement scans left to right: a match replaces two characters by
      one, and scanning resumes after it; any other character is copied. */
  function ToCamelCase(s: string): string
    decreases |s|
  {
    if |s| == 0 then []
    else if MatchAt(s, 0) then [Upper(s[1])] + ToCamelCase(s[2..])
    else [s[0]] + ToCamelCase(s[1..])
  }

  /** What position i of the input becomes, decided by its neighbours alone:
      an underscore before a lower-case letter disappears, that letter is
      raised, and every other character stays. */
  function CamelPiece(s: string, i: int): string
    requires 0 <= i < |s|
  {
    if MatchAt(s, i) then []
    else if MatchAt(s, i - 1) then [Upper(s[i])]
    else [s[i]]
  }

  /** Reference definition of the conversion: the pieces of positions i.. */
  function CamelFrom(s: string, i: int): string
    requires 0 <= i <= |s|
    decreases |s| - i
  {
    if i == |s| then [] else CamelPiece(s, i) + CamelFrom(s, i + 1)
  }

  /** Number of regular-expression matches at positions i.. */
  function MatchesFrom(s: string, i: int): nat
    requires 0 <= i <= |s|
    decreases |s| - i
  {
    if i == |s| then 0 else (if MatchAt(s, i) then 1 else 0) + MatchesFrom(s, i + 1)
  }

  lemma {:induction false} CamelScanFrom(s: string, i: int)
    requires 0 <= i <= |s|
    requires !MatchAt(s, i - 1)
    ensures ToCamelCase(s[i..]) == CamelFrom(s, i)
    decreases |s| - i
  {
    if i == |s| {
    } else if MatchAt(s, i) {
      assert MatchAt(s[i..], 0);
      assert s[i..][2..] == s[i + 2..];
      assert !MatchAt(s, i + 1);
      CamelScanFrom(s, i + 2);
      if i + 2 == |s| {
        assert CamelFrom(s, i + 1) == CamelPiece(s, i + 1);
      }
    } else {
      assert !MatchAt(s[i..], 0);
      assert s[i..][1..] == s[i + 1..];
      CamelScanFrom(s, i + 1);
    }
  }

  /** The scanning conversion agrees with the position-wise reference. */
  lemma CamelCaseIsPointwise(s: string)
    ensures ToCamelCase(s) == CamelFrom(s, 0)
  {
    assert s[0..] == s;
    CamelScanFrom(s, 0);
  }

  lemma {:induction false} CamelFromLength(s: string, i: int)
    requires 0 <= i <= |s|
    ensures |CamelFrom(s, i)| == (|s| - i) - MatchesFrom(s, i)
    decreases |s| - i
  {
    if i < |s| {
      CamelFromLength(s, i + 1);
    }
  }

  /** Every match removes exactly one character. */
  lemma CamelCaseLength(s: string)
    ensures |ToCamelCase(s)| == |s| - MatchesFrom(s, 0)
  {
    CamelCaseIsPointwise(s);
    CamelFromLength(s, 0);
  }

  /** A string that does not start with a lower-case letter converts to one
      that does not either. */
  lemma {:induction false} CamelHead(s: string)
    requires |s| > 0 && !IsLower(s[0])
    ensures |ToCamelCase(s)| > 0 && !IsLower(ToCamelCase(s)[0])
  {
  }

  /** The result of a conversion holds no further match. */
  lemma {:induction false} CamelCaseNoMatch(s: string)
    ensures forall j :: !MatchAt(ToCamelCase(s), j)
    decreases |s|
  {
    if |s| > 0 {
      var r := ToCamelCase(s);
      var rest := if MatchAt(s, 0) then s[2..] else s[1..];
      CamelCaseNoMatch(rest);
      var tail := ToCamelCase(rest);
      assert r == [r[0]] + tail;
      forall j | MatchAt(r, j)
        ensures false
      {
        if j == 0 {
          assert r[0] == '_' && !MatchAt(s, 0);
          assert |rest| > 0 && !IsLower(rest[0]);
          CamelHead(rest);
        } else {
          assert MatchAt(tail, j - 1);
        }
      }
    }
  }

  /** A string without a match is left as it is. */
  lemma {:induction false} CamelCaseIdentity(s: string)
    requires forall j :: !MatchAt(s, j)
    ensures ToCamelCase(s) == s
    decreases |s|
  {
    if |s| > 0 {
      assert !MatchAt(s, 0);
      forall j ensures !MatchAt(s[1..], j) {
        assert !MatchAt(s, j + 1);
      }
      CamelCaseIdentity(s[1..]);
    }
  }

  /** Converting twice is converting once. */
  lemma CamelCaseIdempotent(s: string)
    ensures ToCamelCase(ToCamelCase(s)) == ToCamelCase(s)
  {
    CamelCaseNoMatch(s);
    CamelCaseIdentity(ToCamelCase(s));
  }

  // ---------------------------------------------------------------------
  // indent, Array.prototype.join and number formatting
  // ---------------------------------------------------------------------

  /** `' '.repeat(space)`; a negative count is a fault of the caller. */
  function Indent(space: nat): (r: string)
    ensures |r| == space
    ensures forall i :: 0 <= i < |r| ==> r[i] == ' '
  {
    if space == 0 then "" else " " + Indent(space - 1)
  }

  /** The count handed to `indent`, which throws a RangeError when it is
      negative. */
  function At(space: int): (r: Result<nat>)
    ensures space >= 0 ==> r == Success(space)
    ensures space < 0 ==> r == Failure(NegativeIndent(space))
  {
    if space < 0 then Failure(NegativeIndent(space)) else Success(space)
  }

  /** `xs.join(sep)`. */
  function Join(xs: seq<string>, sep: string): string {
    if |xs| == 0 then ""
    else if |xs| == 1 then xs[0]
    else xs[0] + sep + Join(xs[1..], sep)
  }

  function Concat(xs: seq<string>): string {
    if |xs| == 0 then "" else xs[0] + Concat(xs[1..])
  }

  function SumLengths(xs: seq<string>): nat {
    if |xs| == 0 then 0 else |xs[0]| + SumLengths(xs[1..])
  }

  /** A join holds every part and one separator between each two of them. */
  lemma {:induction false} JoinLength(xs: seq<string>, sep: string)
    requires |xs| > 0
    ensures |Join(xs, sep)| == SumLengths(xs) + (|xs| - 1) * |sep|
  {
    if |xs| > 1 {
      JoinLength(xs[1..], sep);
    } else {
      assert SumLengths(xs[1..]) == 0;
    }
  }

  lemma {:induction false} ConcatAppend(a: seq<string>, b: seq<string>)
    ensures Concat(a + b) == Concat(a) + Concat(b)
  {
    if |a| == 0 {
      assert a + b == b;
    } else {
      assert (a + b)[1..] == a[1..] + b;
      ConcatAppend(a[1..], b);
    }
  }

  lemma SeqAssoc<T>(a: seq<T>, b: seq<T>, c: seq<T>)
    ensures a + b + c == a + (b + c)
  {
  }

  predicate IsDigit(c: char) {
    '0' <= c <= '9'
  }

  function DigitChar(d: nat): char
    requires d < 10
  {
    ('0' as int + d) as char
  }

  /** Decimal text of a number, as a template literal writes it. */
  function NatToString(n: nat): (r: string)
    ensures |r| > 0
    ensures forall i :: 0 <= i < |r| ==> IsDigit(r[i])
    ensures r[0] == '0' ==> n == 0
  {
    if n < 10 then [DigitChar(n)] else NatToString(n / 10) + [DigitChar(n % 10)]
  }

  /** The number a run of decimal digits denotes, most significant first. */
  function DigitsValue(s: string): nat
    requires forall i :: 0 <= i < |s| ==> IsDigit(s[i])
  {
    if |s| == 0 then 0
    else
      assert IsDigit(s[|s| - 1]);
      DigitsValue(s[..|s| - 1]) * 10 + (s[|s| - 1] as int - '0' as int)
  }

  /** The counter prints as its own decimal value. */
  lemma {:induction false} NatToStringValue(n: nat)
    ensures DigitsValue(NatToString(n)) == n
  {
    var s := NatToString(n);
    if n < 10 {
      assert s[..0] == [];
    } else {
      assert s[..|s| - 1] == NatToString(n / 10);
      NatToStringValue(n / 10);
    }
  }

  // ---------------------------------------------------------------------
  // class Instance
  // ---------------------------------------------------------------------

  datatype Instance = Instance(name: string, cls: string) {

    /** `this.<name> = new <Class>(<args joined by ', '>);\n` */
    function New(args: seq<string>): string {
      "this." + name + " = new " + cls + "(" + Join(args, ", ") + ");\n"
    }

    /** `let <name> = new <Class>(<args joined by ', '>);\n` */
    function LetNew(args: seq<string>): string {
      "let " + name + " = new " + cls + "(" + Join(args, ", ") + ");\n"
    }

    /** `this.<name>.<key> = <value>;\n` */
    function Assign(key: string, value: string): string {
      "this." + name + "." + key + " = " + value + ";\n"
    }
  }

  /** `new` and `letNew` differ only in the five-letter `this.` against the
      four-letter `let ` prefix; everything after it is the same text. */
  lemma NewAndLetNewShareBody(inst: Instance, args: seq<string>)
    ensures inst.New(args)[..5] == "this."
    ensures inst.LetNew(args)[..4] == "let "
    ensures inst.New(args)[5..] == inst.LetNew(args)[4..]
    ensures |inst.New(args)| == |inst.LetNew(args)| + 1
  {
    var body := inst.name + " = new " + inst.cls + "(" + Join(args, ", ") + ");\n";
    assert inst.New(args) == "this." + body;
    assert inst.LetNew(args) == "let " + body;
  }

  /** Without arguments the constructor call is `()`. */
  lemma NewWithoutArguments(inst: Instance)
    ensures inst.New([]) == "this." + inst.name + " = new " + inst.cls + "();\n"
  {
  }
}

=== FILE: wrappers.dfy ===
/** Failure-compatible wrappers shared by every module of the model, and the
    faults that the JavaScript compiler raises as run-time exceptions. */
module Wrappers {

  datatype Option<+T> = None | Some(value: T)

  /** The exceptions the compiler can throw. The source never catches them,
      so each one aborts the whole compilation. */
  datatype Fault =
    /** `instanceMap[kind]` is undefined and a field of it is read. */
    | UnknownKind(kind: string)
    /** a field of the null parent of the root is read. */
    | NullParent(kind: string)
    /** `map.extends.el` or `map.extends.class` on a kind without host element. */
    | NoHostElement(kind: string)
    /** `' '.repeat(n)` with a negative count throws a RangeError. */
    | NegativeIndent(space: int)
    /** `toCamelCase(undefined)`: the menu root has no `instance` attribute. */
    | UndefinedInstance(kind: string)
    /** the document has no element to start the traversal at. */
    | NoRoot
    /** raised only by the corrected template generator: a MenuItem outside
        every menu, or a node that is neither Menu nor MenuItem inside one. */
    | MenuOutOfPlace

  datatype Result<+T> = Success(value: T) | Failure(fault: Fault) {

    predicate IsFailure() {
      Failure?
    }

    function PropagateFailure<U>(): Result<U>
      requires Failure?
    {
      Failure(fault)
    }

    function Extract(): T
      requires Success?
    {
      value
    }
  }
}
